=== FILE: README.md ===
# Sirius calendar: completion, deferral and dashboard logic in Dafny

This project models the scheduling core of the Sirius agricultural calendar.
Field activities such as "Aplicación Preventiva Biológicos - Bloque 3 - Día 2"
are planned over hectare blocks, in four two-month cycles a year. The model
covers three parts.

- **Completing an activity** (`POST /api/activities/complete-with-hectares`,
  modules `Redistribution` and `Shifter`).
  - The request is validated.
  - The activity is marked `completada` with the area actually worked.
  - The difference to the planned area is redistributed over the block's
    pending activities. The policy first uses the block's buffer
    ("comodín"/remainder) day, then creates new activities, spreads a
    deficit, or shifts the rest of the calendar forward.
- **Deferring an activity** (`POST /api/activities/defer`, module
  `Reorganizer`). The requested date only sets an offset: the number of
  working days from the activity's old date to the new one. Every scheduled
  activity of the cycle, the deferred one included, is then laid out again on
  consecutive working days. The layout starts from the first activity's date
  moved by that offset. The deferred activity lands on its own slot in that
  layout. That slot is in general not the requested date, and it can be
  earlier than the old date. An activity whose slot equals its old timestamp is
  not written at all; so when the deferred one is in that case, it is not
  marked `aplazada`.
- **Calendar page helpers** (module `Dashboard`): per-block and overall
  statistics, grouping by month, block colours and the block filter.

Supporting modules:

| module | contents |
|---|---|
| `Base` | `Option` and `Result` |
| `Text` | the character classes, substring search and the small regular-expression family the names are parsed with |
| `Calendar` | proleptic Gregorian civil dates, epoch day numbers, weekdays and instants |
| `Workdays` | the two "working day" notions of the handlers |
| `Activities` | activity rows and the store with its get, update, delete, create and ordered query |
| `Names` | block number, day index and buffer-day detection |
| `Cycles` | the cycle tables and the cycle date ranges |

Modelling choices:

- **Instants.** An instant is a civil date plus a time of day in
  milliseconds. All dates are in one local time zone, so there is no
  daylight-saving shift.
- **Order of instants.** Instants compare by day number, then by time.
- **Weekdays.** `Weekday` counts from the epoch day 1970-01-01, which was a
  Thursday. Sunday is 0.
- **The store.** The store is a sequence of rows in table order plus the
  next identifier.
- **Query order.** A query keeps the matching rows and sorts them stably by
  date. Rows with equal dates come back in table order, whereas the
  database leaves their order unspecified.
- **Failing store calls.** Most calls that can fail are a boolean or a
  position in a `Faults` or `DeferFaults` record, given as a parameter. The
  activity lookups of both handlers are not: they always succeed (see
  "## Left out").

Behaviour of the handlers that the model keeps:

- The completion handler checks block and cycle BEFORE writing `completada`,
  so an activity without a block is rejected and stays unchanged.
- Both handlers exclude only Sunday as a non-working day.
- Hectares are conserved only by some branches of the redistribution
  (`DecisionConservation` states exactly which).
- The forward shift compacts the calendar. The k-th shifted activity lands
  k + 1 working-day steps after the insertion date, and this can move an
  activity EARLIER (`ShiftCanMoveEarlier`).

## Model

In the source column, `complete` stands for
`src/app/api/activities/complete-with-hectares/route.ts`, `defer` for
`src/app/api/activities/defer/route.ts` and `page` for
`src/app/calendar/page.tsx`; the cells spell the paths out.

| member | source | states |
|---|---|---|
| Text.OccursFrom | src/app/api/activities/complete-with-hectares/route.ts:124-137 | a keyword test is true exactly when the keyword occurs at some position at or after the start, with the letter case folded when asked |
| Text.ExecCapturesLeftmostGreedyRun | src/app/api/activities/complete-with-hectares/route.ts:50-56 | `match` finds nothing exactly when the pattern matches at no position; otherwise the number is the value of the WHOLE digit run after the leftmost match |
| Text.DecimalTextRoundTrip | src/app/api/activities/complete-with-hectares/route.ts:367 | the block number written into the `Bloque N` filter reads back as the same number |
| Names.FirstPatternValue | src/app/api/activities/complete-with-hectares/route.ts:50-60 | the patterns are tried in list order: the result is absent iff none matches, else it is the capture of the first matching one |
| Names.ExtractBlockNumber | src/app/api/activities/complete-with-hectares/route.ts:38-61 | the block number is the capture of the first of the six block patterns that matches the name, absent when none does |
| Names.TwoDigitBlockIsNotReadAsOneDigit | src/app/api/activities/complete-with-hectares/route.ts:41-48 | "Bloque 90 - Día 3" is block 90, not block 9 |
| Names.ElevenIsNotReadAsOne | src/app/api/activities/complete-with-hectares/route.ts:41-48 | "Bloque 11 Control" is block 11, not block 1 |
| Names.ExtractDayNumber | src/app/api/activities/complete-with-hectares/route.ts:158-161 | 999 when "Día " followed by a digit occurs nowhere; otherwise the value of the whole digit run after its leftmost occurrence |
| Names.ContainsAny | src/app/api/activities/complete-with-hectares/route.ts:124-137 | a name is a buffer day iff it contains one of the eight keywords in any letter case |
| Names.RemainderDayIsBuffer | src/app/api/activities/complete-with-hectares/route.ts:126 | "Bloque 3 - Día Remanente" is a buffer day |
| Names.PageBlockNumber | src/app/calendar/page.tsx:237-240 | the page's block number is absent exactly when "Bloque " followed by a digit occurs nowhere; otherwise it is the value of the whole digit run after the leftmost occurrence |
| Cycles.CycleMonths | src/app/api/activities/complete-with-hectares/route.ts:352-360 | each cycle has two consecutive months of one year |
| Cycles.CanonicalCycle | src/app/calendar/page.tsx:242-256 | a month has a cycle iff it is one of the eight cycle months, and then it is one of that cycle's two months |
| Cycles.CycleFromDate | src/app/api/activities/complete-with-hectares/route.ts:64-121 | every parseable date has a cycle; a cycle month gets its own cycle, and each of the other four months gets the cycle that starts the month after |
| Cycles.PageCycleFromDate | src/app/calendar/page.tsx:242-256 | the page gives a cycle only to a date in one of the eight cycle months |
| Cycles.RouteExtendsPage | src/app/api/activities/complete-with-hectares/route.ts:87-107 | the completion handler and the page agree on cycle months; on the other four months only the handler gives a cycle |
| Cycles.CompletionRangeMembership | src/app/api/activities/complete-with-hectares/route.ts:351-369 | an instant is in the pending query's range iff it is in one of the cycle's months of that year, except the last 999 ms of the cycle, which the `23:59:59` bound leaves out |
| Cycles.DeferRangeMembership | src/app/api/activities/defer/route.ts:145-172 | an instant is in the deferral's half-open range iff it is in one of the cycle's months of that year, December cycles included |
| Calendar.DayNumberOrder | src/app/api/activities/complete-with-hectares/route.ts:183-186 | comparing dates field by field agrees with comparing their day numbers |
| Calendar.DayNumberInjective | src/app/api/activities/complete-with-hectares/route.ts:183-186 | two dates have the same day number iff they are equal |
| Calendar.NextDate | src/app/api/activities/complete-with-hectares/route.ts:147 | `setDate(getDate() + 1)` gives the date whose day number is one more, with the next weekday |
| Calendar.PrevDate | src/app/api/activities/defer/route.ts:31 | `setDate(getDate() - 1)` gives the date whose day number is one less, with the previous weekday |
| Calendar.InstantOrderTotal | src/app/api/activities/complete-with-hectares/route.ts:209 | the order of instants is strict and total: distinct instants are comparable one way only |
| Workdays.OnlySundayIsOff | src/app/api/activities/defer/route.ts:13-16 | a day is not a working day iff it is a Sunday |
| Workdays.NextWorkingDay | src/app/api/activities/defer/route.ts:19-25 | the result is a working day at the same time, one day later, or two when the next day is a Sunday |
| Workdays.PreviousWorkingDay | src/app/api/activities/defer/route.ts:28-34 | the result is a working day at the same time, one day earlier, or two when the previous day is a Sunday |
| Workdays.AdvanceToWorkingDay | src/app/api/activities/defer/route.ts:225-227 | the result is a working day: the same day, or the next one when the day is a Sunday |
| Workdays.NextWorkday | src/app/api/activities/complete-with-hectares/route.ts:145-155 | the result is strictly later, not a Sunday, one or two days on, at the same time of day |
| Workdays.NextWorkdayAgrees | src/app/api/activities/complete-with-hectares/route.ts:145-155 | the completion handler's `getNextWorkday` equals the deferral handler's `getNextWorkingDay` |
| Workdays.CountForward | src/app/api/activities/defer/route.ts:47-53 | the forward count is the least number of working-day steps that reaches or passes the end |
| Workdays.CountBackward | src/app/api/activities/defer/route.ts:41-46 | the backward count is the least number of steps back that reaches or passes the end |
| Workdays.WorkingDaysDifference | src/app/api/activities/defer/route.ts:37-56 | the difference is 0, positive or negative exactly when the end is equal, later or earlier, and its size is the least step count that reaches the end |
| Activities.Round | src/app/api/activities/complete-with-hectares/route.ts:428 | `Math.round` gives the integer within one half of its argument, halves rounded up |
| Activities.Get | src/lib/database.ts:56-65 | the lookup returns a row with the identifier, and returns nothing iff no row has it |
| Activities.UpdateRows | src/lib/database.ts:68-79 | an update patches exactly the rows with the identifier and keeps the rest and the row count |
| Activities.DeleteRows | src/app/api/activities/complete-with-hectares/route.ts:539-540 | a delete removes exactly the rows with the identifier |
| Activities.Create | src/lib/database.ts:81-91 | an insert appends one row with a fresh identifier and keeps the store's identifiers unique |
| Activities.UpdateKeepsValid | src/lib/database.ts:68-79 | an update keeps identifiers unique and below the next one |
| Activities.DeleteKeepsValid | src/app/api/activities/complete-with-hectares/route.ts:539-540 | a delete keeps identifiers unique and below the next one |
| Activities.Select | src/lib/database.ts:93-113 | a filtered read returns exactly the rows that satisfy every given filter |
| Activities.Query | src/lib/database.ts:93-118 | the ordered read returns exactly the matching rows, each once, in non-decreasing date order |
| Activities.SortByKey | src/app/api/activities/complete-with-hectares/route.ts:181-199 | the sort returns a permutation of its input ordered by the key |
| Shifter.ShiftBlock | src/app/api/activities/complete-with-hectares/route.ts:189-190 | a name with a nonzero block sorts as that block; a name without a block, or with block 0, sorts as block 999 |
| Shifter.Candidates | src/app/api/activities/complete-with-hectares/route.ts:169-199 | the activities to shift are exactly the scheduled or deferred ones at or after the insertion instant, each once, sorted by date, block and day index |
| Shifter.AfterWorkdaysBounds | src/app/api/activities/complete-with-hectares/route.ts:211 | k steps of `getNextWorkday` land between k and 2k days later, at the same time, and on a non-Sunday |
| Shifter.PlanAssignsSuccessiveWorkdays | src/app/api/activities/complete-with-hectares/route.ts:201-233 | when every activity is at or after the insertion instant, the loop moves all of them in order, the k-th to k + 1 working-day steps after the start |
| Shifter.ApplyMovesEffect | src/app/api/activities/complete-with-hectares/route.ts:214-216 | the shift writes change only dates: each row gets the date of its last move, and unnamed rows are untouched |
| Shifter.ShiftChangesDatesOnly | src/app/api/activities/complete-with-hectares/route.ts:214-216 | whatever fails, the shift keeps every row in its place, changes nothing but dates, and adds or removes no row |
| Shifter.ShiftDetails | src/app/api/activities/complete-with-hectares/route.ts:218-225 | one `desplazada` detail per write, in order, with the old and new date |
| Shifter.ShiftCalendarForward | src/app/api/activities/complete-with-hectares/route.ts:164-246 | on success the count equals the writes and each has its detail; on a fault the earlier writes stay, one warning is appended and the count is 0 |
| Shifter.PlanOfCandidates | src/app/api/activities/complete-with-hectares/route.ts:205-232 | every candidate is moved, the k-th to k + 1 working-day steps after the insertion |
| Shifter.ShiftPlanShape | src/app/api/activities/complete-with-hectares/route.ts:205-232 | the new dates are non-Sundays at the insertion's time of day, all on days after the insertion day |
| Shifter.ShiftPlanIncreasing | src/app/api/activities/complete-with-hectares/route.ts:210-231 | the assigned dates are strictly increasing: one distinct date per activity |
| Shifter.ShiftCanMoveEarlier | src/app/api/activities/complete-with-hectares/route.ts:209-211 | a candidate dated more than 2(k + 1) days after the insertion is moved EARLIER |
| Shifter.ShiftKeepsPlannedTotal | src/app/api/activities/complete-with-hectares/route.ts:214-216 | shifting leaves the store's planned hectares unchanged, whatever faults occur |
| Redistribution.LatestBuffer | src/app/api/activities/complete-with-hectares/route.ts:389-391 | a buffer is found iff some pending activity is a buffer day, and it is one of them |
| Redistribution.LatestBufferIsLatest | src/app/api/activities/complete-with-hectares/route.ts:389-391 | the buffer found is dated no earlier than any other buffer day, and is the first of the latest ones |
| Redistribution.Decide | src/app/api/activities/complete-with-hectares/route.ts:401-608 | the branch taken: the completed buffer itself (a deficit when diff < 0, else an excess), absorb, cap at 70, delete at 0, delete below 0, or no buffer; each with the amounts the handler computes |
| Redistribution.ShiftLedgerIsZero | src/app/api/activities/complete-with-hectares/route.ts:218-244 | the shift's details report no change of hectares |
| Redistribution.ShiftAndCreate | src/app/api/activities/complete-with-hectares/route.ts:608-639 | the rows are those of the shift followed by one new `programada` activity of `hectares` on the insertion date, with the kind and priority of the completed one and a fresh id; the stored planned total and the details both grow by `hectares`; the count is one more than the shift's |
| Redistribution.Spread | src/app/api/activities/complete-with-hectares/route.ts:643-669 | spreading a deficit never leaves more than it started with, writes at most one detail per pending activity, and leaves something only when every pending activity took 60 |
| Redistribution.SpreadLedger | src/app/api/activities/complete-with-hectares/route.ts:646-669 | the spread's details report exactly the hectares it placed |
| Redistribution.SpreadVisitsInOrder | src/app/api/activities/complete-with-hectares/route.ts:646-669 | the spread writes one `actualizada` detail per visited activity, in fetched order, each adding the smaller of 60 and what remains |
| Redistribution.AbsorbBranch | src/app/api/activities/complete-with-hectares/route.ts:459-478 | the buffer row, and only it, is replanned to the new area; the one detail reports new minus old area; one activity counted |
| Redistribution.CapBranch | src/app/api/activities/complete-with-hectares/route.ts:481-532 | the buffer row is replanned to 70, the other rows change at most their dates, and one `programada` activity of the overflow area is appended on the working day after the buffer; the details report both changes |
| Redistribution.DeleteExactBranch | src/app/api/activities/complete-with-hectares/route.ts:537-551 | the store keeps exactly the rows other than the buffer; the detail reports the buffer's area removed |
| Redistribution.DeleteBranch | src/app/api/activities/complete-with-hectares/route.ts:553-600 | the buffer row is removed, the others change at most their dates, and one activity of the remaining deficit is appended on the working day after the buffer; the details report both changes |
| Redistribution.SpreadBranch | src/app/api/activities/complete-with-hectares/route.ts:641-703 | when the loop places the whole deficit the store is the loop's; otherwise one activity of what is left is appended on the working day after the completed one and the other rows change at most their dates; the details report exactly the deficit |
| Redistribution.SpreadWrites | src/app/api/activities/complete-with-hectares/route.ts:646-669 | the loop replans the row of each activity it reaches to its current area (60 when unset) plus the smaller of 60 and what remains, and leaves every other row unchanged |
| Redistribution.SpreadStoredBalance | src/app/api/activities/complete-with-hectares/route.ts:646-669 | the stored planned total grows by the hectares placed plus 60 for every reached activity whose area was unset |
| Redistribution.ApplyLedger | src/app/api/activities/complete-with-hectares/route.ts:401-703 | for every branch of `Apply`, the reported details' net change is the decision's `NetChange`; the stored total's change is `ApplyStoredBalance` |
| Redistribution.ApplyStoredBalance | src/app/api/activities/complete-with-hectares/route.ts:401-703 | the stored planned total moves by the branch's net change plus the areas the details assume but the store does not hold |
| Redistribution.AssumedAreaVanishes | src/app/api/activities/complete-with-hectares/route.ts:449-649 | the assumed area (15 for an unset buffer, line 449; 60 for each unset reached pending activity, line 649) is never negative, and is zero exactly when the buffer and every reached pending activity have a planned area |
| Redistribution.DecisionConservation | src/app/api/activities/complete-with-hectares/route.ts:401-703 | outside the 0.1 tolerance a branch conserves hectares iff it is not one of the three that add `diff - 2·buffer`, `+diff` or nothing |
| Redistribution.BlockStats | src/app/api/activities/complete-with-hectares/route.ts:718-736 | the block info sums the stored planned and completed areas of the block's activities with pending = planned − completed, or falls back to the activity's own figures when the store throws |
| Redistribution.Complete | src/app/api/activities/complete-with-hectares/route.ts:248-347 | the checks run in order (identifier, hectares, lookup, block and cycle, write); every rejection keeps the store; success exactly when all pass and the write does not throw; the planned area reported is the stored one, 60 when unset; the block and cycle reported are those of the activity's name and date, and the block info is that block's statistics over the final store; the activity then holds `completada` with the worked area |
| Redistribution.RedistributionLedger | src/app/api/activities/complete-with-hectares/route.ts:346-705 | the reported details' net change of `Redistribute` (the step after the completion write) is its decision's net change, which is −diff exactly for the conserving branches |
| Redistribution.RedistributeStoredBalance | src/app/api/activities/complete-with-hectares/route.ts:346-705 | over `Redistribute`, the stored planned total moves by the details' net change plus the assumed areas, and equals it exactly when every area the details read is set |
| Redistribution.WithinToleranceNothingMoves | src/app/api/activities/complete-with-hectares/route.ts:347 | `Redistribute` does nothing within the tolerance: a difference of at most 0.1 ha only writes the completion, with no detail and no redistributed activity |
| Redistribution.PendingFetchFailureOnlyWarns | src/app/api/activities/complete-with-hectares/route.ts:707-713 | a failing pending query leaves one warning and only the completion write |
| Redistribution.CompletionConservesHectares | src/app/api/activities/complete-with-hectares/route.ts:320-705 | a successful completion's reported details' net change is its decision's net change, −diff iff the branch conserves |
| Redistribution.CompletionWriteKeepsPlanned | src/app/api/activities/complete-with-hectares/route.ts:330-340 | the completion write leaves the stored planned total unchanged |
| Redistribution.CompleteSucceeds | src/app/api/activities/complete-with-hectares/route.ts:320-346 | a successful request found its activity, and its store, details and count are those of redistributing over the activity's own block and cycle once the completion is written |
| Redistribution.CompleteAccepts | src/app/api/activities/complete-with-hectares/route.ts:248-346 | a request whose checks pass for a stored activity succeeds, with the stored planned area (60 when unset), and with the store, details and count of redistributing over that activity's block and cycle |
| Redistribution.WriteRecordsCompletion | src/app/api/activities/complete-with-hectares/route.ts:330-340 | the primary write leaves the activity `completada` with the worked area |
| Redistribution.ShiftKeepsCompleted | src/app/api/activities/complete-with-hectares/route.ts:169-172 | after the shift, an activity that was `completada` with a worked area still is |
| Redistribution.ApplyKeepsCompleted | src/app/api/activities/complete-with-hectares/route.ts:401-703 | no branch of the policy alters the activity just completed |
| Redistribution.RedistributeKeepsCompleted | src/app/api/activities/complete-with-hectares/route.ts:346-713 | `Redistribute` keeps the completed activity `completada` with its worked area |
| Reorganizer.AnchorMoves | src/app/api/activities/defer/route.ts:203-216 | the anchor keeps the first activity's time and lies on a working day at least `offset` days forward, or back when negative |
| Reorganizer.Reassign | src/app/api/activities/defer/route.ts:220-252 | one new date per activity, at its own time, on a working day, each the next working day after the previous |
| Reorganizer.ReassignConsecutive | src/app/api/activities/defer/route.ts:220-252 | the new days are strictly increasing and no working day is skipped between neighbours |
| Reorganizer.QueueChanges | src/app/api/activities/defer/route.ts:239-248 | the queue holds exactly the activities whose new timestamp differs, the deferred one marked |
| Reorganizer.RunUpdates | src/app/api/activities/defer/route.ts:274-301 | failing updates are skipped; the success count is bounded by the queue and exact when nothing fails; unqueued rows are untouched |
| Reorganizer.RunUpdatesWrites | src/app/api/activities/defer/route.ts:274-301 | a row whose id one queued entry holds alone gets that entry's new date, with status `aplazada` when it is the deferred one and `programada` otherwise, unless its update fails, in which case it is unchanged |
| Reorganizer.QueueKeepsDistinctIds | src/app/api/activities/defer/route.ts:239-248 | queueing activities with distinct ids gives entries with distinct ids |
| Reorganizer.Defer | src/app/api/activities/defer/route.ts:70-122 | a missing identifier, date or reason (an empty reason counts as missing) is rejected exactly as missing fields; then an invalid date and a non-working day are rejected in that order; a rejection keeps the store; success reports the working-day shift and counts reorganized ≤ queued ≤ cycle size |
| Reorganizer.DeferRejects | src/app/api/activities/defer/route.ts:103-272 | the later rejections in order: activity not found, no cycle, failing cycle query, empty cycle, activity not in the cycle, failing event insert |
| Reorganizer.DeferQueuesChangedDates | src/app/api/activities/defer/route.ts:201-301 | success queues the cycle activities whose new timestamp differs, and counts all of them when no update fails |
| Reorganizer.DeferWritesQueue | src/app/api/activities/defer/route.ts:239-301 | after a successful deferral each queued cycle activity holds its new date and status `aplazada` (the deferred one) or `programada`, unless its update failed; only the deferred activity's entry is marked deferred |
| Reorganizer.DeferTouchesOnlyTheCycle | src/app/api/activities/defer/route.ts:166-301 | a row whose id no activity of the cycle has is left unchanged |
| Dashboard.FirstColor | src/app/calendar/page.tsx:173-177 | the colour is that of the first pattern, in table order, the name contains; absent iff it contains none |
| Dashboard.GetActivityInfo | src/app/calendar/page.tsx:144-214 | the three known types get the block colour; any other type gets the clipboard icon, its own name and grey |
| Dashboard.BlockNinetyBeforeNine | src/app/calendar/page.tsx:161-171 | `BlockColor`, the colour the three known types take: a name containing "Bloque 90" is indigo although it also contains "Bloque 9"; a name with no block gets its type's colour |
| Dashboard.NinetyExample | src/app/calendar/page.tsx:146-147 | "Aplicación Bloque 90 - Día 2" is indigo |
| Dashboard.MembersOf | src/app/calendar/page.tsx:271-275 | a block's activities are exactly those with that page block number and a cycle month |
| Dashboard.TallyCountsMembers | src/app/calendar/page.tsx:271-296 | a block has statistics iff it has members; its counts are its members and their completed ones |
| Dashboard.TallyPlannedMembers | src/app/calendar/page.tsx:291 | a block's planned hectares are the sum over its members, an unset area counting 60 |
| Dashboard.TallyCompletedMembers | src/app/calendar/page.tsx:293-296 | a block's completed hectares are the sum over its completed members |
| Dashboard.Progress | src/app/calendar/page.tsx:310-314 | the progress is 0 without planned hectares and between 0 and 100 when completed ≤ planned |
| Dashboard.BlockStatistics | src/app/calendar/page.tsx:259-318 | one entry per block that has a member; counts and sums are those of its members, pending = planned − completed |
| Dashboard.CountStatus | src/app/calendar/page.tsx:324-326 | a status count is at most the number of activities |
| Dashboard.CountStatusCounts | src/app/calendar/page.tsx:324-326 | a status count is the number of positions whose activity has that status |
| Dashboard.StatusCountsPartition | src/app/calendar/page.tsx:323-326 | the counts of the five statuses add up to the number of activities |
| Dashboard.GeneralStatistics | src/app/calendar/page.tsx:321-339 | the total is the number of activities; the completed, scheduled and deferred counts are the numbers of activities with those statuses; planned sums every area (60 when unset) and completed every worked area; pending = planned − completed; progress 0 without planned hectares |
| Dashboard.InMonth | src/app/calendar/page.tsx:217-234 | a month's activities are exactly those dated in that year and month |
| Dashboard.GroupIsMonthFilter | src/app/calendar/page.tsx:223-233 | `GroupByMonth` gives no group for no list and otherwise the map `Group` builds: a month has a group iff it has activities, and the group is those activities in order |
| Dashboard.EveryActivityInOneGroup | src/app/calendar/page.tsx:223-233 | every activity is in its own month's group and in no other |
| Dashboard.OfBlock | src/app/calendar/page.tsx:1560-1563 | the block filter keeps exactly the activities whose page block number is the selected one |
| Dashboard.FilteredActivities | src/app/calendar/page.tsx:1551-1564 | no list gives an empty list, no selected block gives the list unchanged, else exactly the selected block's activities |
| Dashboard.OfBlockIdempotent | src/app/calendar/page.tsx:1560-1563 | filtering by the same block twice gives the same list as once |

## Left out

- **Outside the model.**
  - HTTP parsing, JSON bodies and response messages.
  - Console logging.
  - The `updated_at` column.
  - The cookie-bound database client.
  - The text of `message` fields.
- **JavaScript `Date` details.**
  - Time zones, daylight saving and the `toISOString` text.
  - `new Date(text)` parsing. The parse is an input: an absent or unparseable date is a parameter.
- **Created activity names.** The created activities' names omit the "(+Nha)" area suffix, because the
  number formatting of JavaScript is not modelled.
- **Faults.**
  - Inside a redistribution branch, only the faults of the forward shift are modelled: its fetch and the
    write of the k-th activity. A throwing update or create in a branch is not modelled. Neither is the
    exception path it takes to the single warning.
  - The buffer's delete (route.ts lines 540 and 558) does not throw: its error result is ignored, and the
    branch goes on as if the row were gone. The model's delete always removes the row.
  - `getActivity` throws on a missing row, so a missing activity really answers 500. The model answers
    with the 404 the handler's own branch gives.
  - The activity lookups never fail in the model. In the completion handler (route.ts line 275), a
    database error on an existing row goes to the catch and answers 500. In the deferral handler (lines
    104-116), a lookup error answers 404 even for an existing row. Both lookups are a plain `Get` on the
    store.
- **The automatic `reschedule_events` inserts.** Those of the deferral have their errors ignored in the
  source. The model records them as events and never fails them.
- **Not part of this model.**
  - The rest of the calendar page: rendering, state and the fetch calls.
  - `getHectaresFromName` of the deferral handler, which the handler never calls.
  - The assistant, weather and other routes.
- **Numbers.** Hectares are exact reals, not JavaScript doubles. So the model does not reproduce rounding
  artefacts:
  - 1.1 − 1 is 0.10000000000000009 as a double, which passes the `> 0.1` tolerance test of route.ts line
    347; in the model 1.1 − 1 = 0.1 does not pass it.
  - The `newBufferHectares === 0` test of line 537 can miss a sum that is zero only in exact arithmetic.
  - `parseInt` of a very long digit run loses precision; the model reads it exactly.
- **Database order.** Rows with equal dates come back in table order; the database leaves their
  order open.
- Redistribution.Apply: has no contract of its own. Its ledger is stated by `ApplyLedger`, its stored
  total by `ApplyStoredBalance`, each branch's rows by the `…Branch` functions and its effect on the
  completed activity by `ApplyKeepsCompleted`.
- Dashboard.BlockStatistics: the per-cycle activity and completion counts are computed as the page does.
  The contract does not state them.
- Dashboard.Progress: states only the range of the percentage, not the rounding of
  `completed / planned * 100`.
- Reorganizer.Defer: does not state the events' contents. `DeferQueuesChangedDates`, `DeferWritesQueue`
  and `DeferTouchesOnlyTheCycle` state which rows it writes and what.
- Calendar.NextDate: JavaScript dates are limited to ±100,000,000 days around the epoch. The model's
  dates are unbounded.

=== FILE: activities.dfy ===
/**
 * Activity records and the activity store the request handlers read and write.
 *
 * The store is a table of rows in insertion order plus the next free
 * identifier. `Query` is the filter-then-order-by-date query of the data
 * helper: rows equal in date come out in table order (the database leaves
 * their order unspecified).
 */
module Activities {
  import opened Base
  import opened Calendar
  import Text

  type ActivityId = nat

  datatype Status =
    | Scheduled    // "programada"
    | Deferred     // "aplazada"
    | Completed    // "completada"
    | Cancelled    // "cancelada"
    | Rescheduled  // "reprogramada"

  datatype Activity = Activity(
    id: ActivityId,
    name: string,
    kind: string,
    scheduled: Timestamp,
    duration: int,
    priority: string,
    status: Status,
    planned: Option<real>,
    completed: Option<real>)

  /** `a.planned_hectares || fallback`: an unset or zero area reads as `fallback`. */
  function PlannedOr(a: Activity, fallback: real): real {
    if a.planned.Some? && a.planned.value != 0.0 then a.planned.value else fallback
  }

  /** `a.completed_hectares || fallback`. */
  function CompletedOr(a: Activity, fallback: real): real {
    if a.completed.Some? && a.completed.value != 0.0 then a.completed.value else fallback
  }

  /** `Math.round(x)`: the nearest integer, halves rounded up. */
  function Round(x: real): (n: int)
    ensures x - 0.5 < n as real <= x + 0.5
  {
    (x + 0.5).Floor
  }

  /** 60 hectares take 480 minutes: `Math.round((h / 60) * 480)`. */
  function DurationFor(hectares: real): int {
    Round(hectares / 60.0 * 480.0)
  }

  datatype Store = Store(rows: seq<Activity>, nextId: ActivityId) {
    /** Identifiers are unique and below the next one to be assigned. */
    predicate Valid() {
      && (forall i :: 0 <= i < |rows| ==> rows[i].id < nextId)
      && DistinctIds(rows)
    }
  }

  /** `getActivity(id)`. */
  function Get(rows: seq<Activity>, id: ActivityId): (r: Option<Activity>)
    ensures r.Some? ==> r.value in rows && r.value.id == id
    ensures r.None? <==> forall i :: 0 <= i < |rows| ==> rows[i].id != id
  {
    if rows == [] then None
    else if rows[0].id == id then Some(rows[0])
    else Get(rows[1..], id)
  }

  /** The columns an update may set; `None` leaves a column alone. */
  datatype Patch = Patch(
    status: Option<Status>,
    completed: Option<real>,
    planned: Option<real>,
    duration: Option<int>,
    scheduled: Option<Timestamp>)

  function ApplyPatch(a: Activity, p: Patch): Activity {
    a.(status := p.status.GetOr(a.status),
       completed := if p.completed.Some? then p.completed else a.completed,
       planned := if p.planned.Some? then p.planned else a.planned,
       duration := p.duration.GetOr(a.duration),
       scheduled := p.scheduled.GetOr(a.scheduled))
  }

  /** `update(patch).eq('id', id)`: every row with that id is patched, nothing else changes. */
  function UpdateRows(rows: seq<Activity>, id: ActivityId, p: Patch): (r: seq<Activity>)
    ensures |r| == |rows|
    ensures forall i :: 0 <= i < |rows| ==> r[i] == if rows[i].id == id then ApplyPatch(rows[i], p) else rows[i]
  {
    if rows == [] then []
    else [if rows[0].id == id then ApplyPatch(rows[0], p) else rows[0]] + UpdateRows(rows[1..], id, p)
  }

  /** `delete().eq('id', id)`: the rows with that id disappear, the others keep their order. */
  function DeleteRows(rows: seq<Activity>, id: ActivityId): (r: seq<Activity>)
    ensures forall a :: a in r <==> a in rows && a.id != id
    ensures |r| <= |rows|
  {
    if rows == [] then []
    else if rows[0].id == id then DeleteRows(rows[1..], id)
    else [rows[0]] + DeleteRows(rows[1..], id)
  }

  function Update(s: Store, id: ActivityId, p: Patch): Store {
    s.(rows := UpdateRows(s.rows, id, p))
  }

  function Delete(s: Store, id: ActivityId): Store {
    s.(rows := DeleteRows(s.rows, id))
  }

  /** The columns of an `insert`; the store assigns the identifier. */
  datatype NewActivity = NewActivity(
    name: string,
    kind: string,
    scheduled: Timestamp,
    duration: int,
    priority: string,
    status: Status,
    planned: real)

  function RowOf(id: ActivityId, n: NewActivity): Activity {
    Activity(id, n.name, n.kind, n.scheduled, n.duration, n.priority, n.status, Some(n.planned), None)
  }

  /** `createActivity`: the new row gets the next identifier and is appended. */
  function Create(s: Store, n: NewActivity): (r: Store)
    ensures r.rows == s.rows + [RowOf(s.nextId, n)]
    ensures r.nextId == s.nextId + 1
    ensures s.Valid() ==> r.Valid()
  {
    Store(s.rows + [RowOf(s.nextId, n)], s.nextId + 1)
  }

  lemma UpdateKeepsValid(s: Store, id: ActivityId, p: Patch)
    requires s.Valid()
    ensures Update(s, id, p).Valid()
  {
  }

  lemma DeleteKeepsValid(s: Store, id: ActivityId)
    requires s.Valid()
    ensures Delete(s, id).Valid()
  {
    var r := DeleteRows(s.rows, id);
    assert forall i :: 0 <= i < |r| ==> r[i] in s.rows;
    DeleteRowsKeepsDistinctIds(s.rows, id);
  }

  predicate DistinctIds(rows: seq<Activity>) {
    forall i, j :: 0 <= i < j < |rows| ==> rows[i].id != rows[j].id
  }

  lemma HeadIdNotInTail(rows: seq<Activity>)
    requires rows != [] && DistinctIds(rows)
    ensures forall a :: a in rows[1..] ==> a.id != rows[0].id
  {
    forall a | a in rows[1..]
      ensures a.id != rows[0].id
    {
      var m :| 0 <= m < |rows[1..]| && rows[1..][m] == a;
      assert rows[m + 1] == a;
    }
  }

  lemma ConsDistinct(x: Activity, t: seq<Activity>)
    requires DistinctIds(t)
    requires forall a :: a in t ==> a.id != x.id
    ensures DistinctIds([x] + t)
  {
    var r := [x] + t;
    forall i, j | 0 <= i < j < |r|
      ensures r[i].id != r[j].id
    {
      assert r[j] == t[j - 1];
      if i > 0 {
        assert r[i] == t[i - 1];
      } else {
        assert r[j] in t;
      }
    }
  }

  lemma DistinctIdsTail(rows: seq<Activity>)
    requires rows != [] && DistinctIds(rows)
    ensures DistinctIds(rows[1..])
  {
    forall i, j | 0 <= i < j < |rows[1..]|
      ensures rows[1..][i].id != rows[1..][j].id
    {
      assert rows[1..][i] == rows[i + 1] && rows[1..][j] == rows[j + 1];
    }
  }

  lemma {:induction false} DeleteRowsKeepsDistinctIds(rows: seq<Activity>, id: ActivityId)
    requires DistinctIds(rows)
    ensures DistinctIds(DeleteRows(rows, id))
  {
    if rows != [] {
      DistinctIdsTail(rows);
      DeleteRowsKeepsDistinctIds(rows[1..], id);
      if rows[0].id != id {
        HeadIdNotInTail(rows);
        ConsDistinct(rows[0], DeleteRows(rows[1..], id));
      }
    }
  }

  // ---------------------------------------------------------------- queries

  /** The filters `getActivitiesWhere` and the deferral handler apply, joined by AND. */
  datatype Filter = Filter(
    nameLike: Option<string>,        // ILIKE '%text%'
    dateGte: Option<Timestamp>,
    dateLte: Option<Timestamp>,
    dateLt: Option<Timestamp>,
    statusIn: Option<set<Status>>,
    idNot: Option<ActivityId>)

  predicate Matches(a: Activity, f: Filter) {
    && (f.nameLike.Some? ==> Text.Contains(a.name, f.nameLike.value, true))
    && (f.dateGte.Some? ==> !Before(a.scheduled, f.dateGte.value))
    && (f.dateLte.Some? ==> !Before(f.dateLte.value, a.scheduled))
    && (f.dateLt.Some? ==> Before(a.scheduled, f.dateLt.value))
    && (f.statusIn.Some? ==> a.status in f.statusIn.value)
    && (f.idNot.Some? ==> a.id != f.idNot.value)
  }

  /** The matching rows in table order. */
  function Select(rows: seq<Activity>, f: Filter): (r: seq<Activity>)
    ensures forall a :: a in r <==> a in rows && Matches(a, f)
    ensures |r| <= |rows|
  {
    if rows == [] then []
    else if Matches(rows[0], f) then [rows[0]] + Select(rows[1..], f)
    else Select(rows[1..], f)
  }

  /** A sort key compared lexicographically. */
  datatype Key = Key(day: int, time: int, block: int, dayIndex: int)

  predicate KeyLe(a: Key, b: Key) {
    || a.day < b.day
    || (a.day == b.day && a.time < b.time)
    || (a.day == b.day && a.time == b.time && a.block < b.block)
    || (a.day == b.day && a.time == b.time && a.block == b.block && a.dayIndex <= b.dayIndex)
  }

  predicate SortedBy(s: seq<Activity>, key: Activity -> Key) {
    forall i, j :: 0 <= i < j < |s| ==> KeyLe(key(s[i]), key(s[j]))
  }

  lemma SortedTail(s: seq<Activity>, key: Activity -> Key)
    requires s != [] && SortedBy(s, key)
    ensures SortedBy(s[1..], key)
  {
    forall i, j | 0 <= i < j < |s[1..]|
      ensures KeyLe(key(s[1..][i]), key(s[1..][j]))
    {
      assert s[1..][i] == s[i + 1] && s[1..][j] == s[j + 1];
    }
  }

  lemma ConsSorted(y: Activity, t: seq<Activity>, key: Activity -> Key)
    requires SortedBy(t, key)
    requires forall k :: 0 <= k < |t| ==> KeyLe(key(y), key(t[k]))
    ensures SortedBy([y] + t, key)
  {
    var r := [y] + t;
    forall i, j | 0 <= i < j < |r|
      ensures KeyLe(key(r[i]), key(r[j]))
    {
      assert r[j] == t[j - 1];
      if i > 0 {
        assert r[i] == t[i - 1];
      }
    }
  }

  /** Insert `x` before the first element whose key is not below its own. */
  function InsertByKey(x: Activity, s: seq<Activity>, key: Activity -> Key): (r: seq<Activity>)
    requires SortedBy(s, key)
    ensures SortedBy(r, key)
    ensures multiset(r) == multiset(s) + multiset{x}
  {
    if s == [] || KeyLe(key(x), key(s[0])) then
      [x] + s
    else
      SortedTail(s, key);
      var t := InsertByKey(x, s[1..], key);
      InsertedAfterHead(x, s, t, key);
      ConsSorted(s[0], t, key);
      assert s == [s[0]] + s[1..];
      [s[0]] + t
  }

  /** Every element of the insertion into the tail is at or above the head's key. */
  lemma InsertedAfterHead(x: Activity, s: seq<Activity>, t: seq<Activity>, key: Activity -> Key)
    requires s != [] && SortedBy(s, key) && !KeyLe(key(x), key(s[0]))
    requires multiset(t) == multiset(s[1..]) + multiset{x}
    ensures forall k :: 0 <= k < |t| ==> KeyLe(key(s[0]), key(t[k]))
  {
    forall k | 0 <= k < |t|
      ensures KeyLe(key(s[0]), key(t[k]))
    {
      assert t[k] in multiset(t);
      if t[k] != x {
        assert t[k] in s[1..];
        var m :| 0 <= m < |s[1..]| && s[1..][m] == t[k];
        assert s[m + 1] == t[k];
      }
    }
  }

  /** A stable insertion sort (like `Array.prototype.sort`, which is stable). */
  function SortByKey(s: seq<Activity>, key: Activity -> Key): (r: seq<Activity>)
    ensures SortedBy(r, key)
    ensures multiset(r) == multiset(s)
    ensures |r| == |s|
  {
    if s == [] then []
    else
      assert s == [s[0]] + s[1..];
      InsertByKey(s[0], SortByKey(s[1..], key), key)
  }

  /** Order by `scheduled_date` ascending. */
  function DateKey(a: Activity): Key {
    Key(DayNumber(a.scheduled.date), a.scheduled.time, 0, 0)
  }

  /** `getActivitiesWhere(filter)`: the matching rows, ordered by date. */
  function Query(rows: seq<Activity>, f: Filter): (r: seq<Activity>)
    ensures forall a :: a in r <==> a in rows && Matches(a, f)
    ensures forall i, j :: 0 <= i < j < |r| ==> !Before(r[j].scheduled, r[i].scheduled)
    ensures multiset(r) == multiset(Select(rows, f))
  {
    var sel := Select(rows, f);
    var r := SortByKey(sel, DateKey);
    SameElements(r, sel);
    SortedByDate(r);
    r
  }

  /** Two sequences with the same multiset have the same elements. */
  lemma SameElements(r: seq<Activity>, s: seq<Activity>)
    requires multiset(r) == multiset(s)
    ensures forall a :: a in r <==> a in s
  {
    assert forall a :: a in r <==> a in multiset(r);
    assert forall a :: a in s <==> a in multiset(s);
  }

  /** Sorted by `DateKey` means no later element is dated before an earlier one. */
  lemma SortedByDate(r: seq<Activity>)
    requires SortedBy(r, DateKey)
    ensures forall i, j :: 0 <= i < j < |r| ==> !Before(r[j].scheduled, r[i].scheduled)
  {
    forall i, j | 0 <= i < j < |r|
      ensures !Before(r[j].scheduled, r[i].scheduled)
    {
      assert KeyLe(DateKey(r[i]), DateKey(r[j]));
    }
  }

  /** Among rows with distinct ids, a row is identified by its id. */
  lemma SameIdSameRow(rows: seq<Activity>, x: Activity, y: Activity)
    requires DistinctIds(rows) && x in rows && y in rows
    ensures x.id == y.id ==> x == y
  {
    var i :| 0 <= i < |rows| && rows[i] == x;
    var j :| 0 <= j < |rows| && rows[j] == y;
    assert i != j ==> rows[i].id != rows[j].id;
  }

  /** Among rows with distinct ids, no row occurs twice. */
  lemma {:induction false} DistinctIdsOccurOnce(rows: seq<Activity>, x: Activity)
    requires DistinctIds(rows)
    ensures multiset(rows)[x] <= 1
  {
    if rows != [] {
      DistinctIdsTail(rows);
      DistinctIdsOccurOnce(rows[1..], x);
      assert rows == [rows[0]] + rows[1..];
      if x == rows[0] {
        HeadIdNotInTail(rows);
      }
    }
  }

  /** Selecting never repeats a row more often than the table holds it. */
  lemma {:induction false} SelectOccurrences(rows: seq<Activity>, f: Filter, x: Activity)
    ensures multiset(Select(rows, f))[x] <= multiset(rows)[x]
  {
    if rows != [] {
      SelectOccurrences(rows[1..], f, x);
      assert rows == [rows[0]] + rows[1..];
    }
  }

  /** An element at two positions occurs at least twice. */
  lemma TwoPositions(q: seq<Activity>, i: nat, j: nat)
    requires i < j < |q|
    ensures q[i] == q[j] ==> multiset(q)[q[i]] >= 2
  {
    assert q == q[..j] + q[j..];
    assert q[i] == q[..j][i] && q[j] == q[j..][0];
    assert q[..j][i] in multiset(q[..j]) && q[j..][0] in multiset(q[j..]);
  }

  /** A query over rows with distinct ids returns rows with distinct ids. */
  lemma QueryKeepsDistinctIds(rows: seq<Activity>, f: Filter)
    requires DistinctIds(rows)
    ensures DistinctIds(Query(rows, f))
  {
    var q := Query(rows, f);
    forall i, j | 0 <= i < j < |q|
      ensures q[i].id != q[j].id
    {
      SelectOccurrences(rows, f, q[i]);
      DistinctIdsOccurOnce(rows, q[i]);
      TwoPositions(q, i, j);
      SameIdSameRow(rows, q[i], q[j]);
    }
  }

  // ---------------------------------------------------------------- totals

  /** The sum of `f` over `rows`. */
  function SumOf(rows: seq<Activity>, f: Activity -> real): real {
    if rows == [] then 0.0 else f(rows[0]) + SumOf(rows[1..], f)
  }

  /** Stored planned area, unset counting as zero (`planned_hectares || 0`). */
  function StoredPlanned(a: Activity): real {
    PlannedOr(a, 0.0)
  }

  /** Stored completed area, unset counting as zero (`completed_hectares || 0`). */
  function StoredCompleted(a: Activity): real {
    CompletedOr(a, 0.0)
  }

  lemma {:induction false} SumOfAppend(rows: seq<Activity>, a: Activity, f: Activity -> real)
    ensures SumOf(rows + [a], f) == SumOf(rows, f) + f(a)
  {
    if rows != [] {
      assert (rows + [a])[1..] == rows[1..] + [a];
      SumOfAppend(rows[1..], a, f);
    }
  }

  /**
   * Patching a row whose id no other row shares changes a sum by exactly the
   * change of that row's term; rows without the id do not count.
   */
  lemma {:induction false} SumOfUpdate(rows: seq<Activity>, id: ActivityId, p: Patch, f: Activity -> real)
    requires DistinctIds(rows)
    ensures forall i :: 0 <= i < |rows| && rows[i].id == id ==>
      SumOf(UpdateRows(rows, id, p), f) == SumOf(rows, f) - f(rows[i]) + f(ApplyPatch(rows[i], p))
    ensures (forall i :: 0 <= i < |rows| ==> rows[i].id != id) ==>
      SumOf(UpdateRows(rows, id, p), f) == SumOf(rows, f)
  {
    if rows != [] {
      SumOfUpdate(rows[1..], id, p, f);
      var r := UpdateRows(rows, id, p);
      assert r[1..] == UpdateRows(rows[1..], id, p);
      forall i | 0 <= i < |rows| && rows[i].id == id
        ensures SumOf(r, f) == SumOf(rows, f) - f(rows[i]) + f(ApplyPatch(rows[i], p))
      {
        if i > 0 {
          assert rows[1..][i - 1] == rows[i];
          assert forall k :: 0 <= k < |rows[1..]| ==> rows[1..][k].id != id || k == i - 1;
        } else {
          assert forall k :: 0 <= k < |rows[1..]| ==> rows[1..][k].id != id;
        }
      }
    }
  }

  /** Removing the one row with a given id takes its term out of a sum. */
  lemma {:induction false} SumOfDelete(rows: seq<Activity>, id: ActivityId, f: Activity -> real)
    requires DistinctIds(rows)
    ensures forall i :: 0 <= i < |rows| && rows[i].id == id ==>
      SumOf(DeleteRows(rows, id), f) == SumOf(rows, f) - f(rows[i])
    ensures (forall i :: 0 <= i < |rows| ==> rows[i].id != id) ==>
      SumOf(DeleteRows(rows, id), f) == SumOf(rows, f)
  {
    if rows != [] {
      SumOfDelete(rows[1..], id, f);
      forall i | 0 <= i < |rows| && rows[i].id == id
        ensures SumOf(DeleteRows(rows, id), f) == SumOf(rows, f) - f(rows[i])
      {
        if i > 0 {
          assert rows[1..][i - 1] == rows[i];
        } else {
          assert forall k :: 0 <= k < |rows[1..]| ==> rows[1..][k].id != id;
        }
      }
    }
  }
}

=== FILE: base.dfy ===
/** Failure-compatible wrappers shared by every module of the model. */
module Base {

  /** A value that may be absent: JavaScript's `null`/`undefined`. */
  datatype Option<+T> = None | Some(value: T) {

    /** The value, or `default` when absent. */
    function GetOr(default: T): T {
      match this
      case Some(v) => v
      case None => default
    }
  }

  /** The outcome of a request handler: a success value or a client/server error. */
  datatype Result<+R, +E> = Success(value: R) | Failure(error: E)
}

=== FILE: calendar.dfy ===
/**
 * Proleptic Gregorian civil dates, epoch day numbers, weekdays and instants.
 *
 * A JavaScript `Date` in the server's single local time zone is modelled as a
 * civil date plus a time of day in milliseconds. `DayNumber` counts days from
 * 1970-01-01 (day 0, a Thursday), so `getDay()` is `Weekday` and comparing two
 * `getTime()` values is comparing (day number, time of day) lexicographically.
 */
module Calendar {

  const MsPerDay: int := 86_400_000

  /** Milliseconds since local midnight: `getHours`, `getMinutes`, `getSeconds`, `getMilliseconds` together. */
  type TimeOfDay = t: int | 0 <= t < MsPerDay

  /** `getDay()` value of a Sunday. */
  const Sunday: int := 0

  predicate IsLeap(y: int) {
    y % 4 == 0 && (y % 100 != 0 || y % 400 == 0)
  }

  function YearLength(y: int): int {
    if IsLeap(y) then 366 else 365
  }

  function MonthLength(y: int, m: int): int
    requires 1 <= m <= 12
  {
    if m == 2 then (if IsLeap(y) then 29 else 28)
    else if m == 4 || m == 6 || m == 9 || m == 11 then 30
    else 31
  }

  /** Days of year `y` that precede the first of month `m`. */
  function DaysBeforeMonth(y: int, m: int): int
    requires 1 <= m <= 12
  {
    var feb := if IsLeap(y) then 29 else 28;
    if m == 1 then 0
    else if m == 2 then 31
    else if m == 3 then 31 + feb
    else if m == 4 then 62 + feb
    else if m == 5 then 92 + feb
    else if m == 6 then 123 + feb
    else if m == 7 then 153 + feb
    else if m == 8 then 184 + feb
    else if m == 9 then 215 + feb
    else if m == 10 then 245 + feb
    else if m == 11 then 276 + feb
    else 306 + feb
  }

  datatype Date = Date(year: int, month: int, day: int) {
    predicate Valid() {
      1 <= month <= 12 && 1 <= day <= MonthLength(year, month)
    }
  }

  /** A date that exists on the calendar. */
  type CivilDate = d: Date | d.Valid() witness Date(1970, 1, 1)

  /** Day number of the first of January of year `y`. */
  function DaysBeforeYear(y: int): int
    decreases if y < 1970 then 1970 - y else y - 1970
  {
    if y == 1970 then 0
    else if y > 1970 then DaysBeforeYear(y - 1) + YearLength(y - 1)
    else DaysBeforeYear(y + 1) - YearLength(y)
  }

  /** Days since 1970-01-01. */
  function DayNumber(d: CivilDate): int {
    DaysBeforeYear(d.year) + DaysBeforeMonth(d.year, d.month) + d.day - 1
  }

  /** `getDay()`: 0 is Sunday, 6 is Saturday. */
  function Weekday(d: CivilDate): (w: int)
    ensures 0 <= w < 7
  {
    (DayNumber(d) + 4) % 7
  }

  /** Lexicographic order on (year, month, day): the order of ISO date strings. */
  predicate DateBefore(a: Date, b: Date) {
    || a.year < b.year
    || (a.year == b.year && a.month < b.month)
    || (a.year == b.year && a.month == b.month && a.day < b.day)
  }

  lemma YearStep(y: int)
    ensures DaysBeforeYear(y + 1) == DaysBeforeYear(y) + YearLength(y)
  {
  }

  lemma {:induction false} YearsIncrease(a: int, b: int)
    requires a < b
    ensures DaysBeforeYear(a) + YearLength(a) <= DaysBeforeYear(b)
    decreases b - a
  {
    YearStep(a);
    if a + 1 < b {
      YearsIncrease(a + 1, b);
      YearStep(a + 1);
    }
  }

  /** The civil order and the day-number order agree. */
  lemma DayNumberOrder(a: CivilDate, b: CivilDate)
    ensures DateBefore(a, b) <==> DayNumber(a) < DayNumber(b)
  {
    if a.year < b.year {
      YearsIncrease(a.year, b.year);
    } else if b.year < a.year {
      YearsIncrease(b.year, a.year);
    }
  }

  /** Distinct civil dates have distinct day numbers. */
  lemma DayNumberInjective(a: CivilDate, b: CivilDate)
    ensures DayNumber(a) == DayNumber(b) <==> a == b
  {
    DayNumberOrder(a, b);
    DayNumberOrder(b, a);
  }

  /** The calendar day after `d` (`setDate(getDate() + 1)`). */
  function NextDate(d: CivilDate): (r: CivilDate)
    ensures DayNumber(r) == DayNumber(d) + 1
    ensures Weekday(r) == (Weekday(d) + 1) % 7
  {
    var r: CivilDate :=
      if d.day < MonthLength(d.year, d.month) then Date(d.year, d.month, d.day + 1)
      else if d.month < 12 then Date(d.year, d.month + 1, 1)
      else Date(d.year + 1, 1, 1);
    assert DayNumber(r) == DayNumber(d) + 1 by {
      YearStep(d.year);
    }
    WeekdayForward(DayNumber(d));
    r
  }

  /** The calendar day before `d` (`setDate(getDate() - 1)`). */
  function PrevDate(d: CivilDate): (r: CivilDate)
    ensures DayNumber(r) == DayNumber(d) - 1
    ensures Weekday(r) == (Weekday(d) + 6) % 7
  {
    var r: CivilDate :=
      if d.day > 1 then Date(d.year, d.month, d.day - 1)
      else if d.month > 1 then Date(d.year, d.month - 1, MonthLength(d.year, d.month - 1))
      else Date(d.year - 1, 12, 31);
    assert DayNumber(r) == DayNumber(d) - 1 by {
      YearStep(d.year - 1);
    }
    WeekdayBack(DayNumber(d));
    r
  }

  lemma WeekdayForward(n: int)
    ensures (n + 1 + 4) % 7 == ((n + 4) % 7 + 1) % 7
  {
  }

  lemma WeekdayBack(n: int)
    ensures (n - 1 + 4) % 7 == ((n + 4) % 7 + 6) % 7
  {
  }

  /** A `Date` value: a local calendar day and a time of day. */
  datatype Timestamp = Timestamp(date: CivilDate, time: TimeOfDay)

  /** `a.getTime() < b.getTime()`. */
  predicate Before(a: Timestamp, b: Timestamp) {
    || DayNumber(a.date) < DayNumber(b.date)
    || (DayNumber(a.date) == DayNumber(b.date) && a.time < b.time)
  }

  /** Equal instants are equal timestamps, and any two timestamps are ordered. */
  lemma InstantOrderTotal(a: Timestamp, b: Timestamp)
    ensures a == b <==> !Before(a, b) && !Before(b, a)
    ensures !(Before(a, b) && Before(b, a))
  {
    DayNumberInjective(a.date, b.date);
  }

  /** The same time of day on another calendar day (`setDate` keeps the clock). */
  function OnDate(t: Timestamp, d: CivilDate): Timestamp {
    Timestamp(d, t.time)
  }
}

=== FILE: cycles.dfy ===
/**
 * The four two-month working cycles of the season and the date ranges the
 * request handlers query for a cycle.
 *
 * Cycle 1 is February-March, cycle 2 May-June, cycle 3 August-September and
 * cycle 4 November-December. The completion handler also assigns the four
 * remaining months to the cycle that follows them; the calendar page and the
 * deferral handler do not.
 */
module Cycles {
  import opened Base
  import opened Calendar

  datatype Cycle = Cycle(name: string, number: nat)

  const FebMar: Cycle := Cycle("Feb-Mar", 1)
  const MayJun: Cycle := Cycle("May-Jun", 2)
  const AugSep: Cycle := Cycle("Aug-Sep", 3)
  const NovDec: Cycle := Cycle("Nov-Dec", 4)

  /** The two months of cycle `n`, first month first. */
  function CycleMonths(n: nat): (r: (int, int))
    requires 1 <= n <= 4
    ensures 2 <= r.0 && r.1 == r.0 + 1 <= 12
  {
    if n == 1 then (2, 3) else if n == 2 then (5, 6) else if n == 3 then (8, 9) else (11, 12)
  }

  /** The month belongs to one of the four cycles. */
  predicate InCycleMonth(month: int) {
    month in {2, 3, 5, 6, 8, 9, 11, 12}
  }

  /**
   * The month table shared by the calendar page and the deferral handler:
   * only the eight cycle months have a cycle.
   */
  function CanonicalCycle(month: int): (r: Option<Cycle>)
    ensures r.Some? <==> InCycleMonth(month)
    ensures r.Some? ==> (
      && 1 <= r.value.number <= 4
      && (month == CycleMonths(r.value.number).0 || month == CycleMonths(r.value.number).1))
  {
    if month in {2, 3} then Some(FebMar)
    else if month in {5, 6} then Some(MayJun)
    else if month in {8, 9} then Some(AugSep)
    else if month in {11, 12} then Some(NovDec)
    else None
  }

  /**
   * The completion handler's table: the canonical one, then the fallbacks
   * January to cycle 1, April to 2, July to 3 and (September or) October to 4.
   */
  function RouteCycle(month: int): Option<Cycle> {
    if CanonicalCycle(month).Some? then CanonicalCycle(month)
    else if month == 1 then Some(FebMar)
    else if month == 4 then Some(MayJun)
    else if month == 7 then Some(AugSep)
    else if month in {9, 10} then Some(NovDec)
    else None
  }

  /**
   * `getCycleFromDate` of the completion handler. The argument is the parsed
   * `scheduled_date`, `None` when it does not parse; the cycle is absent
   * only for an unparseable date.
   */
  function CycleFromDate(date: Option<Timestamp>): (r: Option<Cycle>)
    ensures r.None? <==> date.None?
    ensures r.Some? ==> 1 <= r.value.number <= 4
    ensures r.Some? ==> CanonicalCycle(date.value.date.month).Some? ==> r == CanonicalCycle(date.value.date.month)
    ensures r.Some? ==> !InCycleMonth(date.value.date.month) ==>
      CycleMonths(r.value.number).0 == date.value.date.month + 1
  {
    if date.None? then None else RouteCycle(date.value.date.month)
  }

  /** `getCycleFromDate` of the calendar page: no fallback months. */
  function PageCycleFromDate(date: Option<Timestamp>): (r: Option<Cycle>)
    ensures r.Some? <==> date.Some? && InCycleMonth(date.value.date.month)
    ensures r.Some? ==> r == CanonicalCycle(date.value.date.month)
  {
    if date.None? then None else CanonicalCycle(date.value.date.month)
  }

  /** The two handlers agree on the eight cycle months and differ on the other four. */
  lemma RouteExtendsPage(date: Timestamp)
    ensures InCycleMonth(date.date.month) ==> CycleFromDate(Some(date)) == PageCycleFromDate(Some(date))
    ensures !InCycleMonth(date.date.month) ==>
      CycleFromDate(Some(date)).Some? && PageCycleFromDate(Some(date)).None?
  {
  }

  // ---------------------------------------------------------------- ranges

  function Midnight(d: CivilDate): Timestamp {
    Timestamp(d, 0)
  }

  /** 23:59:59 in milliseconds: the time in the completion handler's end bound. */
  const LastSecond: TimeOfDay := 86_399_000

  /**
   * The completion handler's bounds for cycle `n` of `year`: from the first
   * of the first month, through `23:59:59` of the last day of the second
   * month (`scheduled_date_gte` / `scheduled_date_lte`).
   */
  function CompletionRange(n: nat, year: int): (r: (Timestamp, Timestamp))
    requires 1 <= n <= 4
  {
    var (m1, m2) := CycleMonths(n);
    (Midnight(Date(year, m1, 1)), Timestamp(Date(year, m2, MonthLength(year, m2)), LastSecond))
  }

  /**
   * The deferral handler's bounds for the cycle of `month`: from the first of
   * the first month up to, excluding, the first of the month after the second,
   * which is January of the next year for November-December.
   */
  function DeferRange(n: nat, year: int): (r: (Timestamp, Timestamp))
    requires 1 <= n <= 4
  {
    var (m1, m2) := CycleMonths(n);
    var end := if m2 == 12 then Date(year + 1, 1, 1) else Date(year, m2 + 1, 1);
    (Midnight(Date(year, m1, 1)), Midnight(end))
  }

  /** `t` lies in `[lo, hi]`. */
  predicate InClosed(t: Timestamp, lo: Timestamp, hi: Timestamp) {
    !Before(t, lo) && !Before(hi, t)
  }

  /** `t` lies in `[lo, hi)`. */
  predicate InHalfOpen(t: Timestamp, lo: Timestamp, hi: Timestamp) {
    !Before(t, lo) && Before(t, hi)
  }

  /**
   * An instant is in the completion handler's range exactly when it falls in
   * one of the cycle's two months of that year, except for the last 999
   * milliseconds of the cycle, which the `23:59:59` bound leaves out.
   */
  lemma CompletionRangeMembership(n: nat, year: int, t: Timestamp)
    requires 1 <= n <= 4
    ensures InClosed(t, CompletionRange(n, year).0, CompletionRange(n, year).1) <==>
      && t.date.year == year
      && (t.date.month == CycleMonths(n).0 || t.date.month == CycleMonths(n).1)
      && !(t.date.month == CycleMonths(n).1 && t.date.day == MonthLength(year, t.date.month)
           && t.time > LastSecond)
  {
    var (lo, hi) := CompletionRange(n, year);
    DayNumberOrder(t.date, lo.date);
    DayNumberOrder(lo.date, t.date);
    DayNumberOrder(t.date, hi.date);
    DayNumberOrder(hi.date, t.date);
  }

  /**
   * An instant is in the deferral handler's range exactly when it falls in
   * one of the cycle's two months of that year.
   */
  lemma DeferRangeMembership(n: nat, year: int, t: Timestamp)
    requires 1 <= n <= 4
    ensures InHalfOpen(t, DeferRange(n, year).0, DeferRange(n, year).1) <==>
      && t.date.year == year
      && (t.date.month == CycleMonths(n).0 || t.date.month == CycleMonths(n).1)
  {
    var (lo, hi) := DeferRange(n, year);
    DayNumberOrder(t.date, lo.date);
    DayNumberOrder(lo.date, t.date);
    DayNumberOrder(t.date, hi.date);
    DayNumberOrder(hi.date, t.date);
  }
}

=== FILE: dashboard.dfy ===
/**
 * The pure helpers of the calendar page: the colour of an activity, the
 * per-block and overall statistics, the grouping by month and the block
 * filter of the list view.
 */
module Dashboard {
  import opened Base
  import opened Calendar
  import opened Activities
  import opened Text
  import opened Names
  import opened Cycles

  // ---------------------------------------------------------------- colours

  /**
   * The block colours, in the order `getBlockColor` tries them: the two-digit
   * blocks first, so that a name with "Bloque 90" is not coloured as block 9.
   */
  const BlockColors: seq<(string, string)> := [
    ("Bloque 90", "text-indigo-400"),
    ("Bloque 11", "text-red-400"),
    ("Bloque 2", "text-emerald-400"),
    ("Bloque 3", "text-blue-400"),
    ("Bloque 4", "text-purple-400"),
    ("Bloque 5", "text-pink-400"),
    ("Bloque 6", "text-orange-400"),
    ("Bloque 7", "text-cyan-400"),
    ("Bloque 9", "text-yellow-400")
  ]

  /** The colour of an activity type when its name mentions none of the blocks. */
  function TypeColor(kind: string): string {
    if kind == "aplicacion_biologicos" then "text-green-400"
    else if kind == "control_plagas" then "text-red-400"
    else if kind == "reparacion_maquinaria" then "text-blue-400"
    else "text-gray-400"
  }

  /** The colour of the first entry of `table` whose pattern `name` contains (case-sensitive). */
  function FirstColor(name: string, table: seq<(string, string)>): (r: Option<string>)
    ensures r.None? <==> forall k :: 0 <= k < |table| ==> !Contains(name, table[k].0, false)
    ensures r.Some? ==> exists k :: (
      && 0 <= k < |table| && Contains(name, table[k].0, false) && r.value == table[k].1
      && forall j :: 0 <= j < k ==> !Contains(name, table[j].0, false))
  {
    if table == [] then None
    else if Contains(name, table[0].0, false) then Some(table[0].1)
    else
      var r := FirstColor(name, table[1..]);
      assert forall k :: 1 <= k < |table| ==> table[k] == table[1..][k - 1];
      if r.Some? then
        var k :| 0 <= k < |table[1..]| && Contains(name, table[1..][k].0, false) && r.value == table[1..][k].1
                 && forall j :: 0 <= j < k ==> !Contains(name, table[1..][j].0, false);
        assert table[k + 1] == table[1..][k];
        r
      else
        r
  }

  /** `getBlockColor`: the colour of the first block pattern the name contains, else the type's. */
  function BlockColor(name: string, kind: string): string {
    FirstColor(name, BlockColors).GetOr(TypeColor(kind))
  }

  /** What `getActivityInfo` returns: an icon, a description and a colour class. */
  datatype ActivityInfo = ActivityInfo(icon: string, description: string, color: string)

  /** `getActivityInfo`: the three known types take the block colour; any other type is grey. */
  function GetActivityInfo(kind: string, name: string): (r: ActivityInfo)
    ensures kind in {"aplicacion_biologicos", "control_plagas", "reparacion_maquinaria"} ==>
      r.color == BlockColor(name, kind)
    ensures kind !in {"aplicacion_biologicos", "control_plagas", "reparacion_maquinaria"} ==>
      r == ActivityInfo("\U{1F4CB}", kind, "text-gray-400")
  {
    if kind == "aplicacion_biologicos" then ActivityInfo("\U{1F9EA}", "Biológicos", BlockColor(name, kind))
    else if kind == "control_plagas" then ActivityInfo("\U{1F41B}", "Control Plagas", BlockColor(name, kind))
    else if kind == "reparacion_maquinaria" then ActivityInfo("\U{1F527}", "Mantenimiento", BlockColor(name, kind))
    else ActivityInfo("\U{1F4CB}", kind, "text-gray-400")
  }

  /**
   * A name that contains "Bloque 90" takes block 90's colour (never block 9's),
   * whatever else it contains; and the type colour is used exactly when the
   * name contains no block pattern.
   */
  lemma BlockNinetyBeforeNine(name: string, kind: string)
    ensures Contains(name, "Bloque 90", false) ==> BlockColor(name, kind) == "text-indigo-400"
    ensures (forall k :: 0 <= k < |BlockColors| ==> !Contains(name, BlockColors[k].0, false)) ==>
      BlockColor(name, kind) == TypeColor(kind)
  {
  }

  lemma NinetyExample()
    ensures BlockColor("Aplicación Bloque 90 - Día 2", "aplicacion_biologicos") == "text-indigo-400"
  {
    assert LitAt("Aplicación Bloque 90 - Día 2", 11, "Bloque 90", false);
  }

  // ---------------------------------------------------------------- per-block statistics

  /**
   * The block an activity counts for in the page's statistics: its "Bloque N"
   * number, when that is not 0 and its month belongs to a cycle.
   */
  function StatBlock(a: Activity): Option<nat> {
    var b := PageBlockNumber(a.name);
    if b.Some? && b.value != 0 && PageCycleFromDate(Some(a.scheduled)).Some? then b else None
  }

  /** Counts per cycle name: activities and completed ones. */
  datatype CycleCount = CycleCount(activities: nat, completed: nat)

  /** The running totals of one block. */
  datatype BlockTally = BlockTally(
    total: nat,
    done: nat,
    planned: real,
    completed: real,
    cycles: map<string, CycleCount>)

  const EmptyTally: BlockTally := BlockTally(0, 0, 0.0, 0.0, map[])

  /** `planned_hectares || 60`. */
  function PagePlanned(a: Activity): real {
    PlannedOr(a, 60.0)
  }

  /** One activity added to its block's totals. */
  function AddToTally(t: BlockTally, a: Activity, cycle: Cycle): BlockTally {
    var done := a.status == Completed;
    var c := if cycle.name in t.cycles then t.cycles[cycle.name] else CycleCount(0, 0);
    BlockTally(
      t.total + 1,
      if done then t.done + 1 else t.done,
      t.planned + PagePlanned(a),
      if done then t.completed + StoredCompleted(a) else t.completed,
      t.cycles[cycle.name := CycleCount(c.activities + 1, if done then c.completed + 1 else c.completed)])
  }

  /** The `forEach` of `calculateBlockStatistics`, over the activities in order. */
  function Tally(acts: seq<Activity>): map<nat, BlockTally>
    decreases |acts|
  {
    if acts == [] then map[]
    else
      var t := Tally(acts[..|acts| - 1]);
      var a := acts[|acts| - 1];
      match StatBlock(a)
      case None => t
      case Some(b) =>
        var cycle := PageCycleFromDate(Some(a.scheduled)).value;
        t[b := AddToTally(Previous(t, b), a, cycle)]
  }

  /** Reference definition: the activities that count for block `b`, in order. */
  function MembersOf(acts: seq<Activity>, b: nat): (r: seq<Activity>)
    ensures forall a :: a in r <==> a in acts && StatBlock(a) == Some(b)
    decreases |acts|
  {
    if acts == [] then []
    else
      var last := acts[|acts| - 1];
      assert acts == acts[..|acts| - 1] + [last];
      MembersOf(acts[..|acts| - 1], b) + (if StatBlock(last) == Some(b) then [last] else [])
  }

  /** The completed ones among `acts`, in order. */
  function CompletedAmong(acts: seq<Activity>): (r: seq<Activity>)
    ensures forall a :: a in r <==> a in acts && a.status == Completed
    decreases |acts|
  {
    if acts == [] then []
    else
      var last := acts[|acts| - 1];
      assert acts == acts[..|acts| - 1] + [last];
      CompletedAmong(acts[..|acts| - 1]) + (if last.status == Completed then [last] else [])
  }

  lemma CompletedAmongAppend(acts: seq<Activity>, a: Activity)
    ensures CompletedAmong(acts + [a]) == CompletedAmong(acts) + (if a.status == Completed then [a] else [])
  {
    assert (acts + [a])[..|acts|] == acts;
  }

  /** The totals `AddToTally` changes, apart from the per-cycle counts. */
  lemma AddToTallyTotals(t: BlockTally, a: Activity, cycle: Cycle)
    ensures AddToTally(t, a, cycle).total == t.total + 1
    ensures AddToTally(t, a, cycle).done == t.done + (if a.status == Completed then 1 else 0)
    ensures AddToTally(t, a, cycle).planned == t.planned + PagePlanned(a)
    ensures AddToTally(t, a, cycle).completed == t.completed + (if a.status == Completed then StoredCompleted(a) else 0.0)
  {
  }

  /** A block's totals so far, empty when no activity has counted for it yet. */
  function Previous(t: map<nat, BlockTally>, b: nat): BlockTally {
    if b in t then t[b] else EmptyTally
  }

  /** What the last activity does to the block totals. */
  lemma TallyLast(acts: seq<Activity>, b: nat)
    requires acts != []
    ensures var init, a := acts[..|acts| - 1], acts[|acts| - 1];
      StatBlock(a) == Some(b) ==> (
        && b in Tally(acts)
        && Tally(acts)[b] == AddToTally(Previous(Tally(init), b), a, PageCycleFromDate(Some(a.scheduled)).value))
    ensures var init, a := acts[..|acts| - 1], acts[|acts| - 1];
      StatBlock(a) != Some(b) ==> (
        && (b in Tally(acts) <==> b in Tally(init))
        && (b in Tally(init) ==> Tally(acts)[b] == Tally(init)[b]))
  {
  }

  lemma MembersLast(acts: seq<Activity>, b: nat)
    requires acts != []
    ensures var init, a := acts[..|acts| - 1], acts[|acts| - 1];
      MembersOf(acts, b) == MembersOf(init, b) + (if StatBlock(a) == Some(b) then [a] else [])
  {
  }

  /**
   * A block has an entry exactly when some activity counts for it, and the
   * entry counts those activities and the completed ones among them.
   */
  lemma {:induction false} TallyCountsMembers(acts: seq<Activity>, b: nat)
    ensures b in Tally(acts) <==> MembersOf(acts, b) != []
    ensures b in Tally(acts) ==> (
      && Tally(acts)[b].total == |MembersOf(acts, b)|
      && Tally(acts)[b].done == |CompletedAmong(MembersOf(acts, b))|)
    decreases |acts|
  {
    if acts != [] {
      var init, a := acts[..|acts| - 1], acts[|acts| - 1];
      TallyCountsMembers(init, b);
      TallyLast(acts, b);
      MembersLast(acts, b);
      if StatBlock(a) == Some(b) {
        var m, t0 := MembersOf(init, b), Previous(Tally(init), b);
        CompletedAmongAppend(m, a);
        AddToTallyTotals(t0, a, PageCycleFromDate(Some(a.scheduled)).value);
        assert t0.total == |m| && t0.done == |CompletedAmong(m)|;
        assert Tally(acts)[b].total == t0.total + 1;
        assert Tally(acts)[b].done == t0.done + (if a.status == Completed then 1 else 0);
        assert |CompletedAmong(m + [a])| == |CompletedAmong(m)| + (if a.status == Completed then 1 else 0);
        assert MembersOf(acts, b) == m + [a];
      } else {
        assert b in Tally(acts) ==> Tally(acts)[b] == Tally(init)[b];
        assert MembersOf(acts, b) == MembersOf(init, b);
      }
    }
  }

  /** A block's planned total sums `planned || 60` over the activities that count for it. */
  lemma {:induction false} TallyPlannedMembers(acts: seq<Activity>, b: nat)
    ensures b in Tally(acts) ==> Tally(acts)[b].planned == SumOf(MembersOf(acts, b), PagePlanned)
    decreases |acts|
  {
    if acts != [] {
      var init, a := acts[..|acts| - 1], acts[|acts| - 1];
      TallyPlannedMembers(init, b);
      TallyCountsMembers(init, b);
      TallyLast(acts, b);
      MembersLast(acts, b);
      if StatBlock(a) == Some(b) {
        var m, t0 := MembersOf(init, b), Previous(Tally(init), b);
        SumOfAppend(m, a, PagePlanned);
        AddToTallyTotals(t0, a, PageCycleFromDate(Some(a.scheduled)).value);
        assert t0.planned == SumOf(m, PagePlanned);
        assert Tally(acts)[b].planned == t0.planned + PagePlanned(a);
        assert MembersOf(acts, b) == m + [a];
      } else if b in Tally(acts) {
        assert Tally(acts)[b] == Tally(init)[b];
        assert MembersOf(acts, b) == MembersOf(init, b);
      }
    }
  }

  /**
   * A block's completed total sums `completed || 0` over its completed
   * activities only; other statuses contribute nothing.
   */
  lemma {:induction false} TallyCompletedMembers(acts: seq<Activity>, b: nat)
    ensures b in Tally(acts) ==>
      Tally(acts)[b].completed == SumOf(CompletedAmong(MembersOf(acts, b)), StoredCompleted)
    decreases |acts|
  {
    if acts != [] {
      var init, a := acts[..|acts| - 1], acts[|acts| - 1];
      TallyCompletedMembers(init, b);
      TallyCountsMembers(init, b);
      TallyLast(acts, b);
      MembersLast(acts, b);
      if StatBlock(a) == Some(b) {
        var m, t0 := MembersOf(init, b), Previous(Tally(init), b);
        var c := CompletedAmong(m);
        CompletedAmongAppend(m, a);
        AddToTallyTotals(t0, a, PageCycleFromDate(Some(a.scheduled)).value);
        assert t0.completed == SumOf(c, StoredCompleted);
        assert MembersOf(acts, b) == m + [a];
        if a.status == Completed {
          SumOfAppend(c, a, StoredCompleted);
          assert Tally(acts)[b].completed == t0.completed + StoredCompleted(a);
          assert CompletedAmong(m + [a]) == c + [a];
        } else {
          assert Tally(acts)[b].completed == t0.completed;
          assert CompletedAmong(m + [a]) == c;
        }
      } else if b in Tally(acts) {
        assert Tally(acts)[b] == Tally(init)[b];
        assert MembersOf(acts, b) == MembersOf(init, b);
      }
    }
  }

  /** One block's line of the statistics. */
  datatype BlockSummary = BlockSummary(
    block: nat,
    total: nat,
    done: nat,
    planned: real,
    completed: real,
    pending: real,
    progress: int,
    cycles: map<string, CycleCount>)

  /**
   * `Math.round(completed / planned * 100)` when `planned > 0`, else 0; a
   * completed area between 0 and the planned one gives a percentage between
   * 0 and 100.
   */
  function Progress(completed: real, planned: real): (p: int)
    ensures planned <= 0.0 ==> p == 0
    ensures planned > 0.0 && 0.0 <= completed <= planned ==> 0 <= p <= 100
  {
    if planned > 0.0 then
      var ratio := completed / planned;
      assert 0.0 <= completed <= planned ==> 0.0 <= ratio <= 1.0 by {
        assert ratio * planned == completed;
      }
      Round(ratio * 100.0)
    else 0
  }

  function Summarize(b: nat, t: BlockTally): (s: BlockSummary)
    ensures s.pending == s.planned - s.completed
  {
    BlockSummary(b, t.total, t.done, t.planned, t.completed, t.planned - t.completed,
      Progress(t.completed, t.planned), t.cycles)
  }

  /**
   * `calculateBlockStatistics`: one entry per block that some activity counts
   * for; pending is planned minus completed, and progress is 0 when nothing
   * is planned.
   */
  function BlockStatistics(acts: seq<Activity>): (r: map<nat, BlockSummary>)
    ensures forall b :: b in r <==> exists a :: a in acts && StatBlock(a) == Some(b)
    ensures forall b :: b in r ==> r[b].block == b && r[b].pending == r[b].planned - r[b].completed
    ensures forall b :: b in r && r[b].planned <= 0.0 ==> r[b].progress == 0
    ensures forall b :: b in r ==> (
      && r[b].total == |MembersOf(acts, b)|
      && r[b].done == |CompletedAmong(MembersOf(acts, b))|
      && r[b].planned == SumOf(MembersOf(acts, b), PagePlanned)
      && r[b].completed == SumOf(CompletedAmong(MembersOf(acts, b)), StoredCompleted))
  {
    var t := Tally(acts);
    forall b
      ensures b in t <==> exists a :: a in acts && StatBlock(a) == Some(b)
      ensures b in t ==> (
        && t[b].total == |MembersOf(acts, b)|
        && t[b].done == |CompletedAmong(MembersOf(acts, b))|
        && t[b].planned == SumOf(MembersOf(acts, b), PagePlanned)
        && t[b].completed == SumOf(CompletedAmong(MembersOf(acts, b)), StoredCompleted))
    {
      TallyCountsMembers(acts, b);
      TallyPlannedMembers(acts, b);
      TallyCompletedMembers(acts, b);
      if b in t {
        var a := MembersOf(acts, b)[0];
        assert a in MembersOf(acts, b);
      }
    }
    map b | b in t :: Summarize(b, t[b])
  }

  // ---------------------------------------------------------------- general statistics

  /** `filter(a => a.status === st).length`. */
  function CountStatus(acts: seq<Activity>, st: Status): (n: nat)
    ensures n <= |acts|
  {
    if acts == [] then 0 else (if acts[0].status == st then 1 else 0) + CountStatus(acts[1..], st)
  }

  /** Reference definition: the positions of the activities with status `st`. */
  ghost function WithStatus(acts: seq<Activity>, st: Status): set<nat> {
    set i: nat | i < |acts| && acts[i].status == st
  }

  lemma {:induction false} CountStatusSnoc(acts: seq<Activity>, a: Activity, st: Status)
    ensures CountStatus(acts + [a], st) == CountStatus(acts, st) + (if a.status == st then 1 else 0)
    decreases |acts|
  {
    if acts != [] {
      assert (acts + [a])[1..] == acts[1..] + [a];
      CountStatusSnoc(acts[1..], a, st);
    }
  }

  /** The count is the number of positions holding an activity with that status. */
  lemma {:induction false} CountStatusCounts(acts: seq<Activity>, st: Status)
    ensures CountStatus(acts, st) == |WithStatus(acts, st)|
    decreases |acts|
  {
    if acts != [] {
      var n := |acts| - 1;
      assert acts[..n] + [acts[n]] == acts;
      CountStatusSnoc(acts[..n], acts[n], st);
      CountStatusCounts(acts[..n], st);
      WithStatusSnoc(acts, st);
    }
  }

  /** The last position adds itself to the positions of the others when it has the status. */
  lemma WithStatusSnoc(acts: seq<Activity>, st: Status)
    requires acts != []
    ensures var n := |acts| - 1;
      |WithStatus(acts, st)| == |WithStatus(acts[..n], st)| + (if acts[n].status == st then 1 else 0)
  {
    var n := |acts| - 1;
    var last: set<nat> := if acts[n].status == st then {n} else {};
    WithStatusSplit(acts, st);
    assert WithStatus(acts[..n], st) * last == {};
  }

  /** The positions with the status are those of the prefix, plus the last one when it has it. */
  lemma WithStatusSplit(acts: seq<Activity>, st: Status)
    requires acts != []
    ensures var n := |acts| - 1;
      WithStatus(acts, st) == WithStatus(acts[..n], st) + (if acts[n].status == st then {n} else {})
  {
    var n := |acts| - 1;
    forall i: nat | i < n
      ensures i in WithStatus(acts, st) <==> i in WithStatus(acts[..n], st)
    {
      assert acts[..n][i] == acts[i];
    }
  }

  /** Every activity has exactly one of the five statuses. */
  lemma {:induction false} StatusCountsPartition(acts: seq<Activity>)
    ensures CountStatus(acts, Scheduled) + CountStatus(acts, Deferred) + CountStatus(acts, Completed)
      + CountStatus(acts, Cancelled) + CountStatus(acts, Rescheduled) == |acts|
  {
    if acts != [] {
      StatusCountsPartition(acts[1..]);
    }
  }

  datatype GeneralStats = GeneralStats(
    total: nat,
    completedCount: nat,
    programmedCount: nat,
    deferredCount: nat,
    planned: real,
    completed: real,
    pending: real,
    progress: int)

  /**
   * `calculateGeneralStatistics`: counts by exact status, `planned || 60`
   * summed over all activities and `completed || 0` summed over all of them,
   * whatever their status.
   */
  function GeneralStatistics(acts: seq<Activity>): (r: GeneralStats)
    ensures r.total == |acts|
    ensures r.completedCount + r.programmedCount + r.deferredCount <= r.total
    ensures r.pending == r.planned - r.completed
    ensures r.planned <= 0.0 ==> r.progress == 0
    ensures r.completedCount == |WithStatus(acts, Completed)|
    ensures r.programmedCount == |WithStatus(acts, Scheduled)|
    ensures r.deferredCount == |WithStatus(acts, Deferred)|
    ensures r.planned == SumOf(acts, PagePlanned) && r.completed == SumOf(acts, StoredCompleted)
  {
    StatusCountsPartition(acts);
    CountStatusCounts(acts, Completed);
    CountStatusCounts(acts, Scheduled);
    CountStatusCounts(acts, Deferred);
    var planned := SumOf(acts, PagePlanned);
    var completed := SumOf(acts, StoredCompleted);
    GeneralStats(|acts|, CountStatus(acts, Completed), CountStatus(acts, Scheduled), CountStatus(acts, Deferred),
      planned, completed, planned - completed, Progress(completed, planned))
  }

  // ---------------------------------------------------------------- grouping by month

  /** The `YYYY-MM` key of an activity, as a (year, month) pair. */
  function MonthKey(a: Activity): (int, int) {
    (a.scheduled.date.year, a.scheduled.date.month)
  }

  /** The `reduce` of `groupByMonth`: each activity appended to its month's list. */
  function Group(acts: seq<Activity>): map<(int, int), seq<Activity>>
    decreases |acts|
  {
    if acts == [] then map[]
    else
      var g := Group(acts[..|acts| - 1]);
      var a := acts[|acts| - 1];
      var k := MonthKey(a);
      g[k := (if k in g then g[k] else []) + [a]]
  }

  /** `groupByMonth`: `{}` when the argument is not an array. */
  function GroupByMonth(acts: Option<seq<Activity>>): map<(int, int), seq<Activity>> {
    if acts.None? then map[] else Group(acts.value)
  }

  /** Reference definition: the activities of month `k`, in input order. */
  function InMonth(acts: seq<Activity>, k: (int, int)): (r: seq<Activity>)
    ensures forall a :: a in r <==> a in acts && MonthKey(a) == k
    decreases |acts|
  {
    if acts == [] then []
    else
      var last := acts[|acts| - 1];
      assert acts == acts[..|acts| - 1] + [last];
      InMonth(acts[..|acts| - 1], k) + (if MonthKey(last) == k then [last] else [])
  }

  /** Each group is exactly its month's activities in input order, and only non-empty months have a group. */
  lemma {:induction false} GroupIsMonthFilter(acts: seq<Activity>, k: (int, int))
    ensures k in Group(acts) <==> InMonth(acts, k) != []
    ensures k in Group(acts) ==> Group(acts)[k] == InMonth(acts, k)
    decreases |acts|
  {
    if acts != [] {
      GroupIsMonthFilter(acts[..|acts| - 1], k);
    }
  }

  /** Every activity is in exactly one group: the one of its month. */
  lemma EveryActivityInOneGroup(acts: seq<Activity>, a: Activity)
    requires a in acts
    ensures MonthKey(a) in Group(acts) && a in Group(acts)[MonthKey(a)]
    ensures forall k :: k in Group(acts) && a in Group(acts)[k] ==> k == MonthKey(a)
  {
    GroupIsMonthFilter(acts, MonthKey(a));
    forall k | k in Group(acts) && a in Group(acts)[k]
      ensures k == MonthKey(a)
    {
      GroupIsMonthFilter(acts, k);
    }
  }

  // ---------------------------------------------------------------- block filter

  /** The activities whose page block number is `b`, in order. */
  function OfBlock(acts: seq<Activity>, b: nat): (r: seq<Activity>)
    ensures forall a :: a in r <==> a in acts && PageBlockNumber(a.name) == Some(b)
    ensures |r| <= |acts|
  {
    if acts == [] then []
    else if PageBlockNumber(acts[0].name) == Some(b) then [acts[0]] + OfBlock(acts[1..], b)
    else OfBlock(acts[1..], b)
  }

  /**
   * `filteredActivities`: nothing when the activities are not an array, all
   * of them when no block is selected, otherwise exactly those whose
   * extracted block is the selected one.
   */
  function FilteredActivities(acts: Option<seq<Activity>>, selected: Option<nat>): (r: seq<Activity>)
    ensures acts.None? ==> r == []
    ensures acts.Some? && selected.None? ==> r == acts.value
    ensures acts.Some? && selected.Some? ==>
      forall a :: a in r <==> a in acts.value && PageBlockNumber(a.name) == selected
  {
    if acts.None? then []
    else if selected.None? then acts.value
    else OfBlock(acts.value, selected.value)
  }

  /** Filtering by the same block twice changes nothing more. */
  lemma {:induction false} OfBlockIdempotent(acts: seq<Activity>, b: nat)
    ensures OfBlock(OfBlock(acts, b), b) == OfBlock(acts, b)
  {
    if acts != [] {
      OfBlockIdempotent(acts[1..], b);
    }
  }
}

=== FILE: names.dfy ===
/**
 * Facts the engine reads out of an activity's free-text name: the block
 * number, the "Día N" index and whether the activity is the block's buffer
 * ("comodín", remainder) day.
 */
module Names {
  import opened Base
  import opened Text

  /**
   * The block patterns of the completion handler, tried in this order:
   * /Bloque\s+(\d+)/i, /Block\s+(\d+)/i, /B(\d+)/i, /bloque\s*(\d+)/i,
   * /sector\s+(\d+)/i, /-\s*Bloque\s+(\d+)/i.
   */
  const BlockPatterns: seq<Pattern> := [
    Pattern([Lit("Bloque"), Spaces(1)], true),
    Pattern([Lit("Block"), Spaces(1)], true),
    Pattern([Lit("B")], true),
    Pattern([Lit("bloque"), Spaces(0)], true),
    Pattern([Lit("sector"), Spaces(1)], true),
    Pattern([Lit("-"), Spaces(0), Lit("Bloque"), Spaces(1)], true)
  ]

  /** The first present value of `xs`. */
  function FirstSome(xs: seq<Option<nat>>): (r: Option<nat>)
    ensures r.None? <==> forall k :: 0 <= k < |xs| ==> xs[k].None?
    ensures r.Some? ==> exists k :: 0 <= k < |xs| && xs[k] == r && forall k' :: 0 <= k' < k ==> xs[k'].None?
  {
    if xs == [] then None
    else if xs[0].Some? then xs[0]
    else
      var r := FirstSome(xs[1..]);
      assert forall k :: 1 <= k < |xs| ==> xs[k] == xs[1..][k - 1];
      if r.Some? then
        var k :| 0 <= k < |xs[1..]| && xs[1..][k] == r && forall k' :: 0 <= k' < k ==> xs[1..][k'].None?;
        assert xs[k + 1] == r;
        r
      else
        r
  }

  /** The capture of the first pattern, in list order, that matches `s`. */
  function FirstPatternValue(s: string, ps: seq<Pattern>): (r: Option<nat>)
    ensures r.None? <==> forall k :: 0 <= k < |ps| ==> Exec(s, ps[k]).None?
    ensures r.Some? ==> exists k :: 0 <= k < |ps| && Exec(s, ps[k]) == r
                                  && forall k' :: 0 <= k' < k ==> Exec(s, ps[k']).None?
  {
    var xs := seq(|ps|, k requires 0 <= k < |ps| => Exec(s, ps[k]));
    assert forall k :: 0 <= k < |ps| ==> xs[k] == Exec(s, ps[k]);
    FirstSome(xs)
  }

  /**
   * `extractBlockNumber` of the completion handler: the digits captured by the
   * first pattern of `BlockPatterns` that matches, or `None`.
   */
  function ExtractBlockNumber(name: string): (r: Option<nat>)
    ensures r.None? <==> forall k :: 0 <= k < |BlockPatterns| ==> Exec(name, BlockPatterns[k]).None?
    ensures r.Some? ==> exists k :: 0 <= k < |BlockPatterns| && Exec(name, BlockPatterns[k]) == r
                                  && forall k' :: 0 <= k' < k ==> Exec(name, BlockPatterns[k']).None?
  {
    FirstPatternValue(name, BlockPatterns)
  }

  /** Sentinel day index of names without a "Día N" token: sorts them last. */
  const NoDayIndex: nat := 999

  /** /Día (\d+)/, case-sensitive, one literal space. */
  const DayPattern: Pattern := Pattern([Lit("Día ")], false)

  /** `extractDayNumber`: the number after "Día ", or 999 when there is none. */
  function ExtractDayNumber(name: string): (r: nat)
    ensures (forall i :: 0 <= i <= |name| ==> MatchSpan(name, i, DayPattern).None?) ==> r == NoDayIndex
    ensures (exists i :: 0 <= i <= |name| && MatchSpan(name, i, DayPattern).Some?) ==>
      exists i :: 0 <= i <= |name| && LeftmostGreedyCapture(name, DayPattern, i, r)
  {
    ExecCapturesLeftmostGreedyRun(name, DayPattern);
    Exec(name, DayPattern).GetOr(NoDayIndex)
  }

  /** The remainder / last-day keywords, matched case-insensitively. */
  const BufferKeywords: seq<string> :=
    ["remanente", "último", "ultimo", "final", "restante", "comodín", "comodin", "buffer"]

  function ContainsAny(s: string, keywords: seq<string>): (r: bool)
    ensures r <==> exists k :: 0 <= k < |keywords| && Contains(s, keywords[k], true)
  {
    if keywords == [] then false
    else
      assert forall k :: 1 <= k < |keywords| ==> keywords[k] == keywords[1..][k - 1];
      Contains(s, keywords[0], true) || ContainsAny(s, keywords[1..])
  }

  /** `isBufferDay`: the name mentions one of the buffer keywords, in any letter case. */
  predicate IsBufferDay(name: string) {
    ContainsAny(name, BufferKeywords)
  }

  /** `extractBlockNumber` of the calendar page: /Bloque (\d+)/, case-sensitive. */
  const PageBlockPattern: Pattern := Pattern([Lit("Bloque ")], false)

  function PageBlockNumber(name: string): (r: Option<nat>)
    ensures r.None? <==> forall i :: 0 <= i <= |name| ==> MatchSpan(name, i, PageBlockPattern).None?
    ensures r.Some? ==> exists i :: 0 <= i <= |name| && LeftmostGreedyCapture(name, PageBlockPattern, i, r.value)
  {
    ExecCapturesLeftmostGreedyRun(name, PageBlockPattern);
    Exec(name, PageBlockPattern)
  }

  /** "Bloque 90 - Día 3" is block 90, not block 9. */
  lemma TwoDigitBlockIsNotReadAsOneDigit()
    ensures ExtractBlockNumber("Bloque 90 - Día 3") == Some(90)
  {
    var s := "Bloque 90 - Día 3";
    var p := BlockPatterns[0];
    assert LitAt(s, 0, "Bloque", true);
    assert RunEnd(s, 7, IsSpace) == 7;
    assert RunEnd(s, 6, IsSpace) == 7;
    assert MatchPieces(s, 0, p.pieces, true) == Some(7);
    assert RunEnd(s, 9, IsDigit) == 9;
    assert RunEnd(s, 7, IsDigit) == 9;
    assert MatchSpan(s, 0, p) == Some(Span(7, 9));
    assert s[7..9] == "90";
    assert DecimalValue("9") == 9;
    assert DecimalValue("90") == 90;
  }

  /** "Bloque 11 Control" is block 11, not block 1. */
  lemma ElevenIsNotReadAsOne()
    ensures ExtractBlockNumber("Bloque 11 Control") == Some(11)
  {
    var s := "Bloque 11 Control";
    var p := BlockPatterns[0];
    assert LitAt(s, 0, "Bloque", true);
    assert RunEnd(s, 7, IsSpace) == 7;
    assert RunEnd(s, 6, IsSpace) == 7;
    assert MatchPieces(s, 0, p.pieces, true) == Some(7);
    assert RunEnd(s, 9, IsDigit) == 9;
    assert RunEnd(s, 7, IsDigit) == 9;
    assert MatchSpan(s, 0, p) == Some(Span(7, 9));
    assert s[7..9] == "11";
    assert DecimalValue("1") == 1;
    assert DecimalValue("11") == 11;
  }

  lemma RemainderDayIsBuffer()
    ensures IsBufferDay("Bloque 3 - Día Remanente")
  {
    assert LitAt("Bloque 3 - Día Remanente", 15, "remanente", true);
  }
}

=== FILE: redistribution.dfy ===
/**
 * The completion request (`POST /api/activities/complete-with-hectares`):
 * validation, the `completada` write, the hectare redistribution policy and
 * the block statistics of the response.
 *
 * The redistribution is split into a decision (`Decide`), computed from the
 * completed activity, the hectare difference and the pending activities of
 * its block and cycle, and its effect on the store (`Apply`).
 */
module Redistribution {
  import opened Base
  import opened Calendar
  import opened Workdays
  import opened Activities
  import opened Text
  import opened Names
  import opened Cycles
  import opened Shifter

  /** Planned area assumed for an activity without one. */
  const DefaultPlanned: real := 60.0
  /** Planned area assumed for a buffer day without one. */
  const DefaultBuffer: real := 15.0
  /** Largest area a buffer day may absorb up to. */
  const BufferCap: real := 70.0
  /** Differences up to this many hectares are not redistributed. */
  const Tolerance: real := 0.1
  /** Most hectares a deficit adds to one pending activity. */
  const SpreadStep: real := 60.0

  function Min(a: real, b: real): real {
    if a <= b then a else b
  }

  function Abs(x: real): real {
    if x < 0.0 then -x else x
  }

  // ---------------------------------------------------------------- request

  /**
   * The request body. `activityId` is `None` when the field is missing or
   * empty; `completed` is `None` when `completed_hectares` is not a number.
   */
  datatype Request = Request(activityId: Option<ActivityId>, completed: Option<real>)

  datatype Error =
    | MissingActivityId      // 400
    | InvalidHectares        // 400
    | NotFound               // 404
    | UnknownBlockOrCycle    // 400
    | PrimaryWriteFailed     // 500

  function StatusCode(e: Error): int {
    match e
    case MissingActivityId => 400
    case InvalidHectares => 400
    case NotFound => 404
    case UnknownBlockOrCycle => 400
    case PrimaryWriteFailed => 500
  }

  /** The store calls that throw during one request. */
  datatype Faults = Faults(primaryWrite: bool, pendingFetch: bool, shift: ShiftFault, blockStats: bool)

  const NoFaults: Faults := Faults(false, false, NoFault, false)

  // ---------------------------------------------------------------- pending activities

  /**
   * The pending activities of the block and cycle: names containing
   * "Bloque N" in any letter case (so block 1 also collects block 11), dated
   * within the cycle's range of the activity's year, scheduled or deferred,
   * other than the completed activity; ordered by date.
   */
  function PendingFilter(block: nat, cycle: Cycle, a: Activity): Filter
    requires 1 <= cycle.number <= 4
  {
    var (lo, hi) := CompletionRange(cycle.number, a.scheduled.date.year);
    Filter(Some("Bloque " + DecimalText(block)), Some(lo), Some(hi), None, Some(Pending), Some(a.id))
  }

  /**
   * The buffer day among `acts`: of the buffer-named ones, the latest; among
   * equally late ones the first in `acts` (the sort is stable).
   */
  function LatestBuffer(acts: seq<Activity>): (r: Option<Activity>)
    ensures r.None? <==> forall i :: 0 <= i < |acts| ==> !IsBufferDay(acts[i].name)
    ensures r.Some? ==> r.value in acts && IsBufferDay(r.value.name)
  {
    if acts == [] then None
    else
      var rest := LatestBuffer(acts[1..]);
      assert forall j :: 1 <= j < |acts| ==> acts[j] == acts[1..][j - 1];
      if IsBufferDay(acts[0].name) && (rest.None? || !Before(acts[0].scheduled, rest.value.scheduled)) then
        Some(acts[0])
      else
        rest
  }

  /** `i` is the position of the latest buffer day of `acts`, the first one among equally late ones. */
  ghost predicate IsLatestBufferAt(acts: seq<Activity>, i: nat)
    requires i < |acts|
  {
    && IsBufferDay(acts[i].name)
    && (forall j :: 0 <= j < i && IsBufferDay(acts[j].name) ==> Before(acts[j].scheduled, acts[i].scheduled))
    && (forall j :: i < j < |acts| && IsBufferDay(acts[j].name) ==> !Before(acts[i].scheduled, acts[j].scheduled))
  }

  /** The head is chosen when it is a buffer day no earlier than the latest buffer day of the tail. */
  lemma LatestBufferHead(acts: seq<Activity>, k: nat)
    requires acts != [] && k < |acts| - 1
    requires IsLatestBufferAt(acts[1..], k)
    requires IsBufferDay(acts[0].name) && !Before(acts[0].scheduled, acts[k + 1].scheduled)
    ensures IsLatestBufferAt(acts, 0)
  {
    forall j | 0 < j < |acts| && IsBufferDay(acts[j].name)
      ensures !Before(acts[0].scheduled, acts[j].scheduled)
    {
      assert acts[j] == acts[1..][j - 1];
      InstantOrderTotal(acts[0].scheduled, acts[k + 1].scheduled);
      InstantOrderTotal(acts[j].scheduled, acts[k + 1].scheduled);
    }
  }

  /** Otherwise the latest buffer day of the tail stays the latest. */
  lemma LatestBufferTail(acts: seq<Activity>, k: nat)
    requires acts != [] && k < |acts| - 1
    requires IsLatestBufferAt(acts[1..], k)
    requires IsBufferDay(acts[0].name) ==> Before(acts[0].scheduled, acts[k + 1].scheduled)
    ensures IsLatestBufferAt(acts, k + 1)
  {
    assert forall j :: 1 <= j < |acts| ==> acts[j] == acts[1..][j - 1];
  }

  /**
   * The buffer chosen is the one `sort` by descending date puts first: no
   * buffer day is later, and every earlier-listed one is strictly earlier.
   */
  lemma {:induction false} LatestBufferIsLatest(acts: seq<Activity>)
    requires LatestBuffer(acts).Some?
    ensures exists i :: 0 <= i < |acts| && acts[i] == LatestBuffer(acts).value && IsLatestBufferAt(acts, i)
  {
    var rest := LatestBuffer(acts[1..]);
    if rest.None? {
      assert forall j :: 1 <= j < |acts| ==> acts[j] == acts[1..][j - 1];
      assert IsLatestBufferAt(acts, 0);
    } else {
      LatestBufferIsLatest(acts[1..]);
      var k :| 0 <= k < |acts[1..]| && acts[1..][k] == rest.value && IsLatestBufferAt(acts[1..], k);
      assert acts[k + 1] == rest.value;
      if IsBufferDay(acts[0].name) && !Before(acts[0].scheduled, rest.value.scheduled) {
        LatestBufferHead(acts, k);
      } else {
        LatestBufferTail(acts, k);
      }
    }
  }

  // ---------------------------------------------------------------- decision

  /** The branch of the redistribution policy a completion takes. */
  datatype Decision =
    | BufferItselfDeficit(deficit: real)                              // the completed activity is the buffer day, short
    | BufferItselfExcess                                              // the completed activity is the buffer day, over
    | Absorb(buffer: Activity, current: real, after: real)            // the buffer day takes the difference
    | CapAndOverflow(buffer: Activity, current: real, overflow: real) // buffer capped at 70, rest becomes a new activity
    | DeleteExact(buffer: Activity, current: real)                    // buffer reaches exactly 0 and is deleted
    | DeleteWithDeficit(buffer: Activity, current: real, remaining: real) // buffer below 0: deleted, rest becomes a new activity
    | NoBufferExcess(excess: real)                                    // no buffer, over: a new activity
    | NoBufferDeficit(deficit: real)                                  // no buffer, short: spread over the pending ones

  predicate UsesBuffer(d: Decision) {
    d.Absorb? || d.CapAndOverflow? || d.DeleteExact? || d.DeleteWithDeficit?
  }

  /**
   * The branch taken for the completed activity `a`, the difference `diff`
   * (completed minus planned) and the pending activities of its block and
   * cycle, in fetched order.
   */
  function Decide(a: Activity, diff: real, pending: seq<Activity>): (d: Decision)
    ensures (d.BufferItselfDeficit? || d.BufferItselfExcess?) <==>
      LatestBuffer(pending).None? && IsBufferDay(a.name)
    ensures UsesBuffer(d) <==> LatestBuffer(pending).Some?
    ensures UsesBuffer(d) ==>
      d.buffer == LatestBuffer(pending).value && d.current == PlannedOr(d.buffer, DefaultBuffer)
    ensures d.BufferItselfDeficit? ==> diff < 0.0 && d.deficit == -diff
    ensures d.BufferItselfExcess? ==> diff >= 0.0
    ensures d.Absorb? ==> 0.0 < d.after <= BufferCap && d.after == d.current - diff
    ensures d.CapAndOverflow? ==> d.current - diff > BufferCap && d.overflow == d.current - diff - BufferCap
    ensures d.DeleteExact? ==> d.current - diff == 0.0
    ensures d.DeleteWithDeficit? ==> d.current - diff < 0.0 && d.remaining == diff - d.current
    ensures d.NoBufferExcess? ==> diff > 0.0 && d.excess == diff
    ensures d.NoBufferDeficit? ==> diff <= 0.0 && d.deficit == -diff
  {
    var buffer := LatestBuffer(pending);
    if buffer.None? && IsBufferDay(a.name) then
      if diff < 0.0 then BufferItselfDeficit(-diff) else BufferItselfExcess
    else if buffer.Some? then
      var current := PlannedOr(buffer.value, DefaultBuffer);
      var after := current - diff;
      if 0.0 < after <= BufferCap then Absorb(buffer.value, current, after)
      else if after > BufferCap then CapAndOverflow(buffer.value, current, after - BufferCap)
      else if after == 0.0 then DeleteExact(buffer.value, current)
      else DeleteWithDeficit(buffer.value, current, -after)
    else if diff > 0.0 then NoBufferExcess(diff)
    else NoBufferDeficit(-diff)
  }

  // ---------------------------------------------------------------- ledger

  /** The change of scheduled hectares a detail reports. */
  function Delta(d: Detail): real {
    match d
    case Updated(_, before, after) => after - before
    case Created(_, h) => h
    case Deleted(_, before) => -before
    case Warning(_, change) => if change.Some? then change.value.1 - change.value.0 else 0.0
    case Shifted(_, _, _) => 0.0
  }

  /** The net change of scheduled hectares that `ds` reports. */
  function Ledger(ds: seq<Detail>): real
    decreases |ds|
  {
    if ds == [] then 0.0 else Ledger(ds[..|ds| - 1]) + Delta(ds[|ds| - 1])
  }

  lemma {:induction false} LedgerAppend(a: seq<Detail>, b: seq<Detail>)
    ensures Ledger(a + b) == Ledger(a) + Ledger(b)
    decreases |b|
  {
    if b == [] {
      assert a + b == a;
    } else {
      assert (a + b)[..|a + b| - 1] == a + b[..|b| - 1];
      assert (a + b)[|a + b| - 1] == b[|b| - 1];
      LedgerAppend(a, b[..|b| - 1]);
    }
  }

  /** Dates only: the details of a shift report no change of hectares. */
  lemma {:induction false} ShiftLedgerIsZero(s: Store, insertion: Timestamp, fault: ShiftFault)
    ensures Ledger(ShiftCalendarForward(s, insertion, fault).details) == 0.0
  {
    var r := ShiftCalendarForward(s, insertion, fault);
    var moves := ShiftPlan(s, insertion);
    if fault.WriteFails? && fault.at < |moves| {
      ShiftDetailsLedger(moves[..fault.at]);
      assert r.details == r.details[..fault.at] + [r.details[fault.at]];
      LedgerAppend(r.details[..fault.at], [r.details[fault.at]]);
    } else if !fault.FetchFails? {
      ShiftDetailsLedger(moves);
    }
  }

  lemma {:induction false} ShiftDetailsLedger(moves: seq<Move>)
    ensures Ledger(ShiftDetails(moves)) == 0.0
    decreases |moves|
  {
    if moves != [] {
      var ds := ShiftDetails(moves);
      assert ds[..|ds| - 1] == ShiftDetails(moves[..|moves| - 1]);
      ShiftDetailsLedger(moves[..|moves| - 1]);
    }
  }

  // ---------------------------------------------------------------- effects

  /** The store, the details appended so far and `redistributedActivities`. */
  datatype Acc = Acc(store: Store, details: seq<Detail>, count: nat)

  /** `{ planned_hectares: h, duration: Math.round((h / 60) * 480) }`. */
  function Replan(h: real): Patch {
    Patch(None, None, Some(h), Some(DurationFor(h)), None)
  }

  /** `a` replanned to `h` hectares, with the duration for that area. */
  function Replanned(a: Activity, h: real): Activity {
    a.(planned := Some(h), duration := DurationFor(h))
  }

  /** Row by row, `after` is `before` with the rows of `id` replanned to `h` hectares. */
  predicate ReplannedIn(after: seq<Activity>, before: seq<Activity>, id: ActivityId, h: real) {
    && |after| == |before|
    && forall i :: 0 <= i < |before| ==> after[i] == if before[i].id == id then Replanned(before[i], h) else before[i]
  }

  /**
   * `x` is an activity the policy creates: `hectares` scheduled on `insertion`
   * under `name`, with the completed activity's type and priority, the
   * duration for its area and no completed area.
   */
  predicate IsCreated(x: Activity, id: ActivityId, a: Activity, insertion: Timestamp, name: string, hectares: real) {
    && x.id == id && x.name == name && x.kind == a.kind && x.priority == a.priority
    && x.scheduled == insertion && x.status == Scheduled
    && x.planned == Some(hectares) && x.duration == DurationFor(hectares) && x.completed.None?
  }

  /** Replanning the one row of `p` to `h` hectares changes the stored total by `h` minus its stored area. */
  lemma ReplanSum(rows: seq<Activity>, p: Activity, h: real)
    requires DistinctIds(rows) && p in rows
    ensures SumOf(UpdateRows(rows, p.id, Replan(h)), StoredPlanned) == SumOf(rows, StoredPlanned) - StoredPlanned(p) + h
  {
    SumOfUpdate(rows, p.id, Replan(h), StoredPlanned);
    var i :| 0 <= i < |rows| && rows[i] == p;
    assert StoredPlanned(ApplyPatch(rows[i], Replan(h))) == h;
  }

  /** Deleting the one row of `p` takes its stored area out of the total. */
  lemma DeleteSum(rows: seq<Activity>, p: Activity)
    requires DistinctIds(rows) && p in rows
    ensures SumOf(DeleteRows(rows, p.id), StoredPlanned) == SumOf(rows, StoredPlanned) - StoredPlanned(p)
  {
    SumOfDelete(rows, p.id, StoredPlanned);
    var i :| 0 <= i < |rows| && rows[i] == p;
    assert rows[i].id == p.id;
  }

  /*
   * Names of the activities the policy creates. They start with the completed
   * activity's name (so they keep its "Bloque N" and "Día N"); the handler
   * also appends the area as "(+Nha)", which is not modelled.
   */
  const OverflowSuffix: string := " - Exceso Adicional"
  const RemainingDeficitSuffix: string := " - Déficit Restante"
  const SurplusSuffix: string := " - Excedente"
  const SpreadDeficitSuffix: string := " - Déficit Redistribuido"

  /** The name of the activity created when the buffer day itself falls short. */
  function BufferDeficitName(block: nat, day: nat): string {
    "Aplicación Preventiva Biológicos - Bloque " + DecimalText(block) + " Día " + DecimalText(day + 1)
      + " (Déficit Restante)"
  }

  /**
   * Shift the calendar forward from `insertion`, then create a scheduled
   * activity of `hectares` on the insertion date: one `nueva_actividad`
   * detail after the shift's, and the count grows by one plus the shifted count.
   */
  function ShiftAndCreate(acc: Acc, a: Activity, insertion: Timestamp, name: string, hectares: real, fault: ShiftFault): (r: Acc)
    ensures Ledger(r.details) == Ledger(acc.details) + hectares
    ensures r.count == acc.count + 1 + ShiftCalendarForward(acc.store, insertion, fault).count
    ensures |r.store.rows| == |acc.store.rows| + 1 && r.store.nextId == acc.store.nextId + 1
    ensures r.store.rows[..|acc.store.rows|] == ShiftCalendarForward(acc.store, insertion, fault).store.rows
    ensures DatesOnly(r.store.rows[..|acc.store.rows|], acc.store.rows)
    ensures IsCreated(r.store.rows[|acc.store.rows|], acc.store.nextId, a, insertion, name, hectares)
    ensures SumOf(r.store.rows, StoredPlanned) == SumOf(acc.store.rows, StoredPlanned) + hectares
  {
    var sh := ShiftCalendarForward(acc.store, insertion, fault);
    var n := NewActivity(name, a.kind, insertion, DurationFor(hectares), a.priority, Scheduled, hectares);
    ShiftThenCreate(acc, insertion, n, fault);
    Acc(Create(sh.store, n), acc.details + sh.details + [Created(sh.store.nextId, hectares)], acc.count + 1 + sh.count)
  }

  /** The store and details after shifting from `insertion` and then creating `n`. */
  lemma ShiftThenCreate(acc: Acc, insertion: Timestamp, n: NewActivity, fault: ShiftFault)
    ensures var sh := ShiftCalendarForward(acc.store, insertion, fault);
      var rows := Create(sh.store, n).rows;
      && |rows| == |acc.store.rows| + 1 && sh.store.nextId == acc.store.nextId
      && rows[..|acc.store.rows|] == sh.store.rows && rows[|acc.store.rows|] == RowOf(acc.store.nextId, n)
      && DatesOnly(sh.store.rows, acc.store.rows)
      && SumOf(rows, StoredPlanned) == SumOf(acc.store.rows, StoredPlanned) + n.planned
      && Ledger(acc.details + sh.details + [Created(sh.store.nextId, n.planned)]) == Ledger(acc.details) + n.planned
  {
    var sh := ShiftCalendarForward(acc.store, insertion, fault);
    ShiftChangesDatesOnly(acc.store, insertion, fault);
    ShiftKeepsPlannedTotal(acc.store, insertion, fault);
    ShiftLedgerIsZero(acc.store, insertion, fault);
    CreateAfter(acc.store.rows, acc.details, sh.store, sh.details, n);
  }

  /** Creating `n` in `s` after rows as many as `before`, with the details that report it. */
  lemma CreateAfter(before: seq<Activity>, details: seq<Detail>, s: Store, more: seq<Detail>, n: NewActivity)
    requires |s.rows| == |before|
    ensures var rows := Create(s, n).rows;
      && |rows| == |before| + 1 && rows[..|before|] == s.rows && rows[|before|] == RowOf(s.nextId, n)
      && SumOf(rows, StoredPlanned) == SumOf(s.rows, StoredPlanned) + n.planned
      && Ledger(details + more + [Created(s.nextId, n.planned)]) == Ledger(details) + Ledger(more) + n.planned
  {
    var rows := Create(s, n).rows;
    assert rows[..|before|] == s.rows;
    SumOfAppend(s.rows, RowOf(s.nextId, n), StoredPlanned);
    assert StoredPlanned(RowOf(s.nextId, n)) == n.planned;
    LedgerAppend(details, more);
    LedgerAppend(details + more, [Created(s.nextId, n.planned)]);
  }

  /**
   * The deficit loop: in fetched order, while some deficit remains, each
   * pending activity gets `min(remaining, 60)` more hectares. Returns the
   * deficit left over, which is positive only when every pending activity
   * took a full 60.
   */
  function Spread(acc: Acc, pending: seq<Activity>, remaining: real): (r: (Acc, real))
    ensures remaining >= 0.0 ==> 0.0 <= r.1 <= remaining
    ensures remaining < 0.0 ==> r == (acc, remaining)
    ensures r.1 > 0.0 ==> r.1 == remaining - |pending| as real * 60.0
    ensures r.0.count - acc.count == |r.0.details| - |acc.details| <= |pending|
    decreases |pending|
  {
    if pending == [] || remaining <= 0.0 then
      (acc, remaining)
    else
      var next := SpreadOne(acc, pending[0], remaining);
      Spread(next, pending[1..], remaining - Min(remaining, SpreadStep))
  }

  /** The details of the deficit loop add up to the part of the deficit it placed. */
  lemma {:induction false} SpreadLedger(acc: Acc, pending: seq<Activity>, remaining: real)
    ensures Ledger(Spread(acc, pending, remaining).0.details) ==
      Ledger(acc.details) + (remaining - Spread(acc, pending, remaining).1)
    decreases |pending|
  {
    if pending != [] && remaining > 0.0 {
      var next := SpreadOne(acc, pending[0], remaining);
      SpreadTurn(acc, pending, remaining);
      assert next.details[..|acc.details|] == acc.details;
      SpreadLedger(next, pending[1..], remaining - Min(remaining, SpreadStep));
    } else {
      SpreadStops(acc, pending, remaining);
    }
  }

  /** One turn of the deficit loop: `p` gets `min(remaining, 60)` more hectares. */
  function SpreadOne(acc: Acc, p: Activity, remaining: real): (r: Acc)
    ensures r.details == acc.details + [SpreadDetail(p, remaining, 0)]
    ensures r.count == acc.count + 1
  {
    var current := PlannedOr(p, DefaultPlanned);
    var after := current + Min(remaining, SpreadStep);
    Acc(Update(acc.store, p.id, Replan(after)), acc.details + [Updated(p.id, current, after)], acc.count + 1)
  }

  /** The detail of the `k`-th pending activity in the deficit loop with `remaining` hectares to place. */
  function SpreadDetail(p: Activity, remaining: real, k: nat): Detail {
    Updated(p.id, PlannedOr(p, DefaultPlanned), SpreadTarget(p, remaining, k))
  }

  /**
   * The new planned area of the `k`-th pending activity in the deficit loop
   * with `remaining` hectares to place: its planned area (60 when unset)
   * plus `min(remaining - 60k, 60)`.
   */
  function SpreadTarget(p: Activity, remaining: real, k: nat): real {
    PlannedOr(p, DefaultPlanned) + Min(remaining - k as real * 60.0, SpreadStep)
  }

  /** One turn of the deficit loop replans the rows of `p` to `SpreadTarget` and nothing else. */
  lemma SpreadOneReplans(acc: Acc, p: Activity, remaining: real)
    ensures ReplannedIn(SpreadOne(acc, p, remaining).store.rows, acc.store.rows, p.id, SpreadTarget(p, remaining, 0))
    ensures SpreadOne(acc, p, remaining).store.nextId == acc.store.nextId
  {
    var rows := SpreadOne(acc, p, remaining).store.rows;
    assert rows == UpdateRows(acc.store.rows, p.id, Replan(SpreadTarget(p, remaining, 0)));
  }

  /** The deficit loop keeps every row in place and assigns no identifier. */
  lemma {:induction false} SpreadKeepsShape(acc: Acc, pending: seq<Activity>, remaining: real)
    ensures |Spread(acc, pending, remaining).0.store.rows| == |acc.store.rows|
    ensures Spread(acc, pending, remaining).0.store.nextId == acc.store.nextId
    decreases |pending|
  {
    if pending != [] && remaining > 0.0 {
      var next := SpreadOne(acc, pending[0], remaining);
      SpreadOneReplans(acc, pending[0], remaining);
      SpreadTurn(acc, pending, remaining);
      SpreadKeepsShape(next, pending[1..], remaining - Min(remaining, SpreadStep));
    } else {
      SpreadStops(acc, pending, remaining);
    }
  }

  /** How many pending activities the deficit loop reaches with `remaining` hectares to place. */
  function Reached(pending: seq<Activity>, remaining: real): (m: nat)
    ensures m <= |pending|
    ensures m > 0 ==> remaining - (m - 1) as real * 60.0 > 0.0
    ensures m < |pending| ==> remaining - m as real * 60.0 <= 0.0
    decreases |pending|
  {
    if pending == [] || remaining <= 0.0 then 0
    else 1 + Reached(pending[1..], remaining - Min(remaining, SpreadStep))
  }

  /** No pending activity the deficit loop reaches has identifier `id`. */
  predicate NotReached(pending: seq<Activity>, remaining: real, id: ActivityId) {
    forall k :: 0 <= k < Reached(pending, remaining) ==> pending[k].id != id
  }

  /**
   * `after` is `before` with the row of each of the first `Reached` pending
   * activities replanned to its `SpreadTarget`, and every other row as it was.
   */
  predicate SpreadWritten(after: seq<Activity>, before: seq<Activity>, pending: seq<Activity>, remaining: real) {
    && |after| == |before|
    && (forall k, i ::
          (0 <= k < Reached(pending, remaining) && 0 <= i < |before| && before[i].id == pending[k].id) ==>
          after[i] == Replanned(before[i], SpreadTarget(pending[k], remaining, k)))
    && (forall i :: 0 <= i < |before| && NotReached(pending, remaining, before[i].id) ==> after[i] == before[i])
  }

  /**
   * The deficit loop's writes: for pending activities with distinct
   * identifiers, the row of each of the first `Reached` ones is replanned to
   * `SpreadTarget`, and every other row is left as it was.
   */
  lemma {:induction false} SpreadWrites(acc: Acc, pending: seq<Activity>, remaining: real)
    requires DistinctIds(pending)
    ensures SpreadWritten(Spread(acc, pending, remaining).0.store.rows, acc.store.rows, pending, remaining)
    decreases |pending|
  {
    if pending != [] && remaining > 0.0 {
      var next := SpreadOne(acc, pending[0], remaining);
      var rest := remaining - Min(remaining, SpreadStep);
      assert Spread(acc, pending, remaining) == Spread(next, pending[1..], rest) by {
        SpreadTurn(acc, pending, remaining);
      }
      SpreadOneReplans(acc, pending[0], remaining);
      DistinctIdsTail(pending);
      HeadIdNotInTail(pending);
      SpreadWrites(next, pending[1..], rest);
      SpreadWritesStep(acc.store.rows, next.store.rows, Spread(next, pending[1..], rest).0.store.rows, pending, remaining);
    } else {
      SpreadStops(acc, pending, remaining);
    }
  }

  /** One turn of the deficit loop followed by the rest of it writes what the whole loop writes. */
  lemma SpreadWritesStep(before: seq<Activity>, mid: seq<Activity>, after: seq<Activity>, pending: seq<Activity>, remaining: real)
    requires pending != [] && remaining > 0.0
    requires forall a :: a in pending[1..] ==> a.id != pending[0].id
    requires ReplannedIn(mid, before, pending[0].id, SpreadTarget(pending[0], remaining, 0))
    requires SpreadWritten(after, mid, pending[1..], remaining - Min(remaining, SpreadStep))
    ensures SpreadWritten(after, before, pending, remaining)
  {
    var rest := remaining - Min(remaining, SpreadStep);
    var m := Reached(pending, remaining);
    assert m == 1 + Reached(pending[1..], rest);
    forall k, i | 0 <= k < m && 0 <= i < |before| && before[i].id == pending[k].id
      ensures after[i] == Replanned(before[i], SpreadTarget(pending[k], remaining, k))
    {
      if k == 0 {
        TailNotReached(pending, rest, before[i].id);
      } else {
        assert pending[1..][k - 1] == pending[k] && pending[k] in pending[1..];
        assert rest == remaining - 60.0;
      }
    }
    forall i | 0 <= i < |before| && NotReached(pending, remaining, before[i].id)
      ensures after[i] == before[i]
    {
      assert pending[0].id != before[i].id;
      TailNotReached(pending, rest, before[i].id);
    }
  }

  /** No activity after the head has the head's identifier, or any the whole loop does not reach. */
  lemma TailNotReached(pending: seq<Activity>, rest: real, id: ActivityId)
    requires pending != []
    requires forall a :: a in pending[1..] ==> a.id != pending[0].id
    requires id == pending[0].id || forall k :: 1 <= k <= Reached(pending[1..], rest) ==> pending[k].id != id
    ensures NotReached(pending[1..], rest, id)
  {
    forall k | 0 <= k < Reached(pending[1..], rest)
      ensures pending[1..][k].id != id
    {
      assert pending[1..][k] == pending[k + 1] && pending[k + 1] in pending[1..];
    }
  }

  /** The balance of the deficit loop follows from the balance of its first turn and that of the rest. */
  lemma SpreadStoredStep(acc: Acc, pending: seq<Activity>, remaining: real)
    requires pending != [] && remaining > 0.0
    requires DistinctIds(acc.store.rows) && pending[0] in acc.store.rows
    requires var next := SpreadOne(acc, pending[0], remaining);
      var rest := remaining - Min(remaining, SpreadStep);
      SumOf(Spread(next, pending[1..], rest).0.store.rows, StoredPlanned)
        == SumOf(next.store.rows, StoredPlanned) + (rest - Spread(next, pending[1..], rest).1)
           + SumOf(pending[1..][..Reached(pending[1..], rest)], SpreadUnstored)
    ensures SumOf(Spread(acc, pending, remaining).0.store.rows, StoredPlanned)
         == SumOf(acc.store.rows, StoredPlanned) + (remaining - Spread(acc, pending, remaining).1)
            + SumOf(pending[..Reached(pending, remaining)], SpreadUnstored)
  {
    var p := pending[0];
    var next := SpreadOne(acc, p, remaining);
    var rest := remaining - Min(remaining, SpreadStep);
    var m := Reached(pending, remaining);
    assert Spread(acc, pending, remaining) == Spread(next, pending[1..], rest) by {
      SpreadTurn(acc, pending, remaining);
    }
    assert SumOf(next.store.rows, StoredPlanned)
        == SumOf(acc.store.rows, StoredPlanned) + Min(remaining, SpreadStep) + SpreadUnstored(p) by {
      SpreadOneStoredBalance(acc, p, remaining);
    }
    assert SumOf(pending[..m], SpreadUnstored)
        == SpreadUnstored(p) + SumOf(pending[1..][..Reached(pending[1..], rest)], SpreadUnstored) by {
      assert m == 1 + Reached(pending[1..], rest);
      PrefixCons(pending, m);
    }
  }

  /** A non-empty prefix is the head followed by a prefix of the tail. */
  lemma PrefixCons(xs: seq<Activity>, n: nat)
    requires 0 < n <= |xs|
    ensures xs[..n][0] == xs[0] && xs[..n][1..] == xs[1..][..n - 1]
  {
  }

  /** One turn of the deficit loop adds the hectares it places, plus 60 when the area was unset. */
  lemma SpreadOneStoredBalance(acc: Acc, p: Activity, remaining: real)
    requires DistinctIds(acc.store.rows) && p in acc.store.rows
    ensures SumOf(SpreadOne(acc, p, remaining).store.rows, StoredPlanned)
         == SumOf(acc.store.rows, StoredPlanned) + Min(remaining, SpreadStep) + SpreadUnstored(p)
  {
    ReplanSum(acc.store.rows, p, SpreadTarget(p, remaining, 0));
    SpreadOneReplans(acc, p, remaining);
    SumOfSameTerms(SpreadOne(acc, p, remaining).store.rows, UpdateRows(acc.store.rows, p.id, Replan(SpreadTarget(p, remaining, 0))), StoredPlanned);
  }

  /** After the first turn, the other pending activities are still rows of the store. */
  lemma OthersStayInStore(acc: Acc, pending: seq<Activity>, remaining: real)
    requires pending != []
    requires forall a :: a in pending[1..] ==> a.id != pending[0].id
    requires forall p :: p in pending ==> p in acc.store.rows
    ensures forall q :: q in pending[1..] ==> q in SpreadOne(acc, pending[0], remaining).store.rows
  {
    var next := SpreadOne(acc, pending[0], remaining);
    SpreadOneReplans(acc, pending[0], remaining);
    forall q | q in pending[1..]
      ensures q in next.store.rows
    {
      assert q in pending;
      var j :| 0 <= j < |acc.store.rows| && acc.store.rows[j] == q;
      assert next.store.rows[j] == q;
    }
  }

  /** The area the details report beyond the stored one: `fallback` when the planned area is unset or zero. */
  function Unstored(a: Activity, fallback: real): real {
    PlannedOr(a, fallback) - StoredPlanned(a)
  }

  /** The same, for a pending activity of the deficit loop. */
  function SpreadUnstored(p: Activity): real {
    Unstored(p, DefaultPlanned)
  }

  /** A planned area is set: the store holds a non-zero value. */
  predicate HasArea(a: Activity) {
    a.planned.Some? && a.planned.value != 0.0
  }

  /** The reported areas of activities without one add up to 60 each, and to 0 exactly when all have one. */
  lemma {:induction false} SpreadUnstoredSum(xs: seq<Activity>)
    ensures SumOf(xs, SpreadUnstored) >= 0.0
    ensures SumOf(xs, SpreadUnstored) == 0.0 <==> forall k :: 0 <= k < |xs| ==> HasArea(xs[k])
  {
    if xs != [] {
      SpreadUnstoredSum(xs[1..]);
      assert forall k :: 1 <= k < |xs| ==> xs[k] == xs[1..][k - 1];
      assert SpreadUnstored(xs[0]) == if HasArea(xs[0]) then 0.0 else DefaultPlanned;
    }
  }

  /**
   * The stored planned total after the deficit loop, for pending activities
   * with distinct identifiers taken from the store: it grows by the hectares
   * placed plus 60 for every reached activity whose area was unset (the loop
   * reads it as 60, the store holds 0).
   */
  lemma {:induction false} SpreadStoredBalance(acc: Acc, pending: seq<Activity>, remaining: real)
    requires DistinctIds(acc.store.rows) && DistinctIds(pending)
    requires forall p :: p in pending ==> p in acc.store.rows
    ensures SumOf(Spread(acc, pending, remaining).0.store.rows, StoredPlanned)
         == SumOf(acc.store.rows, StoredPlanned) + (remaining - Spread(acc, pending, remaining).1)
            + SumOf(pending[..Reached(pending, remaining)], SpreadUnstored)
    decreases |pending|
  {
    if pending != [] && remaining > 0.0 {
      var next := SpreadOne(acc, pending[0], remaining);
      var rest := remaining - Min(remaining, SpreadStep);
      assert DistinctIds(pending[1..]) && (forall q :: q in pending[1..] ==> q in next.store.rows) by {
        DistinctIdsTail(pending);
        HeadIdNotInTail(pending);
        OthersStayInStore(acc, pending, remaining);
      }
      SpreadStoredBalance(next, pending[1..], rest);
      SpreadStoredStep(acc, pending, remaining);
    } else {
      SpreadStops(acc, pending, remaining);
    }
  }

  /**
   * `ds` are the details of the deficit loop over `pending` with `remaining`
   * hectares to place: the pending activities in fetched order, one detail
   * each, the `k`-th receiving `min(remaining - 60k, 60)` on top of its
   * planned area (60 when unset); the loop stops at the first activity for
   * which nothing would remain, or when the pending activities run out.
   */
  predicate VisitsInOrder(ds: seq<Detail>, pending: seq<Activity>, remaining: real) {
    && |ds| <= |pending|
    && (|ds| > 0 ==> remaining - (|ds| - 1) as real * 60.0 > 0.0)
    && (|ds| < |pending| ==> remaining - |ds| as real * 60.0 <= 0.0)
    && (forall k :: 0 <= k < |ds| ==> ds[k] == SpreadDetail(pending[k], remaining, k))
  }

  lemma VisitsInOrderCons(ds: seq<Detail>, pending: seq<Activity>, remaining: real)
    requires pending != [] && remaining > SpreadStep
    requires VisitsInOrder(ds, pending[1..], remaining - SpreadStep)
    ensures VisitsInOrder([SpreadDetail(pending[0], remaining, 0)] + ds, pending, remaining)
  {
    var ds' := [SpreadDetail(pending[0], remaining, 0)] + ds;
    forall k | 1 <= k < |ds'|
      ensures ds'[k] == SpreadDetail(pending[k], remaining, k)
    {
      assert ds'[k] == ds[k - 1] == SpreadDetail(pending[1..][k - 1], remaining - SpreadStep, k - 1);
    }
  }

  /** The deficit loop only appends details. */
  lemma {:induction false} SpreadKeepsPrefix(acc: Acc, pending: seq<Activity>, remaining: real)
    ensures var r := Spread(acc, pending, remaining).0;
      |acc.details| <= |r.details| && r.details[..|acc.details|] == acc.details
    decreases |pending|
  {
    if pending != [] && remaining > 0.0 {
      var next := SpreadOne(acc, pending[0], remaining);
      var r := Spread(next, pending[1..], remaining - Min(remaining, SpreadStep)).0;
      SpreadKeepsPrefix(next, pending[1..], remaining - Min(remaining, SpreadStep));
      assert r.details[..|acc.details|] == r.details[..|next.details|][..|acc.details|];
    }
  }

  /** The deficit loop stops when nothing remains to place or no pending activity is left. */
  lemma SpreadStops(acc: Acc, pending: seq<Activity>, remaining: real)
    requires pending == [] || remaining <= 0.0
    ensures Spread(acc, pending, remaining) == (acc, remaining)
  {
  }

  /** One turn of the deficit loop, then the loop over the rest. */
  lemma SpreadTurn(acc: Acc, pending: seq<Activity>, remaining: real)
    requires pending != [] && remaining > 0.0
    ensures Spread(acc, pending, remaining)
         == Spread(SpreadOne(acc, pending[0], remaining), pending[1..], remaining - Min(remaining, SpreadStep))
  {
  }

  /** After its first turn, the deficit loop's new details are the first turn's detail followed by the rest. */
  lemma SpreadFirstTurn(acc: Acc, pending: seq<Activity>, remaining: real)
    requires pending != [] && remaining > 0.0
    ensures var next := SpreadOne(acc, pending[0], remaining);
      var r := Spread(next, pending[1..], remaining - Min(remaining, SpreadStep)).0;
      && Spread(acc, pending, remaining).0 == r
      && |next.details| <= |r.details|
      && r.details[|acc.details|..] == [SpreadDetail(pending[0], remaining, 0)] + r.details[|next.details|..]
  {
    var next := SpreadOne(acc, pending[0], remaining);
    var r := Spread(next, pending[1..], remaining - Min(remaining, SpreadStep)).0;
    SpreadKeepsPrefix(next, pending[1..], remaining - Min(remaining, SpreadStep));
    assert r.details[|acc.details|] == next.details[|acc.details|];
  }

  /** With at most 60 hectares to place, the deficit loop makes exactly one turn. */
  lemma SpreadLastTurn(acc: Acc, pending: seq<Activity>, remaining: real)
    requires pending != [] && 0.0 < remaining <= SpreadStep
    ensures Spread(acc, pending, remaining).0 == SpreadOne(acc, pending[0], remaining)
    ensures VisitsInOrder([SpreadDetail(pending[0], remaining, 0)], pending, remaining)
  {
  }

  /** The deficit loop appends exactly the details `VisitsInOrder` describes. */
  lemma {:induction false} SpreadVisitsInOrder(acc: Acc, pending: seq<Activity>, remaining: real)
    requires remaining >= 0.0
    ensures var r := Spread(acc, pending, remaining).0;
      && |acc.details| <= |r.details|
      && r.details[..|acc.details|] == acc.details
      && VisitsInOrder(r.details[|acc.details|..], pending, remaining)
    decreases |pending|
  {
    SpreadKeepsPrefix(acc, pending, remaining);
    var r := Spread(acc, pending, remaining).0;
    if pending != [] && remaining > 0.0 {
      var next := SpreadOne(acc, pending[0], remaining);
      SpreadFirstTurn(acc, pending, remaining);
      var tail := r.details[|next.details|..];
      if remaining > SpreadStep {
        SpreadVisitsInOrder(next, pending[1..], remaining - SpreadStep);
        VisitsInOrderCons(tail, pending, remaining);
      } else {
        SpreadLastTurn(acc, pending, remaining);
        assert tail == [];
      }
    } else {
      assert r.details[|acc.details|..] == [];
    }
  }

  /** The hectares a decision adds to the schedule, as its details report them. */
  function NetChange(d: Decision): real {
    match d
    case BufferItselfDeficit(deficit) => deficit
    case BufferItselfExcess => 0.0
    case Absorb(_, current, after) => after - current
    case CapAndOverflow(_, current, overflow) => BufferCap - current + overflow
    case DeleteExact(_, current) => -current
    case DeleteWithDeficit(_, current, remaining) => remaining - current
    case NoBufferExcess(excess) => excess
    case NoBufferDeficit(deficit) => deficit
  }

  /**
   * Carries out decision `d` for the completed activity `a` of block `block`:
   * the writes, the details and the count of the matching branch of the handler.
   */
  function Apply(acc: Acc, a: Activity, block: nat, d: Decision, pending: seq<Activity>, fault: ShiftFault): (r: Acc)
    requires d.NoBufferDeficit? ==> d.deficit >= 0.0
  {
    match d
    case BufferItselfDeficit(deficit) =>
      ShiftAndCreate(acc, a, NextWorkday(a.scheduled), BufferDeficitName(block, ExtractDayNumber(a.name)), deficit, fault)
    case BufferItselfExcess =>
      acc
    case Absorb(b, current, after) =>
      AbsorbBranch(acc, b, current, after)
    case CapAndOverflow(b, current, overflow) =>
      CapBranch(acc, a, b, current, overflow, fault)
    case DeleteExact(b, current) =>
      DeleteExactBranch(acc, b, current)
    case DeleteWithDeficit(b, current, remaining) =>
      DeleteBranch(acc, a, b, current, remaining, fault)
    case NoBufferExcess(excess) =>
      ShiftAndCreate(acc, a, NextWorkday(a.scheduled), a.name + SurplusSuffix, excess, fault)
    case NoBufferDeficit(deficit) =>
      SpreadBranch(acc, a, pending, deficit, fault)
  }

  /** The buffer takes the difference: its row is replanned to `after`, every other row stays. */
  function AbsorbBranch(acc: Acc, b: Activity, current: real, after: real): (r: Acc)
    ensures Ledger(r.details) == Ledger(acc.details) + (after - current)
    ensures ReplannedIn(r.store.rows, acc.store.rows, b.id, after) && r.store.nextId == acc.store.nextId
    ensures r.count == acc.count + 1
  {
    var updated := Updated(b.id, current, after);
    assert Delta(updated) == after - current;
    Record(acc, Update(acc.store, b.id, Replan(after)), updated, true)
  }

  /** The buffer reaches exactly zero: its row is deleted, every other row stays. */
  function DeleteExactBranch(acc: Acc, b: Activity, current: real): (r: Acc)
    ensures Ledger(r.details) == Ledger(acc.details) - current
    ensures forall x :: x in r.store.rows <==> x in acc.store.rows && x.id != b.id
    ensures r.store.nextId == acc.store.nextId && r.count == acc.count + 1
  {
    var deleted := Deleted(b.id, current);
    assert Delta(deleted) == -current;
    Record(acc, Delete(acc.store, b.id), deleted, true)
  }

  /**
   * The buffer is capped at 70 ha and the overflow becomes a new activity on
   * the workday after it; the calendar shift moves dates only.
   */
  function CapBranch(acc: Acc, a: Activity, b: Activity, current: real, overflow: real, fault: ShiftFault): (r: Acc)
    ensures Ledger(r.details) == Ledger(acc.details) + (BufferCap - current) + overflow
    ensures |r.store.rows| == |acc.store.rows| + 1 && r.store.nextId == acc.store.nextId + 1
    ensures forall i :: 0 <= i < |acc.store.rows| ==>
      SameButDate(r.store.rows[i], if acc.store.rows[i].id == b.id then Replanned(acc.store.rows[i], BufferCap) else acc.store.rows[i])
    ensures IsCreated(r.store.rows[|acc.store.rows|], acc.store.nextId, a, NextWorkday(b.scheduled), a.name + OverflowSuffix, overflow)
  {
    var capped := Warning(Some(b.id), Some((current, BufferCap)));
    assert Delta(capped) == BufferCap - current;
    var next := Record(acc, Update(acc.store, b.id, Replan(BufferCap)), capped, false);
    var r := ShiftAndCreate(next, a, NextWorkday(b.scheduled), a.name + OverflowSuffix, overflow, fault);
    assert forall i :: 0 <= i < |acc.store.rows| ==> r.store.rows[i] == r.store.rows[..|acc.store.rows|][i];
    r
  }

  /**
   * The buffer is deleted and what it could not absorb becomes a new activity
   * on the workday after it; the calendar shift moves dates only.
   */
  function DeleteBranch(acc: Acc, a: Activity, b: Activity, current: real, remaining: real, fault: ShiftFault): (r: Acc)
    ensures Ledger(r.details) == Ledger(acc.details) - current + remaining
    ensures var kept := DeleteRows(acc.store.rows, b.id);
      && |r.store.rows| == |kept| + 1 && r.store.nextId == acc.store.nextId + 1
      && DatesOnly(r.store.rows[..|kept|], kept)
      && IsCreated(r.store.rows[|kept|], acc.store.nextId, a, NextWorkday(b.scheduled), a.name + RemainingDeficitSuffix, remaining)
  {
    var deleted := Deleted(b.id, current);
    assert Delta(deleted) == -current;
    var next := Record(acc, Delete(acc.store, b.id), deleted, false);
    ShiftAndCreate(next, a, NextWorkday(b.scheduled), a.name + RemainingDeficitSuffix, remaining, fault)
  }

  /**
   * The deficit is spread over the pending activities; any rest becomes a
   * new activity on the workday after the completed one, after a calendar
   * shift that moves dates only.
   */
  function SpreadBranch(acc: Acc, a: Activity, pending: seq<Activity>, deficit: real, fault: ShiftFault): (r: Acc)
    requires deficit >= 0.0
    ensures Ledger(r.details) == Ledger(acc.details) + deficit
    ensures var (spread, left) := Spread(acc, pending, deficit);
      && (left <= 0.0 ==> r == spread)
      && (left > 0.0 ==>
            && |r.store.rows| == |acc.store.rows| + 1 && r.store.nextId == acc.store.nextId + 1
            && DatesOnly(r.store.rows[..|acc.store.rows|], spread.store.rows)
            && IsCreated(r.store.rows[|acc.store.rows|], acc.store.nextId, a, NextWorkday(a.scheduled), a.name + SpreadDeficitSuffix, left))
  {
    var (spread, left) := Spread(acc, pending, deficit);
    SpreadLedger(acc, pending, deficit);
    if left > 0.0 then
      SpreadKeepsShape(acc, pending, deficit);
      ShiftAndCreate(spread, a, NextWorkday(a.scheduled), a.name + SpreadDeficitSuffix, left, fault)
    else
      spread
  }

  /** The details `Apply` appends add up to the decision's net change. */
  lemma ApplyLedger(acc: Acc, a: Activity, block: nat, d: Decision, pending: seq<Activity>, fault: ShiftFault)
    requires d.NoBufferDeficit? ==> d.deficit >= 0.0
    ensures Ledger(Apply(acc, a, block, d, pending, fault).details) == Ledger(acc.details) + NetChange(d)
  {
    match d
    case BufferItselfDeficit(_) =>
    case BufferItselfExcess =>
    case Absorb(_, _, _) =>
    case CapAndOverflow(_, _, _) =>
    case DeleteExact(_, _) =>
    case DeleteWithDeficit(_, _, _) =>
    case NoBufferExcess(_) =>
    case NoBufferDeficit(_) =>
  }

  /**
   * The hectares the details of `d` report that the store does not hold:
   * the buffer's assumed 15 ha when its area is unset, and the assumed 60 ha
   * of every pending activity without an area that the deficit loop reaches.
   */
  function AssumedArea(d: Decision, pending: seq<Activity>): real {
    if UsesBuffer(d) then d.current - StoredPlanned(d.buffer)
    else if d.NoBufferDeficit? then SumOf(pending[..Reached(pending, d.deficit)], SpreadUnstored)
    else 0.0
  }

  /** Every activity whose area the details of `d` read has one set. */
  predicate TouchedHaveArea(d: Decision, pending: seq<Activity>) {
    && (UsesBuffer(d) ==> HasArea(d.buffer))
    && (d.NoBufferDeficit? ==> forall k :: 0 <= k < Reached(pending, d.deficit) ==> HasArea(pending[k]))
  }

  /**
   * The stored planned total after `Apply` (unset areas counting as zero):
   * it moves by the decision's net change plus the areas the details assume
   * but the store does not hold. Needs the buffer, and the pending
   * activities of a deficit, to be rows of a store with distinct identifiers.
   */
  lemma ApplyStoredBalance(acc: Acc, a: Activity, block: nat, d: Decision, pending: seq<Activity>, fault: ShiftFault)
    requires DistinctIds(acc.store.rows)
    requires UsesBuffer(d) ==> d.buffer in acc.store.rows && d.current == PlannedOr(d.buffer, DefaultBuffer)
    requires d.NoBufferDeficit? ==>
      && d.deficit >= 0.0 && DistinctIds(pending)
      && forall p :: p in pending ==> p in acc.store.rows
    ensures SumOf(Apply(acc, a, block, d, pending, fault).store.rows, StoredPlanned)
         == SumOf(acc.store.rows, StoredPlanned) + NetChange(d) + AssumedArea(d, pending)
  {
    if UsesBuffer(d) {
      BufferStoredBalance(acc, a, block, d, pending, fault);
    } else if d.NoBufferDeficit? {
      SpreadStoredBalance(acc, pending, d.deficit);
    }
  }

  /** `ApplyStoredBalance` for the four branches that write the buffer day. */
  lemma BufferStoredBalance(acc: Acc, a: Activity, block: nat, d: Decision, pending: seq<Activity>, fault: ShiftFault)
    requires DistinctIds(acc.store.rows) && UsesBuffer(d)
    requires d.buffer in acc.store.rows && d.current == PlannedOr(d.buffer, DefaultBuffer)
    ensures SumOf(Apply(acc, a, block, d, pending, fault).store.rows, StoredPlanned)
         == SumOf(acc.store.rows, StoredPlanned) + NetChange(d) + d.current - StoredPlanned(d.buffer)
  {
    match d
    case Absorb(b, current, after) =>
      ReplanSum(acc.store.rows, b, after);
    case CapAndOverflow(b, current, overflow) =>
      ReplanSum(acc.store.rows, b, BufferCap);
    case DeleteExact(b, current) =>
      DeleteSum(acc.store.rows, b);
    case DeleteWithDeficit(b, current, remaining) =>
      DeleteSum(acc.store.rows, b);
  }

  /**
   * The stored planned total agrees with the reported net change exactly
   * when every area the details read is set; otherwise the store holds less.
   */
  lemma AssumedAreaVanishes(d: Decision, pending: seq<Activity>)
    requires UsesBuffer(d) ==> d.current == PlannedOr(d.buffer, DefaultBuffer)
    ensures AssumedArea(d, pending) >= 0.0
    ensures AssumedArea(d, pending) == 0.0 <==> TouchedHaveArea(d, pending)
  {
    if d.NoBufferDeficit? {
      var m := Reached(pending, d.deficit);
      SpreadUnstoredSum(pending[..m]);
      assert forall k :: 0 <= k < m ==> pending[..m][k] == pending[k];
    }
  }

  /** Writes `store`, appends detail `d` and, when `counted`, counts one more activity. */
  function Record(acc: Acc, store: Store, d: Detail, counted: bool): (r: Acc)
    ensures r.store == store && r.details == acc.details + [d]
    ensures r.count == acc.count + (if counted then 1 else 0)
    ensures Ledger(r.details) == Ledger(acc.details) + Delta(d)
  {
    LedgerAppend(acc.details, [d]);
    assert Ledger([d]) == Delta(d) by { assert [d][..0] == []; }
    Acc(store, acc.details + [d], if counted then acc.count + 1 else acc.count)
  }

  /** The branches after which the reported changes add up to minus the difference. */
  predicate Conserving(d: Decision) {
    !(d.DeleteWithDeficit? || d.NoBufferExcess? || d.BufferItselfExcess?)
  }

  /**
   * Conservation of hectares. Outside the tolerance, the hectares a decision
   * adds to the schedule are exactly minus the difference (an excess removes
   * planned work, a deficit adds it) if and only if the branch is a
   * conserving one. The other three branches add `diff - 2 * current`
   * (the buffer is deleted AND a new activity of the excess beyond it is
   * created), `+diff` (an excess becomes a new activity) and nothing.
   */
  lemma DecisionConservation(a: Activity, diff: real, pending: seq<Activity>)
    requires diff < -Tolerance || diff > Tolerance
    ensures NetChange(Decide(a, diff, pending)) == -diff <==> Conserving(Decide(a, diff, pending))
    ensures Decide(a, diff, pending).DeleteWithDeficit? ==>
      NetChange(Decide(a, diff, pending)) == diff - 2.0 * Decide(a, diff, pending).current
    ensures Decide(a, diff, pending).NoBufferExcess? ==> NetChange(Decide(a, diff, pending)) == diff
    ensures Decide(a, diff, pending).BufferItselfExcess? ==> NetChange(Decide(a, diff, pending)) == 0.0
  {
  }

  // ---------------------------------------------------------------- the request

  /**
   * The redistribution step, after the completed activity `a` (as read before
   * the write) of block `block` and cycle `cycle` has been written into `s`:
   * nothing when the difference is within the tolerance; when the pending
   * activities cannot be fetched, one `warning` and nothing else; otherwise
   * the policy's decision for the pending activities, applied.
   */
  function Redistribute(s: Store, a: Activity, block: nat, cycle: Cycle, diff: real, faults: Faults): (r: Acc)
    requires 1 <= cycle.number <= 4
  {
    if Abs(diff) <= Tolerance then
      Acc(s, [], 0)
    else if faults.pendingFetch then
      Acc(s, [Warning(None, None)], 0)
    else
      var pending := Query(s.rows, PendingFilter(block, cycle, a));
      Apply(Acc(s, [], 0), a, block, Decide(a, diff, pending), pending, faults.shift)
  }

  /** The `block_info` of the response. */
  datatype BlockInfo = BlockInfo(block: nat, planned: real, completed: real, pending: real)

  /** `name ILIKE '%Bloque N%'`: every activity whose name mentions the block, in any case. */
  function BlockFilter(block: nat): Filter {
    Filter(Some("Bloque " + DecimalText(block)), None, None, None, None, None)
  }

  /**
   * `getBlockStats(block)`: stored planned and completed areas summed over
   * the activities of the block (unset counting as 0), pending being their
   * difference. When the store throws, the handler reports the completed
   * activity's own planned and completed areas and 0 pending.
   */
  function BlockStats(s: Store, block: nat, fails: bool, planned: real, completed: real): (r: BlockInfo)
    ensures r.block == block
    ensures fails ==> r == BlockInfo(block, planned, completed, 0.0)
    ensures !fails ==> r.pending == r.planned - r.completed
    ensures !fails ==> r.planned == SumOf(Select(s.rows, BlockFilter(block)), StoredPlanned)
    ensures !fails ==> r.completed == SumOf(Select(s.rows, BlockFilter(block)), StoredCompleted)
  {
    if fails then
      BlockInfo(block, planned, completed, 0.0)
    else
      var acts := Select(s.rows, BlockFilter(block));
      var p := SumOf(acts, StoredPlanned);
      var c := SumOf(acts, StoredCompleted);
      BlockInfo(block, p, c, p - c)
  }

  /** The body of a successful response. */
  datatype Outcome = Outcome(
    activityId: ActivityId,
    completed: real,
    planned: real,
    diff: real,
    redistributed: nat,
    details: seq<Detail>,
    block: BlockInfo,
    cycle: Cycle)

  /** The store after the request and the response body. */
  datatype Response = Response(store: Store, body: Result<Outcome, Error>)

  /** The write that marks the activity completed with `h` hectares. */
  function CompletionPatch(h: real): Patch {
    Patch(Some(Completed), Some(h), None, None, None)
  }

  /** The block of a name, when it has one the handler accepts (`!blockNumber` rejects 0). */
  function AcceptedBlock(name: string): Option<nat> {
    var b := ExtractBlockNumber(name);
    if b.Some? && b.value != 0 then b else None
  }

  /**
   * `POST /api/activities/complete-with-hectares`. The checks run in the
   * handler's order: the identifier, the hectares, the lookup, the block and
   * cycle, and only then the `completada` write. Every rejection, and a
   * failing write, leaves the store as it was.
   */
  function Complete(s: Store, req: Request, faults: Faults): (r: Response)
    ensures r.body.Failure? ==> r.store == s
    ensures req.activityId.None? ==> r.body == Failure(MissingActivityId)
    ensures req.activityId.Some? && (req.completed.None? || req.completed.value <= 0.0) ==>
      r.body == Failure(InvalidHectares)
    ensures req.activityId.Some? && req.completed.Some? && req.completed.value > 0.0 ==> (
      && (Get(s.rows, req.activityId.value).None? ==> r.body == Failure(NotFound))
      && (Get(s.rows, req.activityId.value).Some? ==>
            (AcceptedBlock(Get(s.rows, req.activityId.value).value.name).None? <==>
             r.body == Failure(UnknownBlockOrCycle))))
    ensures r.body == Failure(PrimaryWriteFailed) ==> faults.primaryWrite
    ensures r.body.Success? ==> (
      && req.activityId == Some(r.body.value.activityId)
      && req.completed == Some(r.body.value.completed)
      && r.body.value.completed > 0.0
      && r.body.value.diff == r.body.value.completed - r.body.value.planned
      && !faults.primaryWrite)
    ensures r.body.Success? ==> HoldsCompleted(r.store.rows, r.body.value.activityId, r.body.value.completed)
    ensures r.body.Success? ==>
      && Get(s.rows, r.body.value.activityId).Some?
      && r.body.value.planned == PlannedOr(Get(s.rows, r.body.value.activityId).value, DefaultPlanned)
      && AcceptedBlock(Get(s.rows, r.body.value.activityId).value.name) == Some(r.body.value.block.block)
      && CycleFromDate(Some(Get(s.rows, r.body.value.activityId).value.scheduled)) == Some(r.body.value.cycle)
      && r.body.value.block ==
           BlockStats(r.store, r.body.value.block.block, faults.blockStats, r.body.value.planned, r.body.value.completed)
    ensures && req.activityId.Some? && req.completed.Some? && req.completed.value > 0.0
            && Get(s.rows, req.activityId.value).Some?
            && AcceptedBlock(Get(s.rows, req.activityId.value).value.name).Some?
            && !faults.primaryWrite
            ==> r.body.Success?
  {
    if req.activityId.None? then
      Response(s, Failure(MissingActivityId))
    else if req.completed.None? || req.completed.value <= 0.0 then
      Response(s, Failure(InvalidHectares))
    else
      var id := req.activityId.value;
      var h := req.completed.value;
      match Get(s.rows, id)
      case None => Response(s, Failure(NotFound))
      case Some(a) =>
        var block := AcceptedBlock(a.name);
        var cycle := CycleFromDate(Some(a.scheduled));
        if block.None? || cycle.None? then
          Response(s, Failure(UnknownBlockOrCycle))
        else if faults.primaryWrite then
          Response(s, Failure(PrimaryWriteFailed))
        else
          var planned := PlannedOr(a, DefaultPlanned);
          var diff := h - planned;
          var written := Update(s, a.id, CompletionPatch(h));
          WriteRecordsCompletion(s, a, h);
          var acc := Redistribute(written, a, block.value, cycle.value, diff, faults);
          RedistributeKeepsCompleted(written, a, block.value, cycle.value, diff, faults, h);
          var info := BlockStats(acc.store, block.value, faults.blockStats, planned, h);
          Response(acc.store, Success(Outcome(a.id, h, planned, diff, acc.count, acc.details, info, cycle.value)))
  }

  // ---------------------------------------------------------------- properties of the request

  /**
   * Conservation of hectares over a whole redistribution: outside the
   * tolerance, and with the pending activities fetched, the details add up
   * to the decision's net change, which is minus the difference exactly for
   * the conserving branches.
   */
  lemma RedistributionLedger(s: Store, a: Activity, block: nat, cycle: Cycle, diff: real, faults: Faults)
    requires 1 <= cycle.number <= 4
    requires Abs(diff) > Tolerance && !faults.pendingFetch
    ensures var d := Decide(a, diff, Query(s.rows, PendingFilter(block, cycle, a)));
      && Ledger(Redistribute(s, a, block, cycle, diff, faults).details) == NetChange(d)
      && (Ledger(Redistribute(s, a, block, cycle, diff, faults).details) == -diff <==> Conserving(d))
  {
    var pending := Query(s.rows, PendingFilter(block, cycle, a));
    var d := Decide(a, diff, pending);
    ApplyLedger(Acc(s, [], 0), a, block, d, pending, faults.shift);
    DecisionConservation(a, diff, pending);
  }

  /**
   * The stored planned total over a whole redistribution, outside the
   * tolerance and with the pending activities fetched: it moves by the net
   * change the details report plus the areas they assume, and agrees with
   * the details exactly when every area they read is set.
   */
  lemma RedistributeStoredBalance(s: Store, a: Activity, block: nat, cycle: Cycle, diff: real, faults: Faults)
    requires 1 <= cycle.number <= 4
    requires DistinctIds(s.rows) && Abs(diff) > Tolerance && !faults.pendingFetch
    ensures var pending := Query(s.rows, PendingFilter(block, cycle, a));
      var d := Decide(a, diff, pending);
      var r := Redistribute(s, a, block, cycle, diff, faults);
      && SumOf(r.store.rows, StoredPlanned) == SumOf(s.rows, StoredPlanned) + Ledger(r.details) + AssumedArea(d, pending)
      && (SumOf(r.store.rows, StoredPlanned) == SumOf(s.rows, StoredPlanned) + Ledger(r.details) <==> TouchedHaveArea(d, pending))
  {
    var pending := Query(s.rows, PendingFilter(block, cycle, a));
    var d := Decide(a, diff, pending);
    QueryKeepsDistinctIds(s.rows, PendingFilter(block, cycle, a));
    ApplyStoredBalance(Acc(s, [], 0), a, block, d, pending, faults.shift);
    ApplyLedger(Acc(s, [], 0), a, block, d, pending, faults.shift);
    AssumedAreaVanishes(d, pending);
  }

  /** The completion write changes no planned area, so the stored planned total stays as it was. */
  lemma CompletionWriteKeepsPlanned(s: Store, id: ActivityId, h: real)
    ensures SumOf(Update(s, id, CompletionPatch(h)).rows, StoredPlanned) == SumOf(s.rows, StoredPlanned)
  {
    SumOfSameTerms(Update(s, id, CompletionPatch(h)).rows, s.rows, StoredPlanned);
  }

  /** A successful request is the completion write followed by the redistribution step. */
  lemma CompleteSucceeds(s: Store, req: Request, faults: Faults)
    requires Complete(s, req, faults).body.Success?
    ensures var r := Complete(s, req, faults);
      var o := r.body.value;
      var a := Get(s.rows, o.activityId).value;
      var written := Update(s, a.id, CompletionPatch(o.completed));
      && Get(s.rows, o.activityId).Some? && 1 <= o.cycle.number <= 4
      && AcceptedBlock(a.name) == Some(o.block.block) && CycleFromDate(Some(a.scheduled)) == Some(o.cycle)
      && r.store == Redistribute(written, a, o.block.block, o.cycle, o.diff, faults).store
      && o.details == Redistribute(written, a, o.block.block, o.cycle, o.diff, faults).details
      && o.redistributed == Redistribute(written, a, o.block.block, o.cycle, o.diff, faults).count
  {
    CompleteAccepts(s, req, faults, Get(s.rows, Complete(s, req, faults).body.value.activityId).value);
  }

  /**
   * A request whose checks pass for the stored activity `a` succeeds: the
   * planned area is the stored one (60 when unset), and the store, details
   * and count are those of redistributing the difference over `a`'s own
   * block and cycle once the completion is written.
   */
  lemma CompleteAccepts(s: Store, req: Request, faults: Faults, a: Activity)
    requires req.activityId.Some? && req.completed.Some? && req.completed.value > 0.0
    requires Get(s.rows, req.activityId.value) == Some(a)
    requires AcceptedBlock(a.name).Some? && !faults.primaryWrite
    ensures CycleFromDate(Some(a.scheduled)).Some?
    ensures var h := req.completed.value;
      var r := Complete(s, req, faults);
      var acc := Redistribute(Update(s, a.id, CompletionPatch(h)), a, AcceptedBlock(a.name).value,
        CycleFromDate(Some(a.scheduled)).value, h - PlannedOr(a, DefaultPlanned), faults);
      && r.body.Success? && r.body.value.planned == PlannedOr(a, DefaultPlanned)
      && r.store == acc.store && r.body.value.details == acc.details && r.body.value.redistributed == acc.count
  {
    var block := AcceptedBlock(a.name).value;
    assert CycleFromDate(Some(a.scheduled)).Some?;
    var cycle := CycleFromDate(Some(a.scheduled)).value;
    var h := req.completed.value;
    var planned := PlannedOr(a, DefaultPlanned);
    var acc := Redistribute(Update(s, a.id, CompletionPatch(h)), a, block, cycle, h - planned, faults);
    assert Complete(s, req, faults) == Response(acc.store, Success(Outcome(a.id, h, planned, h - planned, acc.count,
      acc.details, BlockStats(acc.store, block, faults.blockStats, planned, h), cycle)));
  }

  /**
   * Within the tolerance the request only writes the completion: no detail,
   * no redistributed activity.
   */
  lemma WithinToleranceNothingMoves(s: Store, req: Request, faults: Faults)
    requires Complete(s, req, faults).body.Success?
    requires Abs(Complete(s, req, faults).body.value.diff) <= Tolerance
    ensures Complete(s, req, faults).body.value.details == []
    ensures Complete(s, req, faults).body.value.redistributed == 0
    ensures Complete(s, req, faults).store ==
      Update(s, req.activityId.value, CompletionPatch(req.completed.value))
  {
    CompleteSucceeds(s, req, faults);
  }

  /** When the pending activities cannot be fetched the only detail is one warning. */
  lemma PendingFetchFailureOnlyWarns(s: Store, req: Request, faults: Faults)
    requires Complete(s, req, faults).body.Success?
    requires Abs(Complete(s, req, faults).body.value.diff) > Tolerance && faults.pendingFetch
    ensures Complete(s, req, faults).body.value.details == [Warning(None, None)]
    ensures Complete(s, req, faults).body.value.redistributed == 0
    ensures Complete(s, req, faults).store ==
      Update(s, req.activityId.value, CompletionPatch(req.completed.value))
  {
    CompleteSucceeds(s, req, faults);
  }

  /**
   * The hectare balance of a successful request: outside the tolerance, the
   * reported changes add up to minus the difference exactly when the branch
   * taken for the activity's pending block-and-cycle activities conserves.
   */
  lemma CompletionConservesHectares(s: Store, req: Request, faults: Faults)
    requires Complete(s, req, faults).body.Success?
    requires Abs(Complete(s, req, faults).body.value.diff) > Tolerance && !faults.pendingFetch
    ensures var o := Complete(s, req, faults).body.value;
      var a := Get(s.rows, o.activityId).value;
      var written := Update(s, a.id, CompletionPatch(o.completed));
      var d := Decide(a, o.diff, Query(written.rows, PendingFilter(o.block.block, o.cycle, a)));
      && Ledger(o.details) == NetChange(d)
      && (Ledger(o.details) == -o.diff <==> Conserving(d))
  {
    var o := Complete(s, req, faults).body.value;
    var a := Get(s.rows, o.activityId).value;
    var written := Update(s, a.id, CompletionPatch(o.completed));
    RedistributionLedger(written, a, o.block.block, o.cycle, o.diff, faults);
  }

  // ---------------------------------------------------------------- the completed activity stays completed

  /** Some row of `rows` is activity `id`, completed with `h` hectares. */
  predicate HoldsCompleted(rows: seq<Activity>, id: ActivityId, h: real) {
    exists i :: 0 <= i < |rows| && rows[i].id == id && rows[i].status == Completed && rows[i].completed == Some(h)
  }

  /** A patch that leaves the status and the completed area alone. */
  predicate KeepsCompletion(p: Patch) {
    p.status.None? && p.completed.None?
  }

  lemma UpdateKeepsCompleted(rows: seq<Activity>, target: ActivityId, p: Patch, id: ActivityId, h: real)
    requires KeepsCompletion(p) && HoldsCompleted(rows, id, h)
    ensures HoldsCompleted(UpdateRows(rows, target, p), id, h)
  {
    var i :| 0 <= i < |rows| && rows[i].id == id && rows[i].status == Completed && rows[i].completed == Some(h);
    assert UpdateRows(rows, target, p)[i].id == id;
  }

  lemma DeleteKeepsCompleted(rows: seq<Activity>, target: ActivityId, id: ActivityId, h: real)
    requires target != id && HoldsCompleted(rows, id, h)
    ensures HoldsCompleted(DeleteRows(rows, target), id, h)
  {
    var i :| 0 <= i < |rows| && rows[i].id == id && rows[i].status == Completed && rows[i].completed == Some(h);
    var r := DeleteRows(rows, target);
    assert rows[i] in r;
    var j :| 0 <= j < |r| && r[j] == rows[i];
  }

  lemma CreateKeepsCompleted(s: Store, n: NewActivity, id: ActivityId, h: real)
    requires HoldsCompleted(s.rows, id, h)
    ensures HoldsCompleted(Create(s, n).rows, id, h)
  {
    var i :| 0 <= i < |s.rows| && s.rows[i].id == id && s.rows[i].status == Completed && s.rows[i].completed == Some(h);
    assert Create(s, n).rows[i] == s.rows[i];
  }

  lemma {:induction false} MovesKeepCompleted(s: Store, moves: seq<Move>, id: ActivityId, h: real)
    requires HoldsCompleted(s.rows, id, h)
    ensures HoldsCompleted(ApplyMoves(s, moves).rows, id, h)
    decreases |moves|
  {
    if moves != [] {
      UpdateKeepsCompleted(s.rows, moves[0].activity.id, Reschedule(moves[0].to), id, h);
      MovesKeepCompleted(Update(s, moves[0].activity.id, Reschedule(moves[0].to)), moves[1..], id, h);
    }
  }

  lemma ShiftKeepsCompleted(s: Store, insertion: Timestamp, fault: ShiftFault, id: ActivityId, h: real)
    requires HoldsCompleted(s.rows, id, h)
    ensures HoldsCompleted(ShiftCalendarForward(s, insertion, fault).store.rows, id, h)
  {
    var moves := ShiftPlan(s, insertion);
    if fault.WriteFails? && fault.at < |moves| {
      MovesKeepCompleted(s, moves[..fault.at], id, h);
    } else if !fault.FetchFails? {
      MovesKeepCompleted(s, moves, id, h);
    }
  }

  lemma CreatingKeepsCompleted(acc: Acc, a: Activity, insertion: Timestamp, name: string, hectares: real, fault: ShiftFault, h: real)
    requires HoldsCompleted(acc.store.rows, a.id, h)
    ensures HoldsCompleted(ShiftAndCreate(acc, a, insertion, name, hectares, fault).store.rows, a.id, h)
  {
    var sh := ShiftCalendarForward(acc.store, insertion, fault);
    ShiftKeepsCompleted(acc.store, insertion, fault, a.id, h);
    CreateKeepsCompleted(sh.store, NewActivity(name, a.kind, insertion, DurationFor(hectares), a.priority, Scheduled, hectares), a.id, h);
  }

  /** The write of one turn of the deficit loop. */
  lemma SpreadOneWrites(acc: Acc, p: Activity, remaining: real)
    ensures SpreadOne(acc, p, remaining).store
         == Update(acc.store, p.id, Replan(PlannedOr(p, DefaultPlanned) + Min(remaining, SpreadStep)))
  {
  }

  lemma SpreadOneKeepsCompleted(acc: Acc, p: Activity, remaining: real, id: ActivityId, h: real)
    requires HoldsCompleted(acc.store.rows, id, h)
    ensures HoldsCompleted(SpreadOne(acc, p, remaining).store.rows, id, h)
  {
    SpreadOneWrites(acc, p, remaining);
    UpdateKeepsCompleted(acc.store.rows, p.id, Replan(PlannedOr(p, DefaultPlanned) + Min(remaining, SpreadStep)), id, h);
  }

  lemma {:induction false} SpreadKeepsCompleted(acc: Acc, pending: seq<Activity>, remaining: real, id: ActivityId, h: real)
    requires HoldsCompleted(acc.store.rows, id, h)
    ensures HoldsCompleted(Spread(acc, pending, remaining).0.store.rows, id, h)
    decreases |pending|
  {
    if pending != [] && remaining > 0.0 {
      var next := SpreadOne(acc, pending[0], remaining);
      var rest := remaining - Min(remaining, SpreadStep);
      assert HoldsCompleted(next.store.rows, id, h) by {
        SpreadOneKeepsCompleted(acc, pending[0], remaining, id, h);
      }
      SpreadKeepsCompleted(next, pending[1..], rest, id, h);
      assert Spread(acc, pending, remaining) == Spread(next, pending[1..], rest) by {
        SpreadTurn(acc, pending, remaining);
      }
    } else {
      SpreadStops(acc, pending, remaining);
    }
  }

  lemma CapKeepsCompleted(acc: Acc, a: Activity, b: Activity, current: real, overflow: real, fault: ShiftFault, h: real)
    requires b.id != a.id && HoldsCompleted(acc.store.rows, a.id, h)
    ensures HoldsCompleted(CapBranch(acc, a, b, current, overflow, fault).store.rows, a.id, h)
  {
    UpdateKeepsCompleted(acc.store.rows, b.id, Replan(BufferCap), a.id, h);
    var next := Record(acc, Update(acc.store, b.id, Replan(BufferCap)), Warning(Some(b.id), Some((current, BufferCap))), false);
    CreatingKeepsCompleted(next, a, NextWorkday(b.scheduled), a.name + OverflowSuffix, overflow, fault, h);
  }

  lemma DeleteBranchKeepsCompleted(acc: Acc, a: Activity, b: Activity, current: real, remaining: real, fault: ShiftFault, h: real)
    requires b.id != a.id && HoldsCompleted(acc.store.rows, a.id, h)
    ensures HoldsCompleted(DeleteBranch(acc, a, b, current, remaining, fault).store.rows, a.id, h)
  {
    DeleteKeepsCompleted(acc.store.rows, b.id, a.id, h);
    var next := Record(acc, Delete(acc.store, b.id), Deleted(b.id, current), false);
    CreatingKeepsCompleted(next, a, NextWorkday(b.scheduled), a.name + RemainingDeficitSuffix, remaining, fault, h);
  }

  lemma SpreadBranchKeepsCompleted(acc: Acc, a: Activity, pending: seq<Activity>, deficit: real, fault: ShiftFault, h: real)
    requires deficit >= 0.0 && HoldsCompleted(acc.store.rows, a.id, h)
    ensures HoldsCompleted(SpreadBranch(acc, a, pending, deficit, fault).store.rows, a.id, h)
  {
    SpreadKeepsCompleted(acc, pending, deficit, a.id, h);
    var (spread, left) := Spread(acc, pending, deficit);
    if left > 0.0 {
      CreatingKeepsCompleted(spread, a, NextWorkday(a.scheduled), a.name + SpreadDeficitSuffix, left, fault, h);
    }
  }

  /** The branches that write the buffer day leave the completed activity alone when it is not the buffer. */
  lemma BufferBranchesKeepCompleted(acc: Acc, a: Activity, block: nat, d: Decision, pending: seq<Activity>, fault: ShiftFault, h: real)
    requires UsesBuffer(d) && d.buffer.id != a.id
    requires HoldsCompleted(acc.store.rows, a.id, h)
    ensures HoldsCompleted(Apply(acc, a, block, d, pending, fault).store.rows, a.id, h)
  {
    var r := Apply(acc, a, block, d, pending, fault);
    match d
    case Absorb(b, current, after) =>
      assert r == AbsorbBranch(acc, b, current, after);
      UpdateKeepsCompleted(acc.store.rows, b.id, Replan(after), a.id, h);
    case CapAndOverflow(b, current, overflow) =>
      assert r == CapBranch(acc, a, b, current, overflow, fault);
      CapKeepsCompleted(acc, a, b, current, overflow, fault, h);
    case DeleteExact(b, current) =>
      assert r == DeleteExactBranch(acc, b, current);
      DeleteKeepsCompleted(acc.store.rows, b.id, a.id, h);
    case DeleteWithDeficit(b, current, remaining) =>
      assert r == DeleteBranch(acc, a, b, current, remaining, fault);
      DeleteBranchKeepsCompleted(acc, a, b, current, remaining, fault, h);
  }

  /** The branches without a buffer day only create and shift activities, or place the deficit on pending ones. */
  lemma OtherBranchesKeepCompleted(acc: Acc, a: Activity, block: nat, d: Decision, pending: seq<Activity>, fault: ShiftFault, h: real)
    requires !UsesBuffer(d)
    requires d.NoBufferDeficit? ==> d.deficit >= 0.0
    requires HoldsCompleted(acc.store.rows, a.id, h)
    ensures HoldsCompleted(Apply(acc, a, block, d, pending, fault).store.rows, a.id, h)
  {
    var r := Apply(acc, a, block, d, pending, fault);
    match d
    case BufferItselfDeficit(deficit) =>
      var name := BufferDeficitName(block, ExtractDayNumber(a.name));
      assert r == ShiftAndCreate(acc, a, NextWorkday(a.scheduled), name, deficit, fault);
      CreatingKeepsCompleted(acc, a, NextWorkday(a.scheduled), name, deficit, fault, h);
    case BufferItselfExcess =>
      assert r == acc;
    case NoBufferExcess(excess) =>
      assert r == ShiftAndCreate(acc, a, NextWorkday(a.scheduled), a.name + SurplusSuffix, excess, fault);
      CreatingKeepsCompleted(acc, a, NextWorkday(a.scheduled), a.name + SurplusSuffix, excess, fault, h);
    case NoBufferDeficit(deficit) =>
      assert r == SpreadBranch(acc, a, pending, deficit, fault);
      SpreadBranchKeepsCompleted(acc, a, pending, deficit, fault, h);
  }

  /** No branch of the policy touches the completed activity, provided the buffer is another activity. */
  lemma ApplyKeepsCompleted(acc: Acc, a: Activity, block: nat, d: Decision, pending: seq<Activity>, fault: ShiftFault, h: real)
    requires d.NoBufferDeficit? ==> d.deficit >= 0.0
    requires UsesBuffer(d) ==> d.buffer.id != a.id
    requires HoldsCompleted(acc.store.rows, a.id, h)
    ensures HoldsCompleted(Apply(acc, a, block, d, pending, fault).store.rows, a.id, h)
  {
    if UsesBuffer(d) {
      BufferBranchesKeepCompleted(acc, a, block, d, pending, fault, h);
    } else {
      OtherBranchesKeepCompleted(acc, a, block, d, pending, fault, h);
    }
  }

  /** The `completada` write records the completion on the activity's row. */
  lemma WriteRecordsCompletion(s: Store, a: Activity, h: real)
    requires a in s.rows
    ensures HoldsCompleted(Update(s, a.id, CompletionPatch(h)).rows, a.id, h)
  {
    var i :| 0 <= i < |s.rows| && s.rows[i] == a;
    assert Update(s, a.id, CompletionPatch(h)).rows[i].id == a.id;
  }

  lemma RedistributeKeepsCompleted(s: Store, a: Activity, block: nat, cycle: Cycle, diff: real, faults: Faults, h: real)
    requires 1 <= cycle.number <= 4
    requires HoldsCompleted(s.rows, a.id, h)
    ensures HoldsCompleted(Redistribute(s, a, block, cycle, diff, faults).store.rows, a.id, h)
  {
    if Abs(diff) > Tolerance && !faults.pendingFetch {
      var pending := Query(s.rows, PendingFilter(block, cycle, a));
      var d := Decide(a, diff, pending);
      if UsesBuffer(d) {
        assert d.buffer in pending;
        assert Matches(d.buffer, PendingFilter(block, cycle, a));
      }
      ApplyKeepsCompleted(Acc(s, [], 0), a, block, d, pending, faults.shift, h);
    }
  }
}

=== FILE: reorganizer.dfy ===
/**
 * The deferral request (`POST /api/activities/defer`): an activity is moved
 * to a new working day and every scheduled activity of its cycle is laid out
 * again on consecutive working days from an anchor shifted by the same
 * number of working days.
 */
module Reorganizer {
  import opened Base
  import opened Calendar
  import opened Workdays
  import opened Activities
  import opened Cycles

  // ---------------------------------------------------------------- request

  /**
   * A date field of the request body: absent (missing or empty), or given as
   * text, with its parse (`None` when `new Date(text)` is invalid) and whether
   * the text contains a `T`.
   */
  datatype DateField = Absent | Given(parsed: Option<Timestamp>, hasT: bool)

  datatype DeferRequest = DeferRequest(
    activityId: Option<ActivityId>,
    oldDate: DateField,
    newDate: DateField,
    reason: Option<string>)

  /** `!reason`: the reason is missing or the empty string. */
  predicate Blank(reason: Option<string>) {
    reason.None? || reason.value == ""
  }

  /** One of the four required fields is missing (`!activity_id || !old_date || !new_date || !reason`). */
  predicate MissingField(req: DeferRequest) {
    req.activityId.None? || req.oldDate.Absent? || req.newDate.Absent? || Blank(req.reason)
  }

  /** `isValidISODate`: the text parses and contains a `T`. */
  predicate IsValidIsoDate(f: DateField) {
    f.Given? && f.parsed.Some? && f.hasT
  }

  datatype DeferError =
    | MissingFields   // 400
    | InvalidDate     // 400
    | NotWorkingDay   // 400
    | NotFound        // 404
    | UnknownCycle    // 400
    | FetchFailed     // 500
    | EmptyCycle      // 404
    | NotInCycle      // 404
    | LogFailed       // 500

  function DeferStatus(e: DeferError): int {
    match e
    case MissingFields => 400
    case InvalidDate => 400
    case NotWorkingDay => 400
    case NotFound => 404
    case UnknownCycle => 400
    case FetchFailed => 500
    case EmptyCycle => 404
    case NotInCycle => 404
    case LogFailed => 500
  }

  /**
   * The store calls that fail during one request: the cycle query, the
   * `reschedule_events` insert of the deferral itself, and the activity
   * updates at the given positions of the queue.
   */
  datatype DeferFaults = DeferFaults(fetch: bool, log: bool, failingUpdates: set<nat>)

  // ---------------------------------------------------------------- the cycle

  /**
   * The scheduled activities of the cycle, by date: status `programada`, dated
   * from the first of the cycle's first month up to, excluding, the first of
   * the month after its second month.
   */
  function CycleFilter(n: nat, year: int): Filter
    requires 1 <= n <= 4
  {
    var (lo, hi) := DeferRange(n, year);
    Filter(None, Some(lo), None, Some(hi), Some({Scheduled}), None)
  }

  /** The anchor: the first activity's date moved `offset` working days, forward or back. */
  function Anchor(first: Timestamp, offset: int): Timestamp {
    if offset < 0 then StepsBackward(first, -offset) else StepsForward(first, offset)
  }

  lemma {:induction false} StepsForwardMoves(t: Timestamp, k: nat)
    requires k > 0
    ensures IsWorkingDay(StepsForward(t, k).date)
    ensures StepsForward(t, k).time == t.time
    ensures DayNumber(StepsForward(t, k).date) >= DayNumber(t.date) + k
    decreases k
  {
    if k > 1 {
      StepsForwardMoves(NextWorkingDay(t), k - 1);
    }
  }

  lemma {:induction false} StepsBackwardMoves(t: Timestamp, k: nat)
    requires k > 0
    ensures IsWorkingDay(StepsBackward(t, k).date)
    ensures StepsBackward(t, k).time == t.time
    ensures DayNumber(StepsBackward(t, k).date) <= DayNumber(t.date) - k
    decreases k
  {
    if k > 1 {
      StepsBackwardMoves(PreviousWorkingDay(t), k - 1);
    }
  }

  /**
   * The anchor keeps the first activity's time of day; for a non-zero offset
   * it is a working day at least `|offset|` days away in the offset's direction.
   */
  lemma AnchorMoves(first: Timestamp, offset: int)
    ensures Anchor(first, offset).time == first.time
    ensures offset == 0 ==> Anchor(first, offset) == first
    ensures offset > 0 ==> (
      && IsWorkingDay(Anchor(first, offset).date)
      && DayNumber(Anchor(first, offset).date) >= DayNumber(first.date) + offset)
    ensures offset < 0 ==> (
      && IsWorkingDay(Anchor(first, offset).date)
      && DayNumber(Anchor(first, offset).date) <= DayNumber(first.date) + offset)
  {
    if offset > 0 {
      StepsForwardMoves(first, offset);
    } else if offset < 0 {
      StepsBackwardMoves(first, -offset);
    }
  }

  // ---------------------------------------------------------------- reassignment

  /**
   * The new dates of `acts`, in order, from a cursor: each activity takes the
   * first working day at or after the cursor, at its own time of day, and the
   * cursor moves to the next working day after it.
   */
  function Reassign(acts: seq<Activity>, cursor: Timestamp): (r: seq<Timestamp>)
    ensures |r| == |acts|
    ensures forall i :: 0 <= i < |r| ==> r[i].time == acts[i].scheduled.time
    ensures forall i :: 0 <= i < |r| ==> IsWorkingDay(r[i].date)
    ensures |r| > 0 ==> r[0].date == AdvanceToWorkingDay(cursor.date)
    ensures forall i :: 0 <= i < |r| - 1 ==> r[i + 1].date == NextWorkingDay(r[i]).date
    decreases |acts|
  {
    if acts == [] then []
    else
      var day := AdvanceToWorkingDay(cursor.date);
      var rest := Reassign(acts[1..], NextWorkingDay(Timestamp(day, cursor.time)));
      var r := [Timestamp(day, acts[0].scheduled.time)] + rest;
      assert forall i :: 1 <= i < |r| ==> r[i] == rest[i - 1];
      r
  }

  /** No working day lies strictly between `a` and `b`. */
  ghost predicate NoWorkingDayBetween(a: CivilDate, b: CivilDate) {
    forall d: CivilDate :: DayNumber(a) < DayNumber(d) < DayNumber(b) ==> !IsWorkingDay(d)
  }

  /** `getNextWorkingDay` skips no working day. */
  lemma NextWorkingDaySkipsNone(t: Timestamp)
    ensures NoWorkingDayBetween(t.date, NextWorkingDay(t).date)
  {
    forall d: CivilDate | DayNumber(t.date) < DayNumber(d) < DayNumber(NextWorkingDay(t).date)
      ensures !IsWorkingDay(d)
    {
      DayNumberInjective(d, NextDate(t.date));
    }
  }

  /**
   * The assigned days are strictly increasing, one per activity, and
   * consecutive working days: no working day lies strictly between two
   * neighbours.
   */
  lemma ReassignConsecutive(acts: seq<Activity>, cursor: Timestamp)
    ensures var r := Reassign(acts, cursor);
      && (forall i, j :: 0 <= i < j < |r| ==> DayNumber(r[i].date) < DayNumber(r[j].date))
      && (forall i :: 0 <= i < |r| - 1 ==> NoWorkingDayBetween(r[i].date, r[i + 1].date))
  {
    var r := Reassign(acts, cursor);
    forall i, j | 0 <= i < j < |r|
      ensures DayNumber(r[i].date) < DayNumber(r[j].date)
    {
      IncreasingFrom(r, i, j);
    }
    forall i | 0 <= i < |r| - 1
      ensures NoWorkingDayBetween(r[i].date, r[i + 1].date)
    {
      NextWorkingDaySkipsNone(r[i]);
    }
  }

  lemma {:induction false} IncreasingFrom(r: seq<Timestamp>, i: nat, j: nat)
    requires forall k :: 0 <= k < |r| - 1 ==> r[k + 1].date == NextWorkingDay(r[k]).date
    requires i < j < |r|
    ensures DayNumber(r[i].date) < DayNumber(r[j].date)
    decreases j - i
  {
    if j > i + 1 {
      IncreasingFrom(r, i, j - 1);
    }
  }

  /** A queued write: the activity, its old and new date, and whether it is the deferred one. */
  datatype Queued = Queued(id: ActivityId, from: Timestamp, to: Timestamp, deferred: bool)

  /**
   * The queue: the activities whose new timestamp differs from the old one,
   * in order, the target marked as the deferred one.
   */
  function QueueChanges(acts: seq<Activity>, newDates: seq<Timestamp>, target: ActivityId): (q: seq<Queued>)
    requires |newDates| == |acts|
    ensures |q| <= |acts|
    ensures forall x :: x in q <==> exists i :: (
      && 0 <= i < |acts| && newDates[i] != acts[i].scheduled
      && x == Queued(acts[i].id, acts[i].scheduled, newDates[i], acts[i].id == target))
    decreases |acts|
  {
    if acts == [] then []
    else
      var rest := QueueChanges(acts[1..], newDates[1..], target);
      assert forall i :: 1 <= i < |acts| ==> acts[i] == acts[1..][i - 1] && newDates[i] == newDates[1..][i - 1];
      if newDates[0] != acts[0].scheduled then
        [Queued(acts[0].id, acts[0].scheduled, newDates[0], acts[0].id == target)] + rest
      else
        rest
  }

  /**
   * The queue of a deferral by `offset` working days of `target` within the
   * cycle activities `acts`: the changed dates of the layout from the anchor.
   */
  function Queue(acts: seq<Activity>, offset: int, target: ActivityId): seq<Queued> {
    if acts == [] then [] else QueueChanges(acts, Reassign(acts, Anchor(acts[0].scheduled, offset)), target)
  }

  /** No two entries of `q` write the same activity. */
  predicate DistinctQueued(q: seq<Queued>) {
    forall j1, j2 :: 0 <= j1 < j2 < |q| ==> q[j1].id != q[j2].id
  }

  /** Entries of the queue of activities with distinct ids have distinct ids. */
  lemma {:induction false} QueueKeepsDistinctIds(acts: seq<Activity>, newDates: seq<Timestamp>, target: ActivityId)
    requires |newDates| == |acts| && DistinctIds(acts)
    ensures DistinctQueued(QueueChanges(acts, newDates, target))
    decreases |acts|
  {
    if acts != [] {
      var q := QueueChanges(acts, newDates, target);
      var rest := QueueChanges(acts[1..], newDates[1..], target);
      DistinctIdsTail(acts);
      QueueKeepsDistinctIds(acts[1..], newDates[1..], target);
      HeadIdNotInTail(acts);
      forall x | x in rest
        ensures x.id != acts[0].id
      {
        var i :| 0 <= i < |acts[1..]| && x.id == acts[1..][i].id;
        assert acts[1..][i] in acts[1..];
      }
      if newDates[0] != acts[0].scheduled {
        assert q == [Queued(acts[0].id, acts[0].scheduled, newDates[0], acts[0].id == target)] + rest;
        forall j1, j2 | 0 <= j1 < j2 < |q|
          ensures q[j1].id != q[j2].id
        {
          assert q[j2] == rest[j2 - 1] && rest[j2 - 1] in rest;
          if j1 > 0 {
            assert q[j1] == rest[j1 - 1];
          }
        }
      } else {
        assert q == rest;
        forall j1, j2 | 0 <= j1 < j2 < |q|
          ensures q[j1].id != q[j2].id
        {
          assert q[j1] == rest[j1] && q[j2] == rest[j2];
        }
      }
    }
  }

  /** `a` after the write of queued entry `x`: its new date, `aplazada` for the target, `programada` otherwise. */
  function Rescheduled(a: Activity, x: Queued): Activity {
    a.(scheduled := x.to, status := if x.deferred then Deferred else Scheduled)
  }

  /** The write of a queued entry: the new date, `aplazada` for the target and `programada` otherwise. */
  function QueuedPatch(x: Queued): Patch {
    Patch(Some(if x.deferred then Deferred else Scheduled), None, None, None, Some(x.to))
  }

  /** A row of `reschedule_events`: the activity, the old and new dates, and whether it was automatic. */
  datatype Event = Event(activityId: ActivityId, from: Timestamp, to: Timestamp, automatic: bool)

  /** The store, the successful updates so far and the events recorded. */
  datatype Run = Run(store: Store, succeeded: nat, events: seq<Event>)

  /** The queued entries from position `k` on, with ids other than `id`. */
  predicate NotQueuedFrom(q: seq<Queued>, k: nat, id: ActivityId) {
    forall j :: k <= j < |q| ==> q[j].id != id
  }

  /**
   * Execute the queue from position `k`. A failing update is skipped; a
   * successful one counts and, unless it is the target's, records an
   * automatic event.
   */
  function RunUpdates(run: Run, q: seq<Queued>, k: nat, failing: set<nat>): (r: Run)
    requires k <= |q|
    ensures run.succeeded <= r.succeeded <= run.succeeded + (|q| - k)
    ensures (forall j :: k <= j < |q| ==> j !in failing) ==> r.succeeded == run.succeeded + (|q| - k)
    ensures |r.events| - |run.events| <= r.succeeded - run.succeeded
    ensures |r.store.rows| == |run.store.rows|
    ensures forall i :: 0 <= i < |run.store.rows| && NotQueuedFrom(q, k, run.store.rows[i].id) ==>
      r.store.rows[i] == run.store.rows[i]
    decreases |q| - k
  {
    if k == |q| then run
    else if k in failing then RunUpdates(run, q, k + 1, failing)
    else
      var x := q[k];
      var events := if x.deferred then run.events else run.events + [Event(x.id, x.from, x.to, true)];
      RunUpdates(Run(Update(run.store, x.id, QueuedPatch(x)), run.succeeded + 1, events), q, k + 1, failing)
  }

  /**
   * What the queue writes into a row whose id one entry `j` holds alone: the
   * entry's date and status when its update succeeds, nothing when it fails.
   */
  lemma {:induction false} RunUpdatesWrites(run: Run, q: seq<Queued>, k: nat, failing: set<nat>, j: nat, i: nat)
    requires k <= j < |q| && i < |run.store.rows| && run.store.rows[i].id == q[j].id
    requires forall j' :: k <= j' < |q| && j' != j ==> q[j'].id != q[j].id
    ensures RunUpdates(run, q, k, failing).store.rows[i] ==
      if j in failing then run.store.rows[i] else Rescheduled(run.store.rows[i], q[j])
    decreases |q| - k
  {
    var x := q[k];
    var events := if x.deferred then run.events else run.events + [Event(x.id, x.from, x.to, true)];
    var next := Run(Update(run.store, x.id, QueuedPatch(x)), run.succeeded + 1, events);
    if k == j {
      if k !in failing {
        assert next.store.rows[i] == Rescheduled(run.store.rows[i], q[j]);
        assert NotQueuedFrom(q, k + 1, next.store.rows[i].id);
      } else {
        assert NotQueuedFrom(q, k + 1, run.store.rows[i].id);
      }
    } else if k in failing {
      RunUpdatesWrites(run, q, k + 1, failing, j, i);
    } else {
      assert next.store.rows[i] == run.store.rows[i];
      RunUpdatesWrites(next, q, k + 1, failing, j, i);
    }
  }

  // ---------------------------------------------------------------- the request

  /** The body of a successful response. */
  datatype DeferOutcome = DeferOutcome(
    daysShifted: int,
    reorganized: nat,
    queued: nat,
    cycleMonths: (int, int),
    total: nat,
    range: (Timestamp, Timestamp),
    events: seq<Event>)

  datatype DeferResponse = DeferResponse(store: Store, body: Result<DeferOutcome, DeferError>)

  /** The cycle of the old date: only the eight cycle months have one. */
  function OldDateCycle(f: DateField): Option<Cycle>
    requires f.Given?
  {
    if f.parsed.None? then None else CanonicalCycle(f.parsed.value.date.month)
  }

  /** The scheduled activities of the old date's cycle, by date; none when the old date has no cycle. */
  function CycleActivities(s: Store, f: DateField): seq<Activity> {
    if f.Given? && OldDateCycle(f).Some? then
      Query(s.rows, CycleFilter(OldDateCycle(f).value.number, f.parsed.value.date.year))
    else []
  }

  /**
   * `POST /api/activities/defer`. The checks run in the handler's order and
   * every rejection leaves the store as it was; on success the count of
   * reorganized activities is at most the number queued, which is at most
   * the size of the cycle.
   */
  function Defer(s: Store, req: DeferRequest, faults: DeferFaults): (r: DeferResponse)
    ensures r.body.Failure? ==> r.store == s
    ensures MissingField(req) <==> r.body == Failure(MissingFields)
    ensures r.body.Success? ==> (
      && IsValidIsoDate(req.newDate)
      && IsWorkingDay(req.newDate.parsed.value.date)
      && Get(s.rows, req.activityId.value).Some?
      && OldDateCycle(req.oldDate).Some?
      && !faults.fetch && !faults.log
      && 0 < r.body.value.total
      && r.body.value.reorganized <= r.body.value.queued <= r.body.value.total
      && r.body.value.daysShifted ==
           WorkingDaysDifference(req.oldDate.parsed.value, req.newDate.parsed.value))
    ensures !MissingField(req) ==> (
      && (!IsValidIsoDate(req.newDate) ==> r.body == Failure(InvalidDate))
      && (IsValidIsoDate(req.newDate) && !IsWorkingDay(req.newDate.parsed.value.date) ==>
            r.body == Failure(NotWorkingDay)))
  {
    if MissingField(req) then
      DeferResponse(s, Failure(MissingFields))
    else if !IsValidIsoDate(req.newDate) then
      DeferResponse(s, Failure(InvalidDate))
    else
      var newDate := req.newDate.parsed.value;
      var id := req.activityId.value;
      if !IsWorkingDay(newDate.date) then
        DeferResponse(s, Failure(NotWorkingDay))
      else if Get(s.rows, id).None? then
        DeferResponse(s, Failure(NotFound))
      else
        match OldDateCycle(req.oldDate)
        case None => DeferResponse(s, Failure(UnknownCycle))
        case Some(cycle) =>
          var oldDate := req.oldDate.parsed.value;
          var offset := WorkingDaysDifference(oldDate, newDate);
          if faults.fetch then
            DeferResponse(s, Failure(FetchFailed))
          else
            var acts := CycleActivities(s, req.oldDate);
            if acts == [] then
              DeferResponse(s, Failure(EmptyCycle))
            else if forall i :: 0 <= i < |acts| ==> acts[i].id != id then
              DeferResponse(s, Failure(NotInCycle))
            else
              var q := Queue(acts, offset, id);
              if faults.log then
                DeferResponse(s, Failure(LogFailed))
              else
                var main := Event(id, oldDate, newDate, false);
                var run := RunUpdates(Run(s, 0, [main]), q, 0, faults.failingUpdates);
                DeferResponse(run.store, Success(DeferOutcome(
                  offset, run.succeeded, |q|, CycleMonths(cycle.number), |acts|,
                  DeferRange(cycle.number, oldDate.date.year), run.events)))
  }

  /**
   * The rejections after the date checks, in the handler's order: the
   * activity must exist, the old date must fall in a cycle month, the cycle
   * query must succeed and return the activity, and the deferral's own event
   * must be recorded.
   */
  lemma DeferRejects(s: Store, req: DeferRequest, faults: DeferFaults)
    requires !MissingField(req) && IsValidIsoDate(req.newDate)
    requires IsWorkingDay(req.newDate.parsed.value.date)
    ensures Get(s.rows, req.activityId.value).None? ==> Defer(s, req, faults).body == Failure(NotFound)
    ensures Get(s.rows, req.activityId.value).Some? ==> (
      && (OldDateCycle(req.oldDate).None? ==> Defer(s, req, faults).body == Failure(UnknownCycle))
      && (OldDateCycle(req.oldDate).Some? ==> (
        && (faults.fetch ==> Defer(s, req, faults).body == Failure(FetchFailed))
        && (!faults.fetch && CycleActivities(s, req.oldDate) == [] ==>
              Defer(s, req, faults).body == Failure(EmptyCycle))
        && (!faults.fetch && CycleActivities(s, req.oldDate) != [] &&
            (forall a :: a in CycleActivities(s, req.oldDate) ==> a.id != req.activityId.value) ==>
              Defer(s, req, faults).body == Failure(NotInCycle))
        && (faults.log && !faults.fetch &&
            (exists a :: a in CycleActivities(s, req.oldDate) && a.id == req.activityId.value) ==>
              Defer(s, req, faults).body == Failure(LogFailed)))))
  {
    var acts := CycleActivities(s, req.oldDate);
    assert (forall a :: a in acts ==> a.id != req.activityId.value) <==>
      (forall i :: 0 <= i < |acts| ==> acts[i].id != req.activityId.value);
  }

  /**
   * A successful deferral queues exactly the cycle activities whose new
   * timestamp differs from the old one, and when no update fails every queued
   * write counts as reorganized.
   */
  lemma DeferQueuesChangedDates(s: Store, req: DeferRequest, faults: DeferFaults)
    requires Defer(s, req, faults).body.Success?
    ensures var o := Defer(s, req, faults).body.value;
      var acts := CycleActivities(s, req.oldDate);
      && acts != []
      && o.total == |acts|
      && o.queued == |Queue(acts, o.daysShifted, req.activityId.value)|
      && (faults.failingUpdates == {} ==> o.reorganized == o.queued)
  {
  }

  /**
   * A successful deferral writes only activities of the cycle: a row whose id
   * no cycle activity has is left exactly as it was.
   */
  lemma DeferTouchesOnlyTheCycle(s: Store, req: DeferRequest, faults: DeferFaults, i: nat)
    requires Defer(s, req, faults).body.Success?
    requires i < |s.rows|
    requires forall a :: a in CycleActivities(s, req.oldDate) ==> a.id != s.rows[i].id
    ensures i < |Defer(s, req, faults).store.rows| && Defer(s, req, faults).store.rows[i] == s.rows[i]
  {
    DeferSucceeds(s, req, faults);
    var acts := CycleActivities(s, req.oldDate);
    var q := Queue(acts, Defer(s, req, faults).body.value.daysShifted, req.activityId.value);
    forall j | 0 <= j < |q|
      ensures q[j].id != s.rows[i].id
    {
      assert q[j] in q;
    }
  }

  /**
   * What a successful deferral writes: the row of the `j`-th queued entry
   * gets its new date, with status `aplazada` for the deferred activity and
   * `programada` for the others, unless that update fails, in which case the
   * row stays as it was.
   */
  lemma DeferWritesQueue(s: Store, req: DeferRequest, faults: DeferFaults, j: nat, i: nat)
    requires s.Valid() && Defer(s, req, faults).body.Success?
    requires var q := Queue(CycleActivities(s, req.oldDate), Defer(s, req, faults).body.value.daysShifted, req.activityId.value);
      j < |q| && i < |s.rows| && s.rows[i].id == q[j].id
    ensures var q := Queue(CycleActivities(s, req.oldDate), Defer(s, req, faults).body.value.daysShifted, req.activityId.value);
      && i < |Defer(s, req, faults).store.rows|
      && Defer(s, req, faults).store.rows[i] ==
           (if j in faults.failingUpdates then s.rows[i] else Rescheduled(s.rows[i], q[j]))
      && (q[j].deferred <==> q[j].id == req.activityId.value)
  {
    DeferSucceeds(s, req, faults);
    var acts := CycleActivities(s, req.oldDate);
    var id := req.activityId.value;
    var offset := Defer(s, req, faults).body.value.daysShifted;
    var q := Queue(acts, offset, id);
    var run := Run(s, 0, [Event(id, req.oldDate.parsed.value, req.newDate.parsed.value, false)]);
    assert DistinctQueued(q) by {
      QueryKeepsDistinctIds(s.rows, CycleFilter(OldDateCycle(req.oldDate).value.number, req.oldDate.parsed.value.date.year));
      QueueKeepsDistinctIds(acts, Reassign(acts, Anchor(acts[0].scheduled, offset)), id);
    }
    assert RunUpdates(run, q, 0, faults.failingUpdates).store.rows[i] ==
      (if j in faults.failingUpdates then s.rows[i] else Rescheduled(s.rows[i], q[j])) by {
      forall j' | 0 <= j' < |q| && j' != j
        ensures q[j'].id != q[j].id
      {
        if j' > j {
          assert q[j].id != q[j'].id;
        }
      }
      RunUpdatesWrites(run, q, 0, faults.failingUpdates, j, i);
    }
    assert q[j] in q;
  }

  /** A successful deferral is the run of its queue over the store, after the deferral's own event. */
  lemma DeferSucceeds(s: Store, req: DeferRequest, faults: DeferFaults)
    requires Defer(s, req, faults).body.Success?
    ensures && !MissingField(req) && IsValidIsoDate(req.newDate)
            && req.oldDate.Given? && OldDateCycle(req.oldDate).Some? && req.oldDate.parsed.Some?
            && CycleActivities(s, req.oldDate) != []
    ensures var o := Defer(s, req, faults).body.value;
      var main := Event(req.activityId.value, req.oldDate.parsed.value, req.newDate.parsed.value, false);
      var q := Queue(CycleActivities(s, req.oldDate), o.daysShifted, req.activityId.value);
      && o.daysShifted == WorkingDaysDifference(req.oldDate.parsed.value, req.newDate.parsed.value)
      && Defer(s, req, faults).store == RunUpdates(Run(s, 0, [main]), q, 0, faults.failingUpdates).store
  {
  }
}

=== FILE: shifter.dfy ===
/**
 * `shiftCalendarForward` of the completion handler: every pending activity at
 * or after an insertion instant is moved, in (date, block, day) order, to the
 * next non-Sunday after the previously assigned date, starting from the
 * insertion date itself. The new activity is then placed on the insertion date.
 */
module Shifter {
  import opened Base
  import opened Calendar
  import opened Workdays
  import opened Activities
  import opened Names

  /** One entry of `redistribution_details`. */
  datatype Detail =
    | Updated(id: ActivityId, before: real, after: real)                // 'actualizada'
    | Created(id: ActivityId, hectares: real)                           // 'nueva_actividad'
    | Deleted(id: ActivityId, before: real)                             // 'eliminada'
    | Warning(subject: Option<ActivityId>, change: Option<(real, real)>) // 'warning'
    | Shifted(id: ActivityId, from: Timestamp, to: Timestamp)           // 'desplazada'

  /** Where the store throws inside the shifter: the fetch, or the write of the `at`-th activity. */
  datatype ShiftFault = NoFault | FetchFails | WriteFails(at: nat)

  const Pending: set<Status> := {Scheduled, Deferred}

  /** `extractBlockNumber(name) || 999`: a missing or zero block sorts last. */
  function ShiftBlock(name: string): (b: nat)
    ensures b != 0
    ensures ExtractBlockNumber(name).None? || ExtractBlockNumber(name) == Some(0) ==> b == 999
    ensures ExtractBlockNumber(name).Some? && ExtractBlockNumber(name).value != 0 ==> b == ExtractBlockNumber(name).value
  {
    var n := ExtractBlockNumber(name);
    if n.Some? && n.value != 0 then n.value else 999
  }

  /** The comparator of the shifter: date, then block, then day index. */
  function ShiftKey(a: Activity): Key {
    Key(DayNumber(a.scheduled.date), a.scheduled.time, ShiftBlock(a.name), ExtractDayNumber(a.name))
  }

  function ShiftFilter(insertion: Timestamp): Filter {
    Filter(None, Some(insertion), None, None, Some(Pending), None)
  }

  /**
   * The activities to shift, in processing order: the pending rows dated at
   * or after the insertion instant, sorted by (date, block, day index).
   */
  function Candidates(rows: seq<Activity>, insertion: Timestamp): (r: seq<Activity>)
    ensures forall a :: a in r <==> a in rows && a.status in Pending && !Before(a.scheduled, insertion)
    ensures SortedBy(r, ShiftKey)
    ensures multiset(r) == multiset(Select(rows, ShiftFilter(insertion)))
  {
    var q := Query(rows, ShiftFilter(insertion));
    var r := SortByKey(q, ShiftKey);
    assert forall a :: a in r <==> a in multiset(r);
    assert forall a :: a in q <==> a in multiset(q);
    r
  }

  /** `t` after `k` calls of `getNextWorkday`. */
  function AfterWorkdays(t: Timestamp, k: nat): Timestamp
    decreases k
  {
    if k == 0 then t else AfterWorkdays(NextWorkday(t), k - 1)
  }

  /**
   * Each call of `getNextWorkday` moves at least one and at most two days, so
   * `k` calls land between `k` and `2k` days later, at the same time of day
   * and, after at least one call, never on a Sunday.
   */
  lemma {:induction false} AfterWorkdaysBounds(t: Timestamp, k: nat)
    ensures DayNumber(t.date) + k <= DayNumber(AfterWorkdays(t, k).date) <= DayNumber(t.date) + 2 * k
    ensures AfterWorkdays(t, k).time == t.time
    ensures k > 0 ==> Weekday(AfterWorkdays(t, k).date) != Sunday
    decreases k
  {
    if k > 0 {
      AfterWorkdaysBounds(NextWorkday(t), k - 1);
    }
  }

  /** An instant on a later day is later, whatever the times of day. */
  lemma LaterDayIsBefore(x: Timestamp, y: Timestamp)
    requires DayNumber(x.date) < DayNumber(y.date)
    ensures Before(x, y)
  {
  }

  /** Later calls give strictly later days. */
  lemma {:induction false} AfterWorkdaysIncreasing(t: Timestamp, j: nat, k: nat)
    requires j < k
    ensures DayNumber(AfterWorkdays(t, j).date) < DayNumber(AfterWorkdays(t, k).date)
    decreases j
  {
    if j == 0 {
      AfterWorkdaysBounds(t, k);
    } else {
      AfterWorkdaysIncreasing(NextWorkday(t), j - 1, k - 1);
    }
  }

  /** One planned write: `activity` goes to `to`. */
  datatype Move = Move(activity: Activity, to: Timestamp)

  /**
   * The loop of the shifter over the sorted activities. An activity at or
   * after the insertion instant gets the next working day after `cur`, which
   * then becomes the reference for the next one; an earlier one is skipped.
   */
  function PlanMoves(acts: seq<Activity>, insertion: Timestamp, cur: Timestamp): (r: seq<Move>)
    ensures |r| <= |acts|
  {
    if acts == [] then []
    else if !Before(acts[0].scheduled, insertion) then
      var next := NextWorkday(cur);
      [Move(acts[0], next)] + PlanMoves(acts[1..], insertion, next)
    else
      PlanMoves(acts[1..], insertion, cur)
  }

  /**
   * When every activity is at or after the insertion instant (as every
   * fetched one is), the loop moves all of them, in order, the `k`-th to the
   * date `k + 1` working-day steps after the starting reference `cur`.
   */
  lemma {:induction false} PlanAssignsSuccessiveWorkdays(acts: seq<Activity>, insertion: Timestamp, cur: Timestamp)
    requires forall a :: a in acts ==> !Before(a.scheduled, insertion)
    ensures |PlanMoves(acts, insertion, cur)| == |acts|
    ensures forall k :: 0 <= k < |acts| ==> PlanMoves(acts, insertion, cur)[k] == Move(acts[k], AfterWorkdays(cur, k + 1))
  {
    if acts != [] {
      assert acts[0] in acts;
      assert forall a :: a in acts[1..] ==> a in acts;
      PlanAssignsSuccessiveWorkdays(acts[1..], insertion, NextWorkday(cur));
      assert forall k :: 1 <= k < |acts| ==> acts[1..][k - 1] == acts[k];
    }
  }

  /** `update({ scheduled_date })`. */
  function Reschedule(to: Timestamp): Patch {
    Patch(None, None, None, None, Some(to))
  }

  /** Performs the writes of `moves` in order. */
  function ApplyMoves(s: Store, moves: seq<Move>): Store
    decreases |moves|
  {
    if moves == [] then s
    else ApplyMoves(Update(s, moves[0].activity.id, Reschedule(moves[0].to)), moves[1..])
  }

  /** The date the last move of activity `id` assigns, if any. */
  function MovedTo(moves: seq<Move>, id: ActivityId): Option<Timestamp>
    decreases |moves|
  {
    if moves == [] then None
    else
      var later := MovedTo(moves[1..], id);
      if later.Some? then later
      else if moves[0].activity.id == id then Some(moves[0].to)
      else None
  }

  /**
   * The writes change only `scheduled_date`: a row keeps everything else,
   * gets the date of the last move of its id, and rows no move names are
   * untouched.
   */
  lemma {:induction false} ApplyMovesEffect(s: Store, moves: seq<Move>)
    ensures |ApplyMoves(s, moves).rows| == |s.rows|
    ensures ApplyMoves(s, moves).nextId == s.nextId
    ensures forall i :: 0 <= i < |s.rows| ==>
      ApplyMoves(s, moves).rows[i] == s.rows[i].(scheduled := MovedTo(moves, s.rows[i].id).GetOr(s.rows[i].scheduled))
    decreases |moves|
  {
    if moves != [] {
      var s' := Update(s, moves[0].activity.id, Reschedule(moves[0].to));
      ApplyMovesEffect(s', moves[1..]);
    }
  }

  /** The `desplazada` details of `moves`, one per write, in order. */
  function ShiftDetails(moves: seq<Move>): (r: seq<Detail>)
    ensures |r| == |moves|
    ensures forall k :: 0 <= k < |moves| ==>
      r[k] == Shifted(moves[k].activity.id, moves[k].activity.scheduled, moves[k].to)
  {
    if moves == [] then []
    else [Shifted(moves[0].activity.id, moves[0].activity.scheduled, moves[0].to)] + ShiftDetails(moves[1..])
  }

  /** The store after the shift, the details it appended and the count it returned. */
  datatype ShiftResult = ShiftResult(store: Store, details: seq<Detail>, count: nat)

  /** The writes the shifter plans for `s` and the insertion instant. */
  function ShiftPlan(s: Store, insertion: Timestamp): seq<Move> {
    PlanMoves(Candidates(s.rows, insertion), insertion, insertion)
  }

  /**
   * `shiftCalendarForward(insertion, details)`. On success the count is the
   * number of writes and each write has its `desplazada` detail. When the
   * store throws, the writes made so far stay, exactly one `warning` is
   * appended after their details, and the count is 0.
   */
  function ShiftCalendarForward(s: Store, insertion: Timestamp, fault: ShiftFault): (r: ShiftResult)
    ensures fault.FetchFails? ==> r == ShiftResult(s, [Warning(None, None)], 0)
    ensures fault.WriteFails? && fault.at < |ShiftPlan(s, insertion)| ==> (
      && |r.details| == fault.at + 1
      && r.details[fault.at] == Warning(None, None)
      && r.count == 0
      && r.store == ApplyMoves(s, ShiftPlan(s, insertion)[..fault.at])
      && r.details[..fault.at] == ShiftDetails(ShiftPlan(s, insertion)[..fault.at]))
    ensures (fault.NoFault? || (fault.WriteFails? && fault.at >= |ShiftPlan(s, insertion)|)) ==>
      && r.count == |r.details| == |ShiftPlan(s, insertion)|
      && r.details == ShiftDetails(ShiftPlan(s, insertion))
      && r.store == ApplyMoves(s, ShiftPlan(s, insertion))
    ensures r.count == 0 || forall k :: 0 <= k < |r.details| ==> r.details[k].Shifted?
  {
    if fault.FetchFails? then
      ShiftResult(s, [Warning(None, None)], 0)
    else
      var moves := ShiftPlan(s, insertion);
      if fault.WriteFails? && fault.at < |moves| then
        var done := ShiftDetails(moves[..fault.at]);
        assert (done + [Warning(None, None)])[..|done|] == done;
        ShiftResult(ApplyMoves(s, moves[..fault.at]), done + [Warning(None, None)], 0)
      else
        ShiftResult(ApplyMoves(s, moves), ShiftDetails(moves), |moves|)
  }

  /** Every candidate is moved, the `k`-th to `k + 1` working-day steps after the insertion. */
  lemma PlanOfCandidates(s: Store, insertion: Timestamp)
    ensures |ShiftPlan(s, insertion)| == |Candidates(s.rows, insertion)|
    ensures forall k :: 0 <= k < |ShiftPlan(s, insertion)| ==>
      ShiftPlan(s, insertion)[k] == Move(Candidates(s.rows, insertion)[k], AfterWorkdays(insertion, k + 1))
  {
    var acts := Candidates(s.rows, insertion);
    assert forall a :: a in acts ==> !Before(a.scheduled, insertion);
    PlanAssignsSuccessiveWorkdays(acts, insertion, insertion);
  }

  /** `u` is a non-Sunday on a day after `t`'s, at `t`'s time of day. */
  predicate LandsAfter(t: Timestamp, u: Timestamp) {
    && Weekday(u.date) != Sunday
    && u.time == t.time
    && DayNumber(t.date) < DayNumber(u.date)
  }

  /**
   * The dates the shifter assigns are non-Sundays at the insertion's time of
   * day, all on days after the insertion day.
   */
  lemma ShiftPlanShape(s: Store, insertion: Timestamp)
    ensures forall k :: 0 <= k < |ShiftPlan(s, insertion)| ==> LandsAfter(insertion, ShiftPlan(s, insertion)[k].to)
  {
    PlanOfCandidates(s, insertion);
    SuccessiveWorkdaysLand(ShiftPlan(s, insertion), insertion);
  }

  /** Moves to successive working-day steps after `t` land after `t`. */
  lemma SuccessiveWorkdaysLand(moves: seq<Move>, t: Timestamp)
    requires forall k :: 0 <= k < |moves| ==> moves[k].to == AfterWorkdays(t, k + 1)
    ensures forall k :: 0 <= k < |moves| ==> LandsAfter(t, moves[k].to)
  {
    forall k | 0 <= k < |moves|
      ensures LandsAfter(t, moves[k].to)
    {
      StepLands(t, k);
    }
  }

  /** The instant `k + 1` working-day steps after `t` lands after `t`. */
  lemma StepLands(t: Timestamp, k: nat)
    ensures LandsAfter(t, AfterWorkdays(t, k + 1))
  {
    AfterWorkdaysBounds(t, k + 1);
  }

  /** The dates the shifter assigns are strictly increasing. */
  lemma ShiftPlanIncreasing(s: Store, insertion: Timestamp)
    ensures forall j, k :: 0 <= j < k < |ShiftPlan(s, insertion)| ==>
      Before(ShiftPlan(s, insertion)[j].to, ShiftPlan(s, insertion)[k].to)
  {
    PlanOfCandidates(s, insertion);
    SuccessiveWorkdaysIncrease(ShiftPlan(s, insertion), insertion);
  }

  /** Moves to successive working-day steps after `t` go to strictly later instants. */
  lemma SuccessiveWorkdaysIncrease(moves: seq<Move>, t: Timestamp)
    requires forall k :: 0 <= k < |moves| ==> moves[k].to == AfterWorkdays(t, k + 1)
    ensures forall j, k :: 0 <= j < k < |moves| ==> Before(moves[j].to, moves[k].to)
  {
    forall j, k | 0 <= j < k < |moves|
      ensures Before(moves[j].to, moves[k].to)
    {
      StepsIncrease(t, j, k);
    }
  }

  /** More working-day steps after `t` give a strictly later instant. */
  lemma StepsIncrease(t: Timestamp, j: nat, k: nat)
    requires j < k
    ensures Before(AfterWorkdays(t, j + 1), AfterWorkdays(t, k + 1))
  {
    AfterWorkdaysIncreasing(t, j + 1, k + 1);
    LaterDayIsBefore(AfterWorkdays(t, j + 1), AfterWorkdays(t, k + 1));
  }

  /**
   * Shifting compacts: the `k`-th candidate lands at most `2(k + 1)` days
   * after the insertion day, so a candidate scheduled later than that is
   * moved EARLIER, not later.
   */
  lemma ShiftCanMoveEarlier(acts: seq<Activity>, insertion: Timestamp, k: nat)
    requires forall a :: a in acts ==> !Before(a.scheduled, insertion)
    requires k < |acts|
    requires DayNumber(acts[k].scheduled.date) > DayNumber(insertion.date) + 2 * (k + 1)
    ensures |PlanMoves(acts, insertion, insertion)| == |acts|
    ensures Before(PlanMoves(acts, insertion, insertion)[k].to, acts[k].scheduled)
  {
    PlanAssignsSuccessiveWorkdays(acts, insertion, insertion);
    AfterWorkdaysBounds(insertion, k + 1);
  }

  /** Two sums that agree term by term are equal. */
  lemma {:induction false} SumOfSameTerms(a: seq<Activity>, b: seq<Activity>, f: Activity -> real)
    requires |a| == |b|
    requires forall i :: 0 <= i < |a| ==> f(a[i]) == f(b[i])
    ensures SumOf(a, f) == SumOf(b, f)
  {
    if a != [] {
      SumOfSameTerms(a[1..], b[1..], f);
    }
  }

  /** `x` is `y` with at most its date changed. */
  predicate SameButDate(x: Activity, y: Activity) {
    x == y.(scheduled := x.scheduled)
  }

  /** Row by row, `after` is `before` with at most the dates changed. */
  predicate DatesOnly(after: seq<Activity>, before: seq<Activity>) {
    && |after| == |before|
    && forall i :: 0 <= i < |before| ==> SameButDate(after[i], before[i])
  }

  /**
   * Whatever fails, the shift keeps every row in its place and changes at
   * most its date; no row is added or removed.
   */
  lemma ShiftChangesDatesOnly(s: Store, insertion: Timestamp, fault: ShiftFault)
    ensures DatesOnly(ShiftCalendarForward(s, insertion, fault).store.rows, s.rows)
    ensures ShiftCalendarForward(s, insertion, fault).store.nextId == s.nextId
  {
    var moves := ShiftPlan(s, insertion);
    if fault.WriteFails? && fault.at < |moves| {
      ApplyMovesEffect(s, moves[..fault.at]);
    } else if !fault.FetchFails? {
      ApplyMovesEffect(s, moves);
    }
  }

  /** Shifting moves dates only: the planned hectares of the store are unchanged. */
  lemma ShiftKeepsPlannedTotal(s: Store, insertion: Timestamp, fault: ShiftFault)
    ensures SumOf(ShiftCalendarForward(s, insertion, fault).store.rows, StoredPlanned) == SumOf(s.rows, StoredPlanned)
  {
    var moves := ShiftPlan(s, insertion);
    if fault.WriteFails? && fault.at < |moves| {
      ApplyMovesKeepsPlanned(s, moves[..fault.at]);
    } else if !fault.FetchFails? {
      ApplyMovesKeepsPlanned(s, moves);
    }
  }

  /** The writes of a plan leave the planned hectares of the store unchanged. */
  lemma ApplyMovesKeepsPlanned(s: Store, moves: seq<Move>)
    ensures SumOf(ApplyMoves(s, moves).rows, StoredPlanned) == SumOf(s.rows, StoredPlanned)
  {
    ApplyMovesEffect(s, moves);
    SumOfSameTerms(ApplyMoves(s, moves).rows, s.rows, StoredPlanned);
  }
}

=== FILE: text.dfy ===
/**
 * Character classes, case folding, decimal digit runs, substring search and
 * the small family of regular expressions the activity names are parsed with.
 *
 * Every regular expression the engine uses has the shape
 *   piece piece ... (\d+)
 * where a piece is a literal (optionally case-insensitive) or a `\s+`/`\s*`
 * run. `Pattern` captures exactly that shape; `Exec` gives the capture of the
 * leftmost match, as `String.prototype.match` does for a non-global regex.
 */
module Text {
  import opened Base

  predicate IsDigit(c: char) {
    '0' <= c <= '9'
  }

  /** The characters matched by the `\s` class of JavaScript regular expressions. */
  predicate IsSpace(c: char) {
    || c == ' ' || c == '\t' || c == '\n' || c == '\r'
    || c == '\U{000B}' || c == '\U{000C}' || c == '\U{00A0}' || c == '\U{1680}'
    || ('\U{2000}' <= c <= '\U{200A}')
    || c == '\U{2028}' || c == '\U{2029}' || c == '\U{202F}' || c == '\U{205F}'
    || c == '\U{3000}' || c == '\U{FEFF}'
  }

  /**
   * Simple lower-case folding of the Basic Latin and Latin-1 letters
   * (A-Z and À-Þ except ×), which covers every letter the name patterns
   * and keywords use, accented Spanish vowels included.
   */
  function Fold(c: char): char {
    if 'A' <= c <= 'Z' || ('\U{00C0}' <= c <= '\U{00DE}' && c != '\U{00D7}') then
      (c as int + 32) as char
    else
      c
  }

  predicate CharMatches(c: char, p: char, ignoreCase: bool) {
    if ignoreCase then Fold(c) == Fold(p) else c == p
  }

  /** `lit` occurs in `s` starting at position `i`. */
  predicate LitAt(s: string, i: nat, lit: string, ignoreCase: bool) {
    && i + |lit| <= |s|
    && forall k :: 0 <= k < |lit| ==> CharMatches(s[i + k], lit[k], ignoreCase)
  }

  /**
   * `t` occurs somewhere in `s` at or after position `from`
   * (`String.prototype.includes`, or SQL `ILIKE '%t%'` when `ignoreCase`).
   */
  function OccursFrom(s: string, t: string, ignoreCase: bool, from: nat): (r: bool)
    ensures r <==> exists i :: from <= i && LitAt(s, i, t, ignoreCase)
    decreases |s| + 1 - from
  {
    if from + |t| > |s| then
      assert forall i :: from <= i ==> !LitAt(s, i, t, ignoreCase);
      false
    else if LitAt(s, from, t, ignoreCase) then
      true
    else
      var r := OccursFrom(s, t, ignoreCase, from + 1);
      assert forall i :: from <= i ==> (LitAt(s, i, t, ignoreCase) <==> i != from && from + 1 <= i && LitAt(s, i, t, ignoreCase));
      r
  }

  predicate Contains(s: string, t: string, ignoreCase: bool) {
    OccursFrom(s, t, ignoreCase, 0)
  }

  /**
   * The end of the maximal run of characters satisfying `inClass` that starts
   * at `j`: what a greedy `\d+` or `\s*` consumes.
   */
  function RunEnd(s: string, j: nat, inClass: char -> bool): (e: nat)
    requires j <= |s|
    ensures j <= e <= |s|
    ensures forall k :: j <= k < e ==> inClass(s[k])
    ensures e == |s| || !inClass(s[e])
    decreases |s| - j
  {
    if j == |s| || !inClass(s[j]) then j else RunEnd(s, j + 1, inClass)
  }

  /** `parseInt` of a non-empty run of decimal digits. */
  function DecimalValue(ds: string): nat
    requires forall k :: 0 <= k < |ds| ==> IsDigit(ds[k])
  {
    if ds == [] then 0
    else
      assert IsDigit(ds[|ds| - 1]);
      DecimalValue(ds[..|ds| - 1]) * 10 + (ds[|ds| - 1] as int - '0' as int)
  }

  /** The decimal digit of `d`. */
  function DigitChar(d: nat): (c: char)
    requires d < 10
    ensures IsDigit(c) && c as int - '0' as int == d
  {
    ('0' as int + d) as char
  }

  /** `${n}` for a non-negative integer: its shortest decimal numeral. */
  function DecimalText(n: nat): (s: string)
    ensures |s| > 0 && forall k :: 0 <= k < |s| ==> IsDigit(s[k])
    ensures |s| > 1 ==> s[0] != '0'
    decreases n
  {
    if n < 10 then [DigitChar(n)] else DecimalText(n / 10) + [DigitChar(n % 10)]
  }

  /** Reading back a written number gives the number. */
  lemma {:induction false} DecimalTextRoundTrip(n: nat)
    ensures DecimalValue(DecimalText(n)) == n
    decreases n
  {
    var s := DecimalText(n);
    if n >= 10 {
      DecimalTextRoundTrip(n / 10);
      assert s[..|s| - 1] == DecimalText(n / 10);
    } else {
      assert s[..|s| - 1] == [];
    }
  }

  /** One element of a name pattern. */
  datatype Piece =
    | Lit(text: string)       // a literal
    | Spaces(atLeast: nat)    // `\s*` (0) or `\s+` (1)

  /**
   * `pieces` followed by a captured `(\d+)`. In every pattern of the engine a
   * `Spaces` piece is followed by a literal that starts with a letter or by the
   * digit capture, so consuming the whole whitespace run is the only way a
   * backtracking matcher can succeed, and greedy consumption is exact.
   */
  datatype Pattern = Pattern(pieces: seq<Piece>, ignoreCase: bool)

  /** The position just after `ps` when they match `s` from `i`. */
  function MatchPieces(s: string, i: nat, ps: seq<Piece>, ignoreCase: bool): (r: Option<nat>)
    requires i <= |s|
    ensures r.Some? ==> i <= r.value <= |s|
    decreases |ps|
  {
    if ps == [] then Some(i)
    else match ps[0]
      case Lit(t) =>
        if LitAt(s, i, t, ignoreCase) then MatchPieces(s, i + |t|, ps[1..], ignoreCase) else None
      case Spaces(n) =>
        var e := RunEnd(s, i, IsSpace);
        if e - i >= n then MatchPieces(s, e, ps[1..], ignoreCase) else None
  }

  /** The half-open index range of a captured digit run. */
  datatype Span = Span(start: nat, end: nat)

  /** The captured digits when `p` matches `s` at position `i`. */
  function MatchSpan(s: string, i: nat, p: Pattern): (r: Option<Span>)
    requires i <= |s|
    ensures r.Some? ==> i <= r.value.start < r.value.end <= |s|
    ensures r.Some? ==> forall k :: r.value.start <= k < r.value.end ==> IsDigit(s[k])
    ensures r.Some? ==> r.value.end == |s| || !IsDigit(s[r.value.end])
  {
    match MatchPieces(s, i, p.pieces, p.ignoreCase)
    case None => None
    case Some(j) =>
      if j < |s| && IsDigit(s[j]) then Some(Span(j, RunEnd(s, j, IsDigit))) else None
  }

  /** The leftmost position at or after `from` where `p` matches. */
  function FirstMatch(s: string, p: Pattern, from: nat): (r: Option<nat>)
    requires from <= |s| + 1
    ensures r.None? <==> forall i :: from <= i <= |s| ==> MatchSpan(s, i, p).None?
    ensures r.Some? ==> from <= r.value <= |s| && MatchSpan(s, r.value, p).Some?
    ensures r.Some? ==> forall i :: from <= i < r.value ==> MatchSpan(s, i, p).None?
    decreases |s| + 1 - from
  {
    if from > |s| then None
    else if MatchSpan(s, from, p).Some? then Some(from)
    else FirstMatch(s, p, from + 1)
  }

  /** The number `s.match(p)[1]` parses to, or `None` when `p` does not match. */
  function Exec(s: string, p: Pattern): Option<nat> {
    match FirstMatch(s, p, 0)
    case None => None
    case Some(i) =>
      var sp := MatchSpan(s, i, p).value;
      Some(DecimalValue(s[sp.start..sp.end]))
  }

  /**
   * `Exec` returns the value of the WHOLE digit run that follows the leftmost
   * match (a two-digit block number is never read as its first digit), and
   * returns nothing exactly when the pattern matches nowhere.
   */
  lemma ExecCapturesLeftmostGreedyRun(s: string, p: Pattern)
    ensures Exec(s, p).None? <==> forall i :: 0 <= i <= |s| ==> MatchSpan(s, i, p).None?
    ensures Exec(s, p).Some? ==>
      exists i :: 0 <= i <= |s| && LeftmostGreedyCapture(s, p, i, Exec(s, p).value)
  {
    match FirstMatch(s, p, 0)
    case None =>
    case Some(i) =>
      assert LeftmostGreedyCapture(s, p, i, Exec(s, p).value);
  }

  /** `p` first matches `s` at `i`, capturing the maximal digit run whose value is `n`. */
  ghost predicate LeftmostGreedyCapture(s: string, p: Pattern, i: nat, n: nat)
    requires i <= |s|
  {
    && MatchSpan(s, i, p).Some?
    && (forall i' :: 0 <= i' < i ==> MatchSpan(s, i', p).None?)
    && var sp := MatchSpan(s, i, p).value;
       && (sp.end == |s| || !IsDigit(s[sp.end]))
       && n == DecimalValue(s[sp.start..sp.end])
  }
}

=== FILE: workdays.dfy ===
/**
 * Working-day arithmetic. Both request handlers treat Monday to Saturday as
 * working days and Sunday as the only day off; stepping keeps the time of day.
 */
module Workdays {
  import opened Calendar

  /** `isWorkingDay` of the deferral handler: `getDay()` between 1 and 6. */
  predicate IsWorkingDay(d: CivilDate) {
    1 <= Weekday(d) <= 6
  }

  /** Sunday is the only non-working day. */
  lemma OnlySundayIsOff(d: CivilDate)
    ensures !IsWorkingDay(d) <==> Weekday(d) == Sunday
  {
  }

  /**
   * The first working day at or after `d`: the loop that advances one day
   * at a time while the day is not a working day.
   */
  function AdvanceToWorkingDay(d: CivilDate): (r: CivilDate)
    ensures IsWorkingDay(r)
    ensures DayNumber(r) == DayNumber(d) || (!IsWorkingDay(d) && DayNumber(r) == DayNumber(d) + 1)
    decreases if IsWorkingDay(d) then 0 else 1
  {
    if IsWorkingDay(d) then d else AdvanceToWorkingDay(NextDate(d))
  }

  /** The last working day at or before `d`, stepping back one day at a time. */
  function RetreatToWorkingDay(d: CivilDate): (r: CivilDate)
    ensures IsWorkingDay(r)
    ensures DayNumber(r) == DayNumber(d) || (!IsWorkingDay(d) && DayNumber(r) == DayNumber(d) - 1)
    decreases if IsWorkingDay(d) then 0 else 1
  {
    if IsWorkingDay(d) then d else RetreatToWorkingDay(PrevDate(d))
  }

  /**
   * `getNextWorkingDay`: step one day forward, then keep stepping while the
   * day is not a working day. The result is the first working day after `t`.
   */
  function NextWorkingDay(t: Timestamp): (r: Timestamp)
    ensures IsWorkingDay(r.date) && r.time == t.time
    ensures DayNumber(r.date) == DayNumber(t.date) + 1
         || (!IsWorkingDay(NextDate(t.date)) && DayNumber(r.date) == DayNumber(t.date) + 2)
  {
    OnDate(t, AdvanceToWorkingDay(NextDate(t.date)))
  }

  /**
   * `getPreviousWorkingDay`: step one day back, then keep stepping back while
   * the day is not a working day. The result is the last working day before `t`.
   */
  function PreviousWorkingDay(t: Timestamp): (r: Timestamp)
    ensures IsWorkingDay(r.date) && r.time == t.time
    ensures DayNumber(r.date) == DayNumber(t.date) - 1
         || (!IsWorkingDay(PrevDate(t.date)) && DayNumber(r.date) == DayNumber(t.date) - 2)
  {
    OnDate(t, RetreatToWorkingDay(PrevDate(t.date)))
  }

  /** The loop of `getNextWorkday` in the completion handler: skip Sundays only. */
  function SkipSundays(d: CivilDate): (r: CivilDate)
    ensures Weekday(r) != Sunday
    ensures DayNumber(r) == DayNumber(d) || (Weekday(d) == Sunday && DayNumber(r) == DayNumber(d) + 1)
    decreases if Weekday(d) == Sunday then 1 else 0
  {
    if Weekday(d) == Sunday then SkipSundays(NextDate(d)) else d
  }

  /**
   * `getNextWorkday` of the completion handler: strictly after `t`, never a
   * Sunday, at most two days later, same time of day.
   */
  function NextWorkday(t: Timestamp): (r: Timestamp)
    ensures Before(t, r)
    ensures Weekday(r.date) != Sunday
    ensures DayNumber(t.date) < DayNumber(r.date) <= DayNumber(t.date) + 2
    ensures r.time == t.time
  {
    OnDate(t, SkipSundays(NextDate(t.date)))
  }

  /** The two handlers' "next working day" functions agree. */
  lemma NextWorkdayAgrees(t: Timestamp)
    ensures NextWorkday(t) == NextWorkingDay(t)
  {
    var a := NextWorkday(t).date;
    var b := NextWorkingDay(t).date;
    DayNumberInjective(a, b);
  }

  /** `t` moved `k` working days forward, one `getNextWorkingDay` at a time. */
  function StepsForward(t: Timestamp, k: nat): Timestamp
    decreases k
  {
    if k == 0 then t else StepsForward(NextWorkingDay(t), k - 1)
  }

  /** `t` moved `k` working days backward, one `getPreviousWorkingDay` at a time. */
  function StepsBackward(t: Timestamp, k: nat): Timestamp
    decreases k
  {
    if k == 0 then t else StepsBackward(PreviousWorkingDay(t), k - 1)
  }

  /**
   * The forward loop of `getWorkingDaysDifference`: the number of working-day
   * steps after which the cursor first reaches or passes `end`.
   */
  function CountForward(cur: Timestamp, end: Timestamp): (n: nat)
    ensures !Before(StepsForward(cur, n), end)
    ensures forall j :: 0 <= j < n ==> Before(StepsForward(cur, j), end)
    decreases DayNumber(end.date) - DayNumber(cur.date) + 1
  {
    if Before(cur, end) then
      var n := 1 + CountForward(NextWorkingDay(cur), end);
      assert forall j :: 1 <= j < n ==> StepsForward(cur, j) == StepsForward(NextWorkingDay(cur), j - 1);
      n
    else
      0
  }

  /**
   * The backward loop of `getWorkingDaysDifference`: the number of steps back
   * after which the cursor first reaches or passes `end`.
   */
  function CountBackward(cur: Timestamp, end: Timestamp): (n: nat)
    ensures !Before(end, StepsBackward(cur, n))
    ensures forall j :: 0 <= j < n ==> Before(end, StepsBackward(cur, j))
    decreases DayNumber(cur.date) - DayNumber(end.date) + 1
  {
    if Before(end, cur) then
      var n := 1 + CountBackward(PreviousWorkingDay(cur), end);
      assert forall j :: 1 <= j < n ==> StepsBackward(cur, j) == StepsBackward(PreviousWorkingDay(cur), j - 1);
      n
    else
      0
  }

  /**
   * `getWorkingDaysDifference(a, b)`: zero exactly when the instants are equal,
   * positive exactly when `a` is earlier, negative exactly when `a` is later;
   * its magnitude is the number of single working-day steps from `a` until the
   * cursor reaches or passes `b`.
   */
  function WorkingDaysDifference(a: Timestamp, b: Timestamp): (r: int)
    ensures r == 0 <==> a == b
    ensures r > 0 <==> Before(a, b)
    ensures r < 0 <==> Before(b, a)
    ensures r >= 0 ==> (
      && !Before(StepsForward(a, r), b)
      && forall j :: 0 <= j < r ==> Before(StepsForward(a, j), b))
    ensures r < 0 ==> (
      && !Before(b, StepsBackward(a, -r))
      && forall j :: 0 <= j < -r ==> Before(b, StepsBackward(a, j)))
  {
    InstantOrderTotal(a, b);
    if Before(b, a) then
      var n: int := CountBackward(a, b);
      assert n > 0 by { assert StepsBackward(a, 0) == a; }
      -n
    else
      var n := CountForward(a, b);
      assert n > 0 <== Before(a, b) by { assert StepsForward(a, 0) == a; }
      n
  }
}
